=== FILE: README.md ===
# ilda-tools, modelled in Dafny

ilda-tools turns laser-show animations into multichannel audio and back. An animation is a sequence of
frames. Each frame is a list of points with coordinates, a colour and a blank flag. In the audio, each
channel carries one signal: an axis, a colour intensity or the blanking signal. This project models
the core of those conversions and proves what each part promises:

- **`ilda2wav`** (Rust encoder). It parses the channel mapping string and maps every point to one
  normalised value per channel. The `WavProgress` sample clock turns continuous time into whole sample
  slots. The per-frame loop spends those slots in two phases for each point: a travel ramp, whose time
  is shared in proportion to distance, and a fixed dwell.
  Modules: `ChannelMap`, `WavProgress`, `FrameEncoder`.
- **`ildawav2ilda`** (Rust decoder). `to_point` turns one sample vector back into a point. The raw and
  hound readers group samples into points. The main loop cuts the point stream into frames by elapsed
  sample time.
  Modules: `PointDecoder`, `FrameSplitter`.
- **The C++ `ILDAWavOutput`** (legacy encoder). It uses integer scheduling: `groupSizeOfNthGroup`
  shares a budget out evenly, and axis values are interpolated with C integer arithmetic. It also
  keeps the RIFF WAVE header's size arithmetic.
  Modules: `GroupSize`, `LegacyWav`, `WavHeader`.
- **The C++ `ILDAIStream`**, a reader of the ILDA Image Data Transfer Format. It handles the 32-byte
  section header and formats 0 and 1 (indexed colour), 2 (colour palette) and 4 and 5 (true colour).
  It uses the 64-entry default palette and reports every failure as a thrown error.
  Modules: `IldaFormat` (the packed record layouts), `IldaReader`, `IldaSections` (the round trips).
- **Replay adapters.** Rust's `memory_cycle` and the C++ `ILDARepeater` both record a stream and then
  replay it round and round. Their replay orders differ, and `IldaRepeater.RustReplayIsOneAhead`
  pins the difference down.
  Modules: `MemoryCycle`, `IldaRepeater`.
- **`FullBufWriter`**: a seekable in-memory buffer that reaches the wrapped writer exactly once.
  Module: `FullBufWriter`.

Shared definitions:
- `Bytes` handles little- and big-endian byte strings.
- `CInt` handles C's truncating `/` and `%` and the wrap-around of `int16_t`.
- `IldaFrame` holds the points and frames.
- `Wrappers` holds `Option` and `Result`.
- `Seqs` holds the concatenation of a sequence of sequences.
- `Utf8` holds the byte length of a string, which is what both tools count as channels.

`f64` is modelled as `real`. NaN is modelled explicitly only where the encoder depends on it: the
sample clock after a frame whose points all lie on top of each other.

Three behaviours of the code that are easy to miss:

- **In exact arithmetic, the decoder's first frame is one point longer.** The decoder flushes a frame
  only once the clock is strictly past the frame end. A stream of exactly one frame's worth of points
  therefore comes out as one frame (`FrameSplitter.OneFrameWorth`). In a longer stream, though, the
  first frame holds n + 1 points and every later frame n (`FrameSplitter.WholeFrames`). The decoder
  computes in `f64`, where rounding can move any of these boundaries by one point.
- **The decoder always uses the configured sample rate.** Its frame clock uses `--sample-rate` for
  WAV input too, not the file's own rate. The model takes the sample period as a parameter.
- **The container parameters are not checked.** Neither tool compares them with the command line.

## Model

| member | source | states |
|---|---|---|
| Bytes.LeRoundTrip | src/ilda_wav.cpp:16-34 | a number written as n little-endian bytes reads back as itself whenever it fits in n bytes |
| Bytes.LeBytesOfUnsigned | src/ilda_wav.cpp:16-34 | bytes read as a little-endian number and written back are the same bytes |
| Bytes.SignedRoundTrip | src/ilda_wav.cpp:195-196 | every signed number that fits survives being written in two's complement and read back |
| Bytes.BeU16 | src/ilda_istream.cpp:258 | the big-endian value of two bytes is below 2^16 and is the little-endian value of the swapped bytes |
| CInt.CDiv | src/ilda_wav.cpp:139-141 | C division truncates toward zero: the remainder has the dividend's sign and is smaller than the divisor in magnitude |
| CInt.CMod | src/ilda_wav.cpp:61-63 | C's `%` is what the truncating division leaves: quotient times divisor plus remainder is the dividend, with the dividend's sign |
| CInt.CDivNonNegative | src/ilda_wav.cpp:61-62 | on a non-negative dividend and a positive divisor, C's `/` and `%` agree with Euclidean ones |
| CInt.Wrap16 | src/ilda_wav.cpp:133-135 | conversion to `int16_t` keeps the value modulo 2^16 and leaves every value that fits unchanged |
| ChannelMap.ParseChannel | src/bin/ilda2wav.rs:256-301 | a character is accepted exactly when it is one of `x X y Y r g b l 1 0 _`; its channel is written as that character; it is an axis exactly for `x X y Y` |
| ChannelMap.ChannelCharRoundTrip | src/bin/ilda2wav.rs:256-301 | every channel has one character, and that character parses back to the channel |
| ChannelMap.ParseMapping | src/bin/ilda2wav.rs:251-306 | the mapping string is accepted exactly when every character is; then it yields one channel per character, in order, with `is_axis` true exactly for `x X y Y` |
| ChannelMap.ParseMappingRoundTrip | src/bin/ilda2wav.rs:251-306 | parsing inverts writing the mapping string |
| ChannelMap.MapValue | src/bin/ilda2wav.rs:453-489 | the mappers: non-axis values lie in [-1, 1], axis values in [-32768/32767, 32768/32767]; a colour is -1 exactly at 0 and 1 exactly at 255; the blank channel is negative exactly for a blanked point |
| ChannelMap.MapPoint | src/bin/ilda2wav.rs:556-570 | a point's vector holds one mapper value per channel, in channel order |
| WavProgress.MaxZero | src/bin/ilda2wav.rs:505 | `max(0.0)` is never negative, keeps a non-negative value and turns NaN or a negative value into 0 |
| WavProgress.Ceil | src/bin/ilda2wav.rs:507 | `ceil` is an integer not below x and less than x + 1 |
| WavProgress.SamplesForCovers | src/bin/ilda2wav.rs:499-516 | `advance` returns 0 when the new time is NaN or not past the next unwritten sample; otherwise just enough samples to reach the new time, overshooting by less than one period |
| WavProgress.CeilDiv | src/bin/ilda2wav.rs:507 | the rounded-up quotient covers the range and overshoots it by less than one period; a zero range gives 0 |
| WavProgress.Advanced | src/bin/ilda2wav.rs:499-516 | `advance` moves the time by exactly dt and the sample count by exactly the number it returns |
| WavProgress.StartInSync | src/bin/ilda2wav.rs:536-540 | the initial clock (time 0, sample 0) satisfies the clock invariant |
| WavProgress.AdvanceKeepsSync | src/bin/ilda2wav.rs:499-516 | advancing by a non-negative dt keeps `cur_time <= cur_sample * tps < cur_time + tps` |
| WavProgress.SyncedSampleIsCeil | src/bin/ilda2wav.rs:499-516 | in sync, the sample count is ceil(cur_time / tps) |
| WavProgress.CeilOfQuotient | src/bin/ilda2wav.rs:507 | the only integer k with t <= k * tps < t + tps is ceil(t / tps) |
| WavProgress.PoisonAbsorbs | src/bin/ilda2wav.rs:501-507 | once the time is NaN, every advance returns 0 and the time stays NaN |
| WavProgress.RunCoversTime | src/bin/ilda2wav.rs:499-516 | from (0, 0), any sequence of non-negative advances reaches exactly their sum in time and ceil(sum / tps) samples, staying in sync |
| WavProgress.ChunkingIrrelevant | src/bin/ilda2wav.rs:499-516 | two splittings of the same total time leave the same clock |
| WavProgress.Progress.constructor | src/bin/ilda2wav.rs:536-540 | the progress starts at time 0, sample 0 with the given sample period |
| WavProgress.Progress.Advance | src/bin/ilda2wav.rs:499-516 | `advance` returns `SamplesFor` and leaves the clock `Advanced` describes |
| FrameEncoder.SqrtOf | src/bin/ilda2wav.rs:574 | the square root taken of a non-negative sum is non-negative, squares back to it and is zero exactly at zero |
| FrameEncoder.SqDist | src/bin/ilda2wav.rs:563-566 | `total_d` is never negative |
| FrameEncoder.SqDistZero | src/bin/ilda2wav.rs:563-566 | `total_d` is zero exactly when the two vectors agree on every axis channel |
| FrameEncoder.PointOf | src/bin/ilda2wav.rs:553-575 | a mapped point's position is its channel vector; its distance is the root of the squared axis differences from the previous vector, and never negative |
| FrameEncoder.PointDistance | src/bin/ilda2wav.rs:553-575 | a point's distance squared is the sum of squared axis differences, and it is zero exactly when the point sits on the previous vector on every axis |
| FrameEncoder.MapFrame | src/bin/ilda2wav.rs:551-576 | a frame maps to one measured point per point, each with a full-width vector and a non-negative distance |
| FrameEncoder.MapFrameMeasures | src/bin/ilda2wav.rs:564 | the first point is measured from `cur_pos` left by the previous frame, every other one from the point before it |
| FrameEncoder.MapFrameWithin | src/bin/ilda2wav.rs:553-578 | every mapped point has a full-width vector and a distance within the frame's total |
| FrameEncoder.TotalDistBounds | src/bin/ilda2wav.rs:578 | `total_dist` is non-negative and no point's distance exceeds it |
| FrameEncoder.TotalDistZero | src/bin/ilda2wav.rs:578 | `total_dist` is zero exactly when every point's distance is |
| FrameEncoder.Share | src/bin/ilda2wav.rs:599 | `share_of_frame` is NaN exactly when the total is zero (0/0); otherwise it lies in [0, 1] |
| FrameEncoder.TimePerSample | src/bin/ilda2wav.rs:533 | the sample period is positive |
| FrameEncoder.Guaranteed | src/bin/ilda2wav.rs:583 | the dwell time per point is non-negative whenever correctness is |
| FrameEncoder.SharedTime | src/bin/ilda2wav.rs:585-586 | `shared_time` is never negative |
| FrameEncoder.SharedTimeFillsFrame | src/bin/ilda2wav.rs:583-586 | shared time plus k dwells is max(1/fps, k * guaranteed) |
| FrameEncoder.TravelTime | src/bin/ilda2wav.rs:599-600 | the travel duration asked of the clock is NaN exactly when the total distance is 0, and non-negative otherwise |
| FrameEncoder.FractionOfTravel | src/bin/ilda2wav.rs:615-627 | `from + step * i` is the fraction i/n of the way from `from` to `to`, and is `to` at i = n |
| FrameEncoder.Ramp | src/bin/ilda2wav.rs:606-633 | the travel phase is n vectors; every non-axis channel holds the target on every sample; the last vector is the target |
| FrameEncoder.RampInterpolates | src/bin/ilda2wav.rs:613-627 | sample k of n of the travel moves every axis channel k/n of the way to the target |
| FrameEncoder.Hold | src/bin/ilda2wav.rs:638-642 | the dwell phase is n copies of the point's vector |
| FrameEncoder.TravelOut | src/bin/ilda2wav.rs:604-634 | the travel phase writes exactly as many vectors as the clock granted, none when it granted none |
| FrameEncoder.PointStep | src/bin/ilda2wav.rs:596-643 | after one point, `cur_pos` is the point, the vectors written equal the samples counted, and the clock time moves by the travel time and then the dwell time |
| FrameEncoder.PointStepWrites | src/bin/ilda2wav.rs:596-643 | one point appends, after what was already written, n travel vectors (the ramp, ending on the point) and then n2 copies of the point, n and n2 being the clock's answers |
| FrameEncoder.Steps | src/bin/ilda2wav.rs:596-643 | over a frame's points, `cur_pos` ends on the last point and the vectors written equal the samples counted |
| FrameEncoder.EncodeFrameSpec | src/bin/ilda2wav.rs:550-644 | an empty frame changes nothing; otherwise `cur_pos` ends on the last point's vector; the vectors written equal the samples counted |
| FrameEncoder.EncodeFrames | src/bin/ilda2wav.rs:550-644 | over a whole animation the vectors written equal the samples counted |
| FrameEncoder.TravelSumShares | src/bin/ilda2wav.rs:599-600 | the travel times of a frame's points add up to shared_time * (their distance / total) |
| FrameEncoder.TravelSumWhole | src/bin/ilda2wav.rs:578-600 | over a whole frame with positive total distance, the travel times add up to exactly shared_time |
| FrameEncoder.DwellSumIsProduct | src/bin/ilda2wav.rs:583-585 | k dwells add up to k * guaranteed |
| FrameEncoder.StepsTime | src/bin/ilda2wav.rs:596-643 | with a positive total, the clock moves over a frame by the sum of its travel times and dwell times |
| FrameEncoder.StepsBudget | src/bin/ilda2wav.rs:596-643 | over measured points, the clock moves by shared time plus k dwells |
| FrameEncoder.FrameTimeBudget | src/bin/ilda2wav.rs:578-600 | a frame of k points with positive total distance moves the clock by exactly shared_time + k dwells, that is max(1/fps, k * guaranteed) |
| FrameEncoder.StepsKeepSync | src/bin/ilda2wav.rs:596-643 | with non-negative correctness and positive total, a frame's points keep the clock in sync |
| FrameEncoder.FrameKeepsSync | src/bin/ilda2wav.rs:550-644 | a frame that is empty or has positive total distance keeps the clock in sync |
| FrameEncoder.PoisonedSteps | src/bin/ilda2wav.rs:596-643 | on a NaN clock, no point moves the clock or writes anything |
| FrameEncoder.ZeroDistancePoisons | src/bin/ilda2wav.rs:599-600 | a non-empty frame of total distance 0 writes nothing and leaves the clock's time NaN, sample count unchanged |
| FrameEncoder.PoisonedFrame | src/bin/ilda2wav.rs:550-644 | a frame encoded on a NaN clock leaves the clock and the output unchanged |
| FrameEncoder.PoisonPersists | src/bin/ilda2wav.rs:550-644 | after poisoning, no later frame writes anything |
| FrameEncoder.Encoder.constructor | src/bin/ilda2wav.rs:536-548 | the encoder starts with the clock at (0, 0), `cur_pos` all zeros and nothing written |
| FrameEncoder.Encoder.MeasurePoint | src/bin/ilda2wav.rs:553-575 | the loop over channels computes exactly `PointOf` |
| FrameEncoder.Encoder.MeasureFrame | src/bin/ilda2wav.rs:551-576 | the `points` loop computes exactly `MapFrame` from `cur_pos` |
| FrameEncoder.Encoder.Travel | src/bin/ilda2wav.rs:604-634 | the `for i in 1..=n` loop appends exactly the ramp to the target |
| FrameEncoder.Encoder.Dwell | src/bin/ilda2wav.rs:638-642 | the dwell loop appends exactly n copies of `cur_pos` |
| FrameEncoder.Encoder.EncodePoint | src/bin/ilda2wav.rs:596-643 | one point leaves the state `PointStep` describes, keeping written vectors equal to counted samples |
| FrameEncoder.Encoder.EncodeFrame | src/bin/ilda2wav.rs:550-644 | one frame leaves the state `EncodeFrameSpec` describes |
| FrameEncoder.Encoder.EncodeAll | src/bin/ilda2wav.rs:550-644 | the animation loop leaves the state `EncodeFrames` describes |
| PointDecoder.Trunc | src/bin/ildawav2ilda.rs:79-85 | `as` casts truncate toward zero |
| PointDecoder.CastI16 | src/bin/ildawav2ilda.rs:79-82 | `v as i16` is the truncation, saturated at the ends of the i16 range |
| PointDecoder.CastU8 | src/bin/ildawav2ilda.rs:83-85 | `v as u8` is the truncation, saturated at 0 and 255 |
| PointDecoder.DefaultPoint | src/bin/ildawav2ilda.rs:65-75 | the starting point is at the origin, not blanked, and white unless the mapping names r, g or b, in which case black |
| PointDecoder.DecodeChannel | src/bin/ildawav2ilda.rs:78-88 | one channel character either writes its field or, outside `x X y Y r g b l _`, fails with `InvalidChannel` of that character |
| PointDecoder.ErrorSticks | src/bin/ildawav2ilda.rs:77-90 | once a channel is refused, the rest of the mapping does not matter |
| PointDecoder.ToPoint | src/bin/ildawav2ilda.rs:64-93 | the `to_point` loop computes the walk over the mapping from the default point |
| PointDecoder.FirstInvalid | src/bin/ildawav2ilda.rs:77-89 | the first refused character of the mapping, if any, is refused and every character before it accepted |
| PointDecoder.ToPointFails | src/bin/ildawav2ilda.rs:77-89 | `to_point` fails exactly when the mapping holds a character outside `x X y Y r g b l _` (so `1` and `0` too), naming the first one |
| PointDecoder.PrefixValid | src/bin/ildawav2ilda.rs:77-90 | over accepted characters the loop never fails |
| PointDecoder.DecodeChannelFields | src/bin/ildawav2ilda.rs:78-87 | each accepted character writes its own field and no other |
| PointDecoder.LastChannelWins | src/bin/ildawav2ilda.rs:77-87 | each field of the decoded point comes from the last channel naming it, or keeps its default; `_` writes nothing |
| PointDecoder.ChannelRoundTrip | src/bin/ildawav2ilda.rs:79-86 | reading a channel back from the encoder mapper's value gives the encoded field exactly |
| PointDecoder.DecodesMapping | src/bin/ildawav2ilda.rs:77-89 | a mapping of channels both tools understand is accepted by the decoder |
| PointDecoder.FieldRoundTrip | src/bin/ildawav2ilda.rs:79-86 | the round trip for one field over a whole mapping |
| PointDecoder.MappersRoundTrip | src/bin/ildawav2ilda.rs:79-86 | decoding the encoder's vector for p under the same mapping gives p on every field some channel carries, and the decoder's defaults elsewhere |
| PointDecoder.NamedIffWritten | src/bin/ildawav2ilda.rs:65-66 | a channel list names a colour channel exactly when its string contains r, g or b |
| PointDecoder.BytesPerSample | src/bin/ildawav2ilda.rs:304-309 | raw input accepts 8, 16 and 32 bits as 1, 2 and 4 bytes, anything else is `UnsupportedBitsPerSample` |
| PointDecoder.SampleMax | src/bin/ildawav2ilda.rs:101-124 | the divisor of a 1, 2 or 4 byte sample is i8, i16 or i32 MAX |
| PointDecoder.Normalise | src/bin/ildawav2ilda.rs:101-124 | a raw sample is read little-endian as a signed number and divided by its type's MAX |
| PointDecoder.ReadSamples | src/bin/ildawav2ilda.rs:101-127 | reading n samples either yields n values and the rest of the input or ends the stream |
| PointDecoder.ReadSamplesConsumes | src/bin/ildawav2ilda.rs:101-127 | reading n samples ends the stream exactly when fewer than n * width bytes are left; otherwise it takes exactly those bytes |
| PointDecoder.ReadSamplesValues | src/bin/ildawav2ilda.rs:101-127 | sample i is normalised from the i-th group of `width` bytes |
| PointDecoder.RawReader.constructor | src/bin/ildawav2ilda.rs:311-315 | the raw reader starts on the whole input with the given width and mapping |
| Utf8.Width | src/bin/ildawav2ilda.rs:101 | a character takes one to four UTF-8 bytes, and one exactly when it is ASCII |
| Utf8.Len | src/bin/ildawav2ilda.rs:101 | the mapping's `len()` counts UTF-8 bytes: never fewer than its characters, and exactly as many when it is ASCII |
| PointDecoder.RawReader.Next | src/bin/ildawav2ilda.rs:98-130 | `next` yields what `RawNextSpec` says: one sample per UTF-8 byte of the mapping, the first one per channel decoded, or the end of the stream with the partial point dropped |
| PointDecoder.HoundSamples | src/bin/ildawav2ilda.rs:144-156 | n hound samples divided by their depth's MAX, the end of the stream, or `UnsupportedBitsPerSample` at the first sample of another depth |
| PointDecoder.HoundSamplesConsume | src/bin/ildawav2ilda.rs:144-156 | with a supported depth the hound reader takes exactly n samples (the mapping's UTF-8 length) or ends the stream; with another depth it fails on the first sample |
| PointDecoder.EmptyMappingNeverEnds | src/bin/ildawav2ilda.rs:98-130 | an empty mapping yields the default point forever without consuming input |
| PointDecoder.HoundReader.constructor | src/bin/ildawav2ilda.rs:319-322 | the hound reader starts on all the samples with the given depth and mapping |
| PointDecoder.HoundReader.Next | src/bin/ildawav2ilda.rs:141-159 | `next` yields what `HoundNextSpec` says: one hound sample per UTF-8 byte of the mapping, the first one per channel decoded |
| FrameSplitter.Start | src/bin/ildawav2ilda.rs:332-337 | the loop starts with nothing written, an empty buffer, time 0 and the first frame ending at 1/fps |
| FrameSplitter.PeriodsIsProduct | src/bin/ildawav2ilda.rs:340 | adding k periods one at a time is multiplying, in exact arithmetic |
| FrameSplitter.PushAllInvariant | src/bin/ildawav2ilda.rs:338-350 | the loop keeps: no frame written is empty, frames plus buffer are the points so far, the clock is k sample periods, the frame end one period past the last flush |
| FrameSplitter.PushAllPartition | src/bin/ildawav2ilda.rs:338-350 | frames and buffer together are the points pushed, in order, with no empty frame |
| FrameSplitter.PushAllClock | src/bin/ildawav2ilda.rs:338-350 | after k points the clock reads k sample periods |
| FrameSplitter.PushKeepsPartition | src/bin/ildawav2ilda.rs:339-349 | one push keeps frames non-empty and the points in order |
| FrameSplitter.PushKeepsClock | src/bin/ildawav2ilda.rs:340-348 | one push adds one sample period, and one frame period to the frame end per frame written |
| FrameSplitter.SegmentPartitions | src/bin/ildawav2ilda.rs:337-358 | segmenting loses, duplicates and reorders no point and writes no empty frame |
| FrameSplitter.FinalFlush | src/bin/ildawav2ilda.rs:352-358 | the final flush writes one frame more exactly when points are left in the buffer |
| FrameSplitter.WholeFrames | src/bin/ildawav2ilda.rs:340-349 | with a frame of exactly n sample periods, the first frame holds n + 1 points and every later frame n |
| FrameSplitter.OneFrameWorth | src/bin/ildawav2ilda.rs:338-358 | exactly one frame's worth of points comes out as that one frame |
| FrameSplitter.NextFrameStart | src/bin/ildawav2ilda.rs:341-348 | frame m + 1 starts n points after frame m, one more after the first |
| FrameSplitter.FrameEndsOnSample | src/bin/ildawav2ilda.rs:340-341 | the next push passes the frame end exactly when it is the first point of the next frame |
| FrameSplitter.DecodedStops | src/bin/ildawav2ilda.rs:339 | `result?` stops at the first error: nothing after it matters |
| FrameSplitter.DecodedAllOk | src/bin/ildawav2ilda.rs:339 | without an error the points are the stream's values, one per result |
| FrameSplitter.CleanStream | src/bin/ildawav2ilda.rs:337-358 | a stream without an error is cut into non-empty frames that hold all its points in order |
| FrameSplitter.FailedStream | src/bin/ildawav2ilda.rs:338-350 | with an error, the frames written are whole frames of the points before it, the buffer is dropped, and the error is reported |
| FrameSplitter.Split | src/bin/ildawav2ilda.rs:337-358 | the loop and final flush compute exactly `Outcome` |
| GroupSize.GroupSizeOfNthGroup | src/ilda_wav.cpp:59-65 | a group gets the truncated quotient or one more, and with a non-negative total the first group never gets the extra item |
| GroupSize.GroupSizeOfZero | src/ilda_wav.cpp:59-65 | nothing to share gives every group nothing |
| GroupSize.GroupSizeBounds | src/ilda_wav.cpp:59-65 | every group gets total / groups or one more |
| GroupSize.ExtraIsCarry | src/ilda_wav.cpp:63 | group i gets the extra item exactly when the quotient of i * rest by groups steps up |
| GroupSize.CountExtrasIsQuotient | src/ilda_wav.cpp:59-65 | k * rest / groups of the first k groups get the extra item |
| GroupSize.SumSizesIsBasePlusExtras | src/ilda_wav.cpp:59-65 | the first k groups hold k * base items plus one per extra |
| GroupSize.GroupSizesSum | src/ilda_wav.cpp:59-65 | for total >= 0 and groups > 0 the sizes sum to exactly total, and exactly total % groups groups get the extra |
| GroupSize.QuotientAndRemainder | src/ilda_wav.cpp:61-62 | base * groups + rest is the total |
| GroupSize.GroupSizeNonNegative | src/ilda_wav.cpp:59-65 | with a non-negative total no group gets a negative size |
| GroupSize.SumSizesMonotone | src/ilda_wav.cpp:59-65 | the running sum of sizes never decreases |
| WavHeader.ToUint16 | src/ilda_wav.cpp:37-40 | a value stored in a `uint16_t` field is kept modulo 2^16 |
| WavHeader.ToUint32 | src/ilda_wav.cpp:37-40 | a value stored in a `uint32_t` field is kept modulo 2^32 |
| WavHeader.Serialise | src/ilda_wav.cpp:16-34 | the packed header is 44 bytes with the four-character codes at their offsets |
| WavHeader.Parse | src/ilda_wav.cpp:16-34 | 44 bytes read back as a header, or `None` when a code is wrong |
| WavHeader.ParseSerialise | src/ilda_wav.cpp:16-34 | every header survives being written and read back |
| WavHeader.UpdatedDescribes | src/ilda_wav.cpp:35-41 | when the sizes fit their fields, `update(ds)` makes the header describe ds data bytes: chunk size ds + 36, block size bits * channels / 8, byte rate rate * block size |
| WavHeader.WavHeader.constructor | src/ilda_wav.cpp:71-73 | the struct defaults (16-byte fmt chunk, PCM, 16 bits) with the channel count and rate stored |
| WavHeader.WavHeader.Update | src/ilda_wav.cpp:35-41 | `update` leaves the header `Updated` describes |
| WavHeader.WavHeader.LittleEndian | src/ilda_wav.cpp:43-56 | on a little-endian host, the bytes written are the header's own fields |
| LegacyWav.Invert | src/ilda_wav.cpp:129-131 | `v * -1` in `int16_t` negates, except that -32768 stays -32768 |
| LegacyWav.InterpolateAsWritten | src/ilda_wav.cpp:133-141 | while the difference of the two locations fits in 16 bits, the code as written computes the intended interpolation step |
| LegacyWav.Interpolate | src/ilda_wav.cpp:139-141 | step p of n lies between the last location and the target; step 0 is the last location, step n the target |
| LegacyWav.ScaledDifference | src/ilda_wav.cpp:139-141 | d * p / n truncated lies between 0 and d, is d at p = n and 0 at p = 0 |
| LegacyWav.AsWrittenLandsOnTarget | src/ilda_wav.cpp:133-141 | with the wrapping `int16_t` difference, the last step still lands on the target |
| LegacyWav.AsWrittenLeavesSegment | src/ilda_wav.cpp:133-141 | with the wrapping difference, step 3 of 4 from -30000 to 30000 lands on 31384 where the intended value is 15000 |
| LegacyWav.ColourScale | src/ilda_wav.cpp:143-145 | a colour channel is c * 128, so 255 gives 32640 |
| LegacyWav.ChannelCount | src/ilda_wav.cpp:69 | `signals.length()` counts bytes: never fewer than the signal characters, and exactly as many for valid signals |
| LegacyWav.SignalBytesAreChannels | src/ilda_wav.cpp:69-72 | the signals "xé" count as three channels in the header |
| LegacyWav.ValidSignalsAreAscii | src/ilda_wav.cpp:153-180 | every character the signal switch accepts is ASCII |
| LegacyWav.Vector | src/ilda_wav.cpp:153-184 | a sample vector holds one value per signal character, in order |
| LegacyWav.RepeatLength | src/ilda_wav.cpp:151-185 | c copies of a vector of v values are c * v values, none for c <= 0 |
| LegacyWav.Location | src/ilda_wav.cpp:118-192 | a location given 0 points is skipped and changes nothing; otherwise it takes n point numbers and makes the target the last location |
| LegacyWav.StepsLength | src/ilda_wav.cpp:137-188 | k interpolation steps write one value per signal for every sample their point numbers get |
| LegacyWav.LocationsPoints | src/ilda_wav.cpp:115-193 | the first i locations use the first i shares of the frame's budget, one point number each |
| LegacyWav.LocationSamples | src/ilda_wav.cpp:118-192 | one location writes one vector per signal for every sample its point numbers get |
| LegacyWav.LocationsSamples | src/ilda_wav.cpp:115-193 | the first i locations write one vector per signal for every sample their point numbers get |
| LegacyWav.LocationsSilent | src/ilda_wav.cpp:115-125 | with no point budget every location is skipped and nothing is written |
| LegacyWav.FrameAdvance | src/ilda_wav.cpp:97-200 | a frame with a location uses exactly its budget of point numbers and writes one vector per signal for every sample they get; an empty frame uses and writes nothing |
| LegacyWav.NextInSecond | src/ilda_wav.cpp:100 | `frame_number % fps` of the next frame steps by one and wraps to 0 |
| LegacyWav.NextStateWithinSecond | src/ilda_wav.cpp:99-107 | a frame keeps point numbers within what frames 0 .. k of its second may use |
| LegacyWav.FrameWithinPoints | src/ilda_wav.cpp:100-107 | no frame of a second uses more point numbers than the second has |
| LegacyWav.SpanWithinSecond | src/ilda_wav.cpp:147 | the samples of point numbers a .. b - 1 of a second are at most `rate` |
| LegacyWav.FrameFitsBuffer | src/ilda_wav.cpp:93 | no frame writes more than the `rate * channel_count` samples `frame_data` holds |
| LegacyWav.RunFromLast | src/ilda_wav.cpp:97-200 | one more frame leaves the state unchanged after a failure or a throw, and the frame's state otherwise |
| LegacyWav.RunFramesWithinSecond | src/ilda_wav.cpp:97-200 | every state `run` reaches between frames keeps point numbers within the second |
| LegacyWav.FrameOfSecond | src/ilda_wav.cpp:100 | frame j of a second starting at f0 is frame j of that second, and the next second starts fps frames later |
| LegacyWav.InSecond | src/ilda_wav.cpp:100-105 | j < fps frames after the first frame of a second is frame j of that second |
| LegacyWav.RunFromStep | src/ilda_wav.cpp:97-200 | a frame that does not throw, after a run that has not failed, appends its samples |
| LegacyWav.FrameOfSecondUses | src/ilda_wav.cpp:100-118 | frame k of a second, with a location, uses the point numbers of group k of the second's points |
| LegacyWav.FrameOfSecondStep | src/ilda_wav.cpp:97-200 | frame i of a second, after frames 0 .. i - 1 used their shares, uses the next share |
| LegacyWav.SecondSoFar | src/ilda_wav.cpp:97-200 | the first j frames of a second write one vector per signal for each sample of groups 0 .. j - 1 |
| LegacyWav.SecondStep | src/ilda_wav.cpp:97-200 | one more frame of a second extends that prefix by one group |
| LegacyWav.OneSecondOfAudio | src/ilda_wav.cpp:97-200 | with valid signals and a location in every frame, fps frames starting a second become exactly `rate` sample vectors, and the next frame starts a new second |
| LegacyWav.SampleBytes | src/ilda_wav.cpp:195-196 | the bytes written are two little-endian bytes per sample |
| LegacyWav.SampleBytesRoundTrip | src/ilda_wav.cpp:195-196 | the sample bytes read back as the samples computed |
| LegacyWav.FailsOnlyOnInvalidSignal | src/ilda_wav.cpp:178-180 | a failed run stays failed, and only an invalid signal character makes it fail |
| LegacyWav.InvalidSignalFails | src/ilda_wav.cpp:153-180 | with an invalid signal character, the first frame that would write a sample throws |
| LegacyWav.FailedStays | src/ilda_wav.cpp:97-200 | once a run has failed, later frames change nothing |
| LegacyWav.RunFramesStep | src/ilda_wav.cpp:97-200 | one more frame of the loop when none before it threw |
| LegacyWav.UpdatedTwice | src/ilda_wav.cpp:35-41 | updating twice is updating once with the later size |
| LegacyWav.OutputOnSuccess | src/ilda_wav.cpp:67-209 | on success the file is a header reading back as 16-bit PCM, one channel per byte of the signal string, at the rate, describing exactly the sample bytes that follow |
| LegacyWav.OutputOnError | src/ilda_wav.cpp:67-209 | on a throw the file is the first header (data size 0) followed by the samples of the frames before it, and the run reports the invalid signal |
| LegacyWav.OutputOf | src/ilda_wav.cpp:67-209 | what `run` leaves when it stops at a throw and when it reaches the last frame |
| LegacyWav.FrameIsLocations | src/ilda_wav.cpp:99-193 | a frame's loop is its locations' loop from the second's point number and budget |
| LegacyWav.LegacyWavOutput.constructor | src/ilda_wav.cpp:5-14 | the output starts empty with the given settings |
| LegacyWav.LegacyWavOutput.WriteVector | src/ilda_wav.cpp:153-184 | the signal loop stores `Vector` at the sample number, or throws on an invalid character |
| LegacyWav.LegacyWavOutput.WriteSamples | src/ilda_wav.cpp:151-185 | the `q` loop stores `count` copies of the vector |
| LegacyWav.LegacyWavOutput.WriteStep | src/ilda_wav.cpp:137-188 | one `p` pass stores interpolation step p, as many times as its point number's samples |
| LegacyWav.LegacyWavOutput.WriteLocation | src/ilda_wav.cpp:137-188 | the `p` loop stores the n steps towards a location, point number after point number |
| LegacyWav.LegacyWavOutput.WriteLocationOf | src/ilda_wav.cpp:115-193 | one `i` pass stores location i with its share of the budget, or skips it |
| LegacyWav.LegacyWavOutput.FrameStart | src/ilda_wav.cpp:99-107 | the top of a frame computes `frame_in_second`, restarts `point_number` at a new second and takes the frame's budget |
| LegacyWav.LegacyWavOutput.WriteLocations | src/ilda_wav.cpp:115-193 | the location loop stores the frame's samples and leaves `point_number` and the last location as `Locations` says |
| LegacyWav.LegacyWavOutput.WriteFrame | src/ilda_wav.cpp:97-200 | one frame pass stores its samples and returns the next state |
| LegacyWav.LegacyWavOutput.EncodeFrame | src/ilda_wav.cpp:97-200 | unless the frame throws, its samples are appended to the output |
| LegacyWav.LegacyWavOutput.Begin | src/ilda_wav.cpp:69-77 | the header with data size 0 and `signals.length()` channels is written to the empty output |
| LegacyWav.LegacyWavOutput.Finish | src/ilda_wav.cpp:202-206 | the updated header is written over the first one at offset 0 |
| LegacyWav.LegacyWavOutput.EncodeFrames | src/ilda_wav.cpp:97-200 | the frame loop appends each frame's samples until the last frame or the first throw |
| LegacyWav.LegacyWavOutput.Run | src/ilda_wav.cpp:67-209 | `run` leaves exactly `Output`: header, samples, and the header rewritten with the data size, or the error |
| IldaFormat.HostUint16 | src/ilda.hpp:29 | a `uint16_t` read on a little-endian host is the little-endian value of its bytes |
| IldaFormat.ParseHeader | src/ilda.hpp:22-34 | the 32 header bytes fill the struct fields in declared order |
| IldaFormat.SerialiseHeader | src/ilda.hpp:22-34 | the packed header is 32 bytes, fields in declared order |
| IldaFormat.ParseSerialiseHeader | src/ilda.hpp:22-34 | every header survives being written and read back |
| IldaFormat.SerialiseParseHeader | src/ilda.hpp:22-34 | every 32 bytes are the bytes of the header they are read as |
| IldaFormat.SwapTwice | src/ilda_istream.cpp:258 | swapping the two bytes twice gives the number back |
| IldaFormat.RecordCountIsBigEndian | src/ilda_istream.cpp:258 | the record count a little-endian host gets is the big-endian reading of bytes 24 and 25 |
| IldaFormat.CString | src/ilda_istream.cpp:253 | `string(chars)` is the bytes before the first NUL |
| IldaFormat.MagicNeedsTerminator | src/ilda_istream.cpp:253-256 | the header check passes exactly when the header starts "ILDA" and its first reserved byte is NUL |
| IldaFormat.StatusFields | src/ilda.hpp:36-41 | each bit-field reads back what was stored: `blanked` is bit 6, `last_point` bit 7 |
| IldaFormat.StatusOfFields | src/ilda.hpp:36-41 | the three bit-fields make up the whole status byte |
| IldaFormat.EncodeColor | src/ilda.hpp:43-48 | a colour is 3 bytes r, g, b and reads back as itself |
| IldaFormat.RecordSize | src/ilda.hpp:50-86 | records are 6, 8, 8 and 10 bytes for 2-D indexed, 2-D true, 3-D indexed and 3-D true |
| IldaFormat.DecodeRecord | src/ilda.hpp:50-86 | a record's fields come from their offsets; true-colour records keep b, g, r after the status byte |
| IldaFormat.EncodeRecord | src/ilda.hpp:50-86 | a record's bytes have its layout's size |
| IldaFormat.DecodeEncodeRecord | src/ilda.hpp:50-86 | every record survives being written and read back |
| IldaReader.Chunks | src/ilda_istream.cpp:261-269 | reading `count` records yields whole records of `size` bytes, in order, stops at the first short read, and uses up the stream then |
| IldaReader.DecodePoints | src/ilda_istream.cpp:112-132 | one point per whole record, in file order |
| IldaReader.DecodePointsAt | src/ilda_istream.cpp:112-132 | point i is the point of record i |
| IldaReader.DecodeColors | src/ilda_istream.cpp:176-182 | one colour per whole palette record, in file order |
| IldaReader.Blacks | src/ilda_istream.cpp:173-174 | `resize(n)` fills with n black colours |
| IldaReader.BlacksAt | src/ilda_istream.cpp:173-174 | every entry of `Blacks` is black |
| IldaReader.HeaderRead | src/ilda_istream.cpp:249-259 | `readHeader` overwrites the header, checks the magic and converts the count, or reports the error |
| IldaReader.RecordsRead | src/ilda_istream.cpp:101-133 | a frame reader makes the frame the header's projector and one point per whole record, and says whether all were there |
| IldaReader.PaletteRead | src/ilda_istream.cpp:169-183 | the palette reader stores `number_of_records` colours for the projector, black where a short read left them |
| IldaReader.Next | src/ilda_istream.cpp:71-99 | `nextFrame` as a value: the state and the outcome (frame, end, or thrown error) |
| IldaReader.IldaIStream.constructor | src/ilda_istream.cpp:69 | the reader starts at position 0 with no palettes and an empty frame |
| IldaReader.IldaIStream.Read | src/ilda_istream.cpp:261-269 | `read` takes up to n bytes from the position, and the stream moves past them |
| IldaReader.IldaIStream.ReadHeader | src/ilda_istream.cpp:249-259 | `readHeader` leaves the state and error `HeaderRead` describes |
| IldaReader.IldaIStream.FrameFromRecords | src/ilda_istream.cpp:101-133 | the shared record loop leaves the state `RecordsRead` describes |
| IldaReader.IldaIStream.FrameFrom3dCoordinatesIndexed | src/ilda_istream.cpp:101-133 | the 3-D indexed reader leaves the state `RecordsRead` describes for its layout |
| IldaReader.IldaIStream.FrameFrom2dCoordinatesIndexed | src/ilda_istream.cpp:135-167 | the 2-D indexed reader leaves the state `RecordsRead` describes for its layout |
| IldaReader.IldaIStream.FrameFrom3dCoordinatesTrue | src/ilda_istream.cpp:185-215 | the 3-D true-colour reader leaves the state `RecordsRead` describes for its layout |
| IldaReader.IldaIStream.FrameFrom2dCoordinatesTrue | src/ilda_istream.cpp:217-247 | the 2-D true-colour reader leaves the state `RecordsRead` describes for its layout |
| IldaReader.IldaIStream.ReadColors | src/ilda_istream.cpp:171-182 | the colour loop reads the whole colours there are and fills the rest of `number_of_records` with black |
| IldaReader.IldaIStream.SetColorPalette | src/ilda_istream.cpp:169-183 | `setColorPalette` leaves the state `PaletteRead` describes |
| IldaReader.IldaIStream.NextFrame | src/ilda_istream.cpp:71-99 | `nextFrame` leaves the state and outcome `Next` describes |
| IldaSections.ChunksOfConcat | src/ilda_istream.cpp:261-269 | records of one size laid end to end are read back one by one, all of them |
| IldaSections.ChunksComplete | src/ilda_istream.cpp:261-269 | reading `count` records is complete exactly when `count * size` bytes are left, and then uses exactly those |
| IldaSections.DecodeColorsAt | src/ilda_istream.cpp:176-182 | colour i is the colour of record i |
| IldaSections.RecordsReadEncoded | src/ilda_istream.cpp:101-133 | records of the reader's layout written out are all read back, the stream stops right after them, and they become the projector's frame |
| IldaSections.PaletteReadEncoded | src/ilda_istream.cpp:169-183 | colours written out are all read back and become the projector's palette |
| IldaSections.RecordsReadComplete | src/ilda_istream.cpp:101-133 | a frame reader completes exactly when `number_of_records` records are left; otherwise the stream ends up at its end |
| IldaSections.PaletteReadComplete | src/ilda_istream.cpp:169-183 | the palette reader completes exactly when `number_of_records` colours are left; otherwise the stream ends up at its end |
| IldaSections.HeaderReadWhole | src/ilda_istream.cpp:249-259 | with 32 bytes left, `readHeader` stores them, moves past them, and fails exactly when the magic check fails |
| IldaSections.NextShortHeader | src/ilda_istream.cpp:261-269 | a header cut short throws "Unexpected end of input." |
| IldaSections.NextCorrupt | src/ilda_istream.cpp:253-256 | a whole header is refused as corrupt exactly when it does not start with "ILDA" and a NUL |
| IldaSections.NextEnd | src/ilda_istream.cpp:73-75 | a good header ends the animation exactly when its big-endian count is 0, leaving the stream right after it and nothing else changed |
| IldaSections.NextNotSupported | src/ilda_istream.cpp:77-96 | "Not supported." is thrown exactly for a good header with records whose format is none of 0, 1, 2, 4, 5 |
| IldaSections.NextPointSectionComplete | src/ilda_istream.cpp:77-98 | a point section throws exactly when fewer than n records of its layout are left; otherwise it delivers the new frame |
| IldaSections.NextPaletteSectionComplete | src/ilda_istream.cpp:85-98 | a palette section throws exactly when fewer than n colours are left; otherwise it delivers the previous frame |
| IldaSections.HeaderReadSerialised | src/ilda_istream.cpp:249-259 | a serialised header in the stream is read back with its format, count and projector |
| IldaSections.NextPointSection | src/ilda_istream.cpp:71-99 | a written point section is read back as the frame of its records, with the header's projector and the right palette |
| IldaSections.NextPaletteSection | src/ilda_istream.cpp:85-98 | a written palette section replaces that projector's palette and hands back the previous frame |
| IldaSections.FormatOneReadAsZero | src/ilda_istream.cpp:79-84 | format 1 is read exactly as format 0, with the 3-D indexed reader |
| MemoryCycle.WrappingSub | src/bin/common/memory_cycle.rs:25 | `usize` subtraction wraps modulo 2^64 and is exact when there is no underflow |
| MemoryCycle.WrappingAdd | src/bin/common/memory_cycle.rs:29 | `usize` addition wraps modulo 2^64 and is exact when it fits |
| MemoryCycle.Slot | src/bin/common/memory_cycle.rs:25-30 | the replay position after k steps round n copies is below n, and is k itself before the first wrap; the C++ repeater's iterator stands at the same place |
| MemoryCycle.SlotSucc | src/bin/common/memory_cycle.rs:25-30 | one step more moves the replay on by one, back to the first copy after the last, as `cycling` and the repeater's `it` both do |
| MemoryCycle.PassesSourceOn | src/bin/common/memory_cycle.rs:19-23 | the first calls hand on the source's items unchanged, in order |
| MemoryCycle.ReplayNeverEnds | src/bin/common/memory_cycle.rs:24-32 | once a non-empty source is exhausted, every call returns one of its items |
| MemoryCycle.ReplayStartsAtSecond | src/bin/common/memory_cycle.rs:25-31 | the replay starts at `items[1]` with two items or more, and at `items[0]` with one |
| MemoryCycle.ReplayIsPeriodic | src/bin/common/memory_cycle.rs:24-32 | after exhaustion the outputs repeat with the source's length as period |
| MemoryCycle.EmptySourceGivesNothing | src/bin/common/memory_cycle.rs:25-31 | an empty source gives `None` on every call |
| MemoryCycle.MemoryCycleIterator.constructor | src/bin/common/memory_cycle.rs:38-48 | a fresh adapter has `cycling` 0 and no items |
| MemoryCycle.MemoryCycleIterator.Next | src/bin/common/memory_cycle.rs:18-34 | call k returns `Output(source, k)`, and `items` no longer changes once the source is exhausted |
| IldaRepeater.PassesSourceOn | src/ilda_repeater.cpp:9-15 | the first calls hand on the wrapped input's frames, in order |
| IldaRepeater.ReplayStartsAtFirst | src/ilda_repeater.cpp:17-26 | the replay starts at the first frame and goes through the copies in order |
| IldaRepeater.ReplayIsPeriodic | src/ilda_repeater.cpp:21-26 | after exhaustion the outputs repeat with the number of frames as period |
| IldaRepeater.RustReplayIsOneAhead | src/ilda_repeater.cpp:21-26 | for the same source, `memory_cycle` call k after exhaustion returns what the repeater returns at call k + 1 |
| IldaRepeater.ReplaysStartDifferently | src/ilda_repeater.cpp:17-26 | with two distinct first frames, the two replays start on different frames |
| IldaRepeater.IldaRepeater.constructor | src/ilda_repeater.cpp:3 | the repeater starts with no copies and not repeating |
| IldaRepeater.IldaRepeater.NextFrame | src/ilda_repeater.cpp:5-27 | call k returns `Output(source, k)`, and `frames` no longer changes once repeating |
| FullBufWriter.Overwritten | src/bin/common/full_buf_writer.rs:10-11 | a write puts `buf` at the position over what was there, pads with zeros before it when needed, keeps every other byte, and extends the buffer only past its end |
| FullBufWriter.WriteAtEndAppends | src/bin/common/full_buf_writer.rs:10-11 | a write at the end appends |
| FullBufWriter.ConsecutiveWrites | src/bin/common/full_buf_writer.rs:10-11 | two writes one after the other equal one write of both buffers |
| FullBufWriter.PatchInPlace | src/bin/common/full_buf_writer.rs:10-22 | seeking back and writing a same-size block replaces it and leaves everything else |
| FullBufWriter.SeekThereAndBack | src/bin/common/full_buf_writer.rs:19-21 | seeking by d and by -d returns to the same position |
| FullBufWriter.SeekRefused | src/bin/common/full_buf_writer.rs:19-21 | a relative seek is refused exactly when the target leaves the `u64` range; an accepted target fits a `u64` |
| FullBufWriter.FullBufWriter.constructor | src/bin/common/full_buf_writer.rs:35-41 | an empty buffer at position 0, not finalized, the wrapped writer empty |
| FullBufWriter.FullBufWriter.Write | src/bin/common/full_buf_writer.rs:10-12 | `write` changes only the buffer and the position: the buffer becomes `Overwritten`, the position moves past `buf`, all of it is written, the wrapped writer gets nothing |
| FullBufWriter.FullBufWriter.Seek | src/bin/common/full_buf_writer.rs:18-22 | `seek` moves the position to `SeekTarget` or leaves it and returns the error |
| FullBufWriter.FullBufWriter.CopyContent | src/bin/common/full_buf_writer.rs:25-28 | rewinding and copying hands the whole buffer to the wrapped writer and returns its length |
| FullBufWriter.FullBufWriter.Finalize | src/bin/common/full_buf_writer.rs:30-33 | `finalize` sets the flag and the wrapped writer ends up with exactly the buffer, whatever the position was |
| FullBufWriter.FullBufWriter.Drop | src/bin/common/full_buf_writer.rs:44-50 | `drop` copies only if not finalized, so on either path the wrapped writer holds the buffer exactly once |

## Findings

| source | as written | input that shows it | evidently intended | confidence | as-written member | corrected member |
|---|---|---|---|---|---|---|
| src/ilda_wav.cpp:133-141 | the difference `x - last_x` is stored in an `int16_t` before it is scaled, so a difference beyond 16 bits wraps | from -30000 to 30000 in 4 points: the difference 60000 wraps to -5536 and step 3 is 31384 instead of 15000 | every interpolation step lies on the segment from the last location to the target | not executed | LegacyWav.AsWrittenLeavesSegment | LegacyWav.Interpolate |

`LegacyWav.AsWrittenLandsOnTarget` shows that the code as written still reaches the target at the
last step.

## Left out

- Input and output: files, stdin and stdout, read, write and seek errors of the underlying streams,
  and `flush` of the sinks. Streams are modelled as byte or sample sequences.
- PointDecoder.RawReader.Next: a read error other than end of input, which the raw reader reports
  as `Some(Err(Error::IoError(e)))`, is not modelled. The model's input is a byte sequence that can
  only run out, so `Next` yields a point or ends the stream.
- Command-line handling: `get_options`, clap, file-name inference, the check on the repeat option,
  and the unused `mdps` option. It is argument plumbing, not data logic.
- The encoder's sample sinks `PcmWriter` and `HoundWriter`, and hound's WAV parsing. The encoder
  model stops at the normalised sample vectors. The hound reader starts from hound's decoded integer
  samples. Both sinks are byte formatting done through foreign crates.
- IEEE-754 rounding: `f64` is `real`, and NaN is modelled only on the encoder's sample clock. `sqrt` is a
  parameter that meets the square-root property, because it is a foreign function.
- FrameEncoder.Config.Valid: the encoder model takes any non-zero real `--fps`, a positive `--pps`
  and a positive sample rate. The encoder checks none of them, but at 0 (or NaN) the divisions give
  infinities or NaN. `real` has no infinity, so those runs are not modelled.
- Exceeding `u64` in `cur_sample` and the saturation of `ceil() as u64`. The count is an unbounded
  natural number, which real inputs never push past 2^64.
- LegacyWav.Sane: the legacy model takes `fps > 0`, `pps >= 0` and `rate >= 0`, but the converter
  checks none of its settings. `fps == 0` divides by zero, which C++ leaves undefined. A negative
  `rate` gives `frame_data` a negative size, so constructing the vector throws after the first
  header is written. A negative `fps` or `pps` is defined C arithmetic, but `groupSizeOfNthGroup`
  then hands out budgets that can be negative, and they need not sum to `pps`. Those runs are not
  modelled, and the scheduling lemmas (`GroupSize.GroupSizesSum`, `LegacyWav.OneSecondOfAudio`)
  speak only of the non-negative case.
- `int` overflow of the C++ counters (`total_bytes`, `rate * channel_count`, `point_number`). The
  header fields themselves are converted to their widths explicitly.
- GroupSize.GroupSizeOfNthGroup, GroupSize.ExtraIsCarry, GroupSize.CountExtrasIsQuotient,
  GroupSize.GroupSizesSum, LegacyWav.SpanWithinSecond, LegacyWav.FrameFitsBuffer and
  LegacyWav.OneSecondOfAudio compute `index * rest` and `(index + 1) * rest`
  (src/ilda_wav.cpp:63) in unbounded integers. In C++ they are `int` products. The lemmas hold for
  the code only while `(index + 1) * (total % groups)` stays below 2^31. The sample schedule calls
  `groupSizeOfNthGroup(rate, pps, point_number)`, so it needs `pps * (rate % pps) < 2^31` over a
  whole second. At rate 44100 and pps 50000 the product first passes 2^31 at point_number 48695,
  and the budgets after it are not modelled.
- LegacyWav.InterpolateAsWritten and LegacyWav.Interpolate compute `(int)dx * p`
  (src/ilda_wav.cpp:139-141) in unbounded integers. In C++ the product can overflow `int` once a
  location has more than 65535 points, and those steps are not modelled.
- FrameSplitter.WholeFrames, FrameSplitter.NextFrameStart and FrameSplitter.FrameEndsOnSample hold in
  exact arithmetic. The decoder adds `1.0 / sample_rate` to its clock in `f64` and compares it
  against multiples of `1.0 / fps` (src/bin/ildawav2ilda.rs:332-349). Neither period is in general
  a binary fraction, so rounding can move any frame boundary by one point, and the longer frame
  need not be the first.
- FrameSplitter.Split takes the sample period and the frame period as given reals. The decoder
  computes them as `1.0 / sample_rate` and `1.0 / fps` (src/bin/ildawav2ilda.rs:333-334) without a
  check. With `--fps 0` the frame period is +inf, and with a NaN fps it is NaN. In both cases no
  frame is written before the final flush. With `--sample-rate 0` the sample period is +inf, and
  every point then passes a finite frame end. `real` has neither infinity nor NaN, so these runs are
  not modelled.
- Host byte order: the C++ reader and `WavHeader::littleEndian` are modelled on a little-endian host.
  On such a host `littleEndian` is the identity.
- Returned pointers: `ILDAIStream::nextFrame` and `ILDARepeater::nextFrame` return pointers into
  their own storage or the wrapped input. The model returns the frame pointed at, so aliasing and
  later mutation through the pointer are not captured.
- IldaReader.IldaIStream.constructor: the header and record count, which C++ leaves uninitialised,
  start at zero. Every section reads both before using them. The projector of the initial empty
  frame (src/frame.hpp:15) is uninitialised too, and the model starts it at 0. A file whose first
  section is a palette hands that frame back (src/ilda_istream.cpp:85-98), so its projector is
  whatever the memory held.
- LegacyWav.InterpolateAxes, LegacyWav.LegacyWavOutput.WriteStep, LegacyWav.LegacyWavOutput.Run
  and everything built on `InterpolateAxes` use the corrected `LegacyWav.Interpolate`. The code
  as written stores the difference in an `int16_t` first (`LegacyWav.InterpolateAsWritten`), so
  interpolation steps between locations more than 32767 apart differ from the model's. The two
  agree whenever the difference fits in 16 bits. Lengths, headers and failures do not depend on the
  step formula.
- IldaReader.IldaIStream.FrameFrom2dCoordinatesIndexed is modelled, but `nextFrame` never calls it.
  Format 1 goes to the 3-D indexed reader (`IldaSections.FormatOneReadAsZero`).
- IldaRepeater.IldaRepeater.NextFrame requires that the wrapped input delivered at least one frame.
  Replaying an empty recording dereferences `end()`, which C++ leaves undefined.
- IldaRepeater.IldaRepeater.NextFrame and MemoryCycle.MemoryCycleIterator.Next take the wrapped
  input as the items it yields before it first runs out. They assume it stays exhausted after that.
- MemoryCycle.MemoryCycleIterator.Next models a release build: on an empty source,
  `items.len() - 1` wraps and the call returns `None`. A debug build panics there instead.
- MemoryCycle.MemoryCycleIterator.constructor requires a source shorter than 2^64 items, the most
  a `Vec` can hold.
- FullBufWriter.FullBufWriter.Write requires the write to end below 2^64 bytes. A larger cursor
  cannot be allocated.
- FullBufWriter.FullBufWriter.Seek requires an absolute target to fit a `u64`, which is the type
  of `SeekFrom::Start`.
- FullBufWriter.FullBufWriter.Drop does not model the panic of `unwrap` on a failed copy, because
  write errors of the wrapped writer are not modelled.
- `FullBufWriter::flush` has no member. It flushes only the in-memory cursor, which is a no-op that
  changes no state.
- The decoder's `Frame::new` names and the ILDA writer that serialises the decoded frames are not
  modelled. The decoder model ends at the sequence of frames handed to `write_frame`.

=== FILE: bytes.dfy ===
/**
  Bytes and the two byte orders the repository reads and writes: little-endian PCM samples and
  RIFF WAVE fields, and the big-endian record count of an ILDA header.
*/
module Bytes {

  /** One octet. */
  type Byte = b: int | 0 <= b < 256

  /** 256 to the power n: the number of values n bytes can hold. */
  function Pow256(n: nat): (p: nat)
    ensures p >= 1
  {
    if n == 0 then 1 else 256 * Pow256(n - 1)
  }

  /** The unsigned number the bytes stand for, least significant byte first. */
  function LeUnsigned(bs: seq<Byte>): (v: nat)
    ensures v < Pow256(|bs|)
  {
    if bs == [] then 0 else bs[0] + 256 * LeUnsigned(bs[1..])
  }

  /** The n bytes, least significant first, that stand for v modulo 256^n. */
  function LeBytes(v: nat, n: nat): (bs: seq<Byte>)
    ensures |bs| == n
  {
    if n == 0 then [] else [v % 256] + LeBytes(v / 256, n - 1)
  }

  /** Writing n bytes and reading them back gives the number back, whenever it fits in n bytes. */
  lemma {:induction false} LeRoundTrip(v: nat, n: nat)
    requires v < Pow256(n)
    ensures LeUnsigned(LeBytes(v, n)) == v
  {
    if n > 0 {
      LeRoundTrip(v / 256, n - 1);
      assert LeBytes(v, n)[1..] == LeBytes(v / 256, n - 1);
    }
  }

  /** Reading n bytes and writing them back gives the same bytes. */
  lemma {:induction false} LeBytesOfUnsigned(bs: seq<Byte>)
    ensures LeBytes(LeUnsigned(bs), |bs|) == bs
  {
    if bs != [] {
      LeBytesOfUnsigned(bs[1..]);
      assert LeUnsigned(bs) % 256 == bs[0];
      assert LeUnsigned(bs) / 256 == LeUnsigned(bs[1..]);
    }
  }

  /** Half of 256^n: the signed numbers n bytes hold are -Half(n) .. Half(n) - 1. */
  function Half(n: nat): int {
    Pow256(n) / 2
  }

  /** Two's complement: the signed number n little-endian bytes stand for. */
  function LeSigned(bs: seq<Byte>): (v: int)
    requires |bs| > 0
    ensures -Half(|bs|) <= v < Half(|bs|)
  {
    var u := LeUnsigned(bs);
    if u >= Half(|bs|) then u - Pow256(|bs|) else u
  }

  /** The n bytes of a signed number in two's complement, least significant first. */
  function LeSignedBytes(v: int, n: nat): (bs: seq<Byte>)
    requires n > 0 && -Half(n) <= v < Half(n)
    ensures |bs| == n
  {
    LeBytes(if v < 0 then v + Pow256(n) else v, n)
  }

  /** Every signed number that fits survives being written and read back. */
  lemma SignedRoundTrip(v: int, n: nat)
    requires n > 0 && -Half(n) <= v < Half(n)
    ensures LeSigned(LeSignedBytes(v, n)) == v
  {
    LeRoundTrip(if v < 0 then v + Pow256(n) else v, n);
  }

  /** The big-endian 16-bit number of two bytes, as `boost::endian::big_to_native` reads it. */
  function BeU16(hi: Byte, lo: Byte): (v: nat)
    ensures v < 65536
    ensures v == LeUnsigned([lo, hi])
  {
    hi * 256 + lo
  }
}

=== FILE: c_int.dfy ===
/**
  The C++ integer types and operators the legacy tools rely on: fixed-width types, the
  truncating `/` and `%` of C and C++, and the modular conversion of an `int` to `int16_t`.
*/
module CInt {

  type Int16 = v: int | -32768 <= v <= 32767
  type Uint8 = v: int | 0 <= v < 256
  type Uint16 = v: int | 0 <= v < 0x1_0000
  type Uint32 = v: int | 0 <= v < 0x1_0000_0000

  const INT16_MAX: int := 32767
  const UINT8_MAX: int := 255

  /** The absolute value. */
  function Abs(a: int): (r: int)
    ensures r >= 0 && (r == a || r == -a)
  {
    if a < 0 then -a else a
  }

  /**
    C's `a / b`: the quotient rounded toward zero, so that the remainder keeps the sign of the
    dividend and is smaller than the divisor in magnitude.
  */
  function CDiv(a: int, b: int): (q: int)
    requires b != 0
    ensures a >= 0 ==> 0 <= a - q * b < Abs(b)
    ensures a < 0 ==> -Abs(b) < a - q * b <= 0
  {
    var n := Abs(a) / Abs(b);
    var q := if (a < 0) == (b < 0) then n else -n;
    TruncatedQuotient(a, b, n, q);
    q
  }

  lemma TruncatedQuotient(a: int, b: int, n: int, q: int)
    requires b != 0 && n == Abs(a) / Abs(b)
    requires q == if (a < 0) == (b < 0) then n else -n
    ensures a >= 0 ==> 0 <= a - q * b < Abs(b)
    ensures a < 0 ==> -Abs(b) < a - q * b <= 0
  {
    var c := Abs(b);
    var p := n * c;
    assert 0 <= Abs(a) - p < c;
    if b > 0 {
      assert q * b == (if a < 0 then -p else p) by { SignedProduct(n, c); }
    } else {
      assert q * b == (if a < 0 then -p else p) by { SignedProduct(n, c); }
    }
  }

  lemma SignedProduct(n: int, c: int)
    ensures (-n) * (-c) == n * c && n * (-c) == -(n * c) && (-n) * c == -(n * c)
  {
  }

  /** C's `a % b`: what the truncating division leaves. */
  function CMod(a: int, b: int): (m: int)
    requires b != 0
    ensures a == CDiv(a, b) * b + m
    ensures a >= 0 ==> 0 <= m < Abs(b)
    ensures a < 0 ==> -Abs(b) < m <= 0
  {
    a - CDiv(a, b) * b
  }

  /** On a non-negative dividend and a positive divisor, C and Dafny agree. */
  lemma CDivNonNegative(a: int, b: int)
    requires a >= 0 && b > 0
    ensures CDiv(a, b) == a / b && CMod(a, b) == a % b
  {
    DivModUnique(a, b, CDiv(a, b), CMod(a, b));
  }

  /** Quotient and remainder are unique. */
  lemma DivModUnique(x: int, g: int, q: int, m: int)
    requires g > 0 && x == q * g + m && 0 <= m < g
    ensures x / g == q && x % g == m
  {
    var q' := x / g;
    var m' := x % g;
    assert (q - q') * g == m' - m;
    if q > q' {
      assert (q - q') * g >= g by { MulAtLeast(q - q', g); }
    } else if q < q' {
      assert (q' - q) * g >= g by { MulAtLeast(q' - q, g); }
    }
  }

  lemma MulAtLeast(k: int, g: int)
    requires k >= 1 && g > 0
    ensures k * g >= g
  {
  }

  /**
    Converting an `int` to `int16_t` keeps it modulo 2^16 (two's complement), which leaves every
    value that fits unchanged.
  */
  function Wrap16(v: int): (r: Int16)
    ensures (r - v) % 0x1_0000 == 0
    ensures -32768 <= v <= 32767 ==> r == v
  {
    (v + 32768) % 0x1_0000 - 32768
  }
}

=== FILE: channel_map.dfy ===
/**
  The encoder's channel mapping (src/bin/ilda2wav.rs): a string with one character per PCM
  channel, each character choosing a mapper that turns a point into a normalised value, and
  an `is_axis` flag that says whether the channel counts towards travel distance.
*/
module ChannelMap {
  import opened Wrappers

  /** Largest i16 value, the scale of the position channels. */
  const I16_MAX: int := 32767
  /** Largest u8 value, the scale of the colour channels. */
  const U8_MAX: int := 255

  /** Rust's `i16` and `u8`. */
  type I16 = v: int | -32768 <= v <= 32767
  type U8 = v: int | 0 <= v <= 255

  /** The ilda crate's SimplePoint: a signed 16-bit position, 8-bit colour and a blank flag. */
  datatype Point = Point(x: I16, y: I16, r: U8, g: U8, b: U8, isBlank: bool)

  /** What one channel carries; the names follow the characters `x X y Y r g b l 1 0 _`. */
  datatype Channel =
    | AxisX | AxisXInverted | AxisY | AxisYInverted
    | Red | Green | Blue | Blank
    | High | Low | Silence

  /** The characters the encoder accepts. */
  const ENCODER_CHARS: string := "xXyYrgbl10_"

  /** `is_axis` of the configuration: only the four position channels count for distance. */
  predicate IsAxis(ch: Channel) {
    ch.AxisX? || ch.AxisXInverted? || ch.AxisY? || ch.AxisYInverted?
  }

  /** The character that selects a channel. */
  function ChannelChar(ch: Channel): char {
    match ch
    case AxisX => 'x'
    case AxisXInverted => 'X'
    case AxisY => 'y'
    case AxisYInverted => 'Y'
    case Red => 'r'
    case Green => 'g'
    case Blue => 'b'
    case Blank => 'l'
    case High => '1'
    case Low => '0'
    case Silence => '_'
  }

  /** One arm of the character match; `None` is the arm that makes the parse fail. */
  function ParseChannel(c: char): (r: Option<Channel>)
    ensures r.Some? <==> c in ENCODER_CHARS
    ensures r.Some? ==> ChannelChar(r.value) == c
    ensures r.Some? ==> (IsAxis(r.value) <==> c in "xXyY")
  {
    match c
    case 'x' => Some(AxisX)
    case 'X' => Some(AxisXInverted)
    case 'y' => Some(AxisY)
    case 'Y' => Some(AxisYInverted)
    case 'r' => Some(Red)
    case 'g' => Some(Green)
    case 'b' => Some(Blue)
    case 'l' => Some(Blank)
    case '1' => Some(High)
    case '0' => Some(Low)
    case '_' => Some(Silence)
    case _ => None
  }

  /** Every channel has exactly one character, and that character parses back to it. */
  lemma ChannelCharRoundTrip(ch: Channel)
    ensures ParseChannel(ChannelChar(ch)) == Some(ch)
  {
  }

  /**
    The whole mapping string: `None` stands for the "Invalid Channel." panic, raised when any
    character is outside `x X y Y r g b l 1 0 _`.
  */
  function ParseMapping(s: string): (r: Option<seq<Channel>>)
    ensures r.Some? <==> forall i :: 0 <= i < |s| ==> s[i] in ENCODER_CHARS
    ensures r.Some? ==> |r.value| == |s|
    ensures r.Some? ==> forall i :: 0 <= i < |s| ==> ChannelChar(r.value[i]) == s[i]
    ensures r.Some? ==> forall i :: 0 <= i < |s| ==> (IsAxis(r.value[i]) <==> s[i] in "xXyY")
    decreases |s|
  {
    if s == [] then Some([])
    else
      match (ParseChannel(s[0]), ParseMapping(s[1..]))
      case (Some(ch), Some(rest)) => Some([ch] + rest)
      case _ => None
  }

  /** The mapping string a channel list is written as. */
  function MappingString(chs: seq<Channel>): (s: string)
    ensures |s| == |chs|
    ensures forall i :: 0 <= i < |chs| ==> s[i] == ChannelChar(chs[i])
  {
    seq(|chs|, i requires 0 <= i < |chs| => ChannelChar(chs[i]))
  }

  /** Parsing is the inverse of writing the mapping string. */
  lemma {:induction false} ParseMappingRoundTrip(chs: seq<Channel>)
    ensures ParseMapping(MappingString(chs)) == Some(chs)
    decreases |chs|
  {
    if chs != [] {
      var s := MappingString(chs);
      assert s[1..] == MappingString(chs[1..]);
      ParseMappingRoundTrip(chs[1..]);
      ChannelCharRoundTrip(chs[0]);
      assert [chs[0]] + chs[1..] == chs;
    }
  }

  /**
    The mappers `map_x` ... `map_off`: position divided by i16::MAX (negated for the
    inverted axes), colour c as 2c/255 - 1, blank as -1 for a blanked point and +1 otherwise,
    and the constants 1, -1 and 0.
  */
  function MapValue(ch: Channel, p: Point): (v: real)
    ensures !IsAxis(ch) ==> -1.0 <= v <= 1.0
    ensures IsAxis(ch) ==> -32768.0 / 32767.0 <= v <= 32768.0 / 32767.0
    ensures ch.Red? ==> (v == -1.0 <==> p.r == 0) && (v == 1.0 <==> p.r == U8_MAX)
    ensures ch.Green? ==> (v == -1.0 <==> p.g == 0) && (v == 1.0 <==> p.g == U8_MAX)
    ensures ch.Blue? ==> (v == -1.0 <==> p.b == 0) && (v == 1.0 <==> p.b == U8_MAX)
    ensures ch.Blank? ==> (v < 0.0 <==> p.isBlank)
  {
    match ch
    case AxisX => p.x as real / I16_MAX as real
    case AxisXInverted => -(p.x as real / I16_MAX as real)
    case AxisY => p.y as real / I16_MAX as real
    case AxisYInverted => -(p.y as real / I16_MAX as real)
    case Red => p.r as real * 2.0 / U8_MAX as real - 1.0
    case Green => p.g as real * 2.0 / U8_MAX as real - 1.0
    case Blue => p.b as real * 2.0 / U8_MAX as real - 1.0
    case Blank => if p.isBlank then -1.0 else 1.0
    case High => 1.0
    case Low => -1.0
    case Silence => 0.0
  }

  /** The normalised vector of one point: one value per channel, in channel order. */
  function MapPoint(chs: seq<Channel>, p: Point): (v: seq<real>)
    ensures |v| == |chs|
    ensures forall i :: 0 <= i < |chs| ==> v[i] == MapValue(chs[i], p)
  {
    seq(|chs|, i requires 0 <= i < |chs| => MapValue(chs[i], p))
  }
}

=== FILE: frame.dfy ===
/**
  The C++ tools' frame (src/frame.hpp): a projector number and a list of points with a signed
  16-bit position in three axes and a 16-bit colour per component. The ILDA reader produces
  these, the repeater replays them and the legacy encoder consumes them.
*/
module IldaFrame {
  import opened CInt

  datatype Point = Point(x: Int16, y: Int16, z: Int16, r: Uint16, g: Uint16, b: Uint16)

  datatype Frame = Frame(projector: Uint8, points: seq<Point>)

  /** The frame a default-constructed `Frame` holds: projector 0 and no points. */
  const EMPTY_FRAME: Frame := Frame(0, [])
}

=== FILE: frame_encoder.dfy ===
/**
  The frame loop of `main` in src/bin/ilda2wav.rs: every frame of the animation becomes a run of
  PCM sample vectors, one value per channel.

  For each frame the points are first mapped to channel vectors, each with its Euclidean distance
  (over the axis channels only) from the vector before it. The frame's time is then spent point by
  point in two phases:
  - travel: a share of the frame's free time proportional to the point's distance; the axis
    channels are ramped linearly from the previous vector to the point, the other channels jump;
  - dwell: a fixed time per point (`1 / pps * correctness`), holding the point's vector.
  Each phase asks the sample clock (WavProgress) how many whole samples it may write.

  The square root of the platform is a parameter of the configuration: the model relies only on it
  being the real square root.
*/
module FrameEncoder {
  import opened ChannelMap
  import opened WavProgress

  /** What the encoder relies on from `f64::sqrt`. */
  ghost predicate IsSqrt(sqrt: real -> real) {
    forall q :: q >= 0.0 ==> RootOf(sqrt(q), q)
  }

  /** x squared: never negative, and zero only at zero. */
  function Sq(x: real): (r: real)
    ensures r >= 0.0
    ensures r == 0.0 <==> x == 0.0
  {
    SquareNonNegative(x);
    SquareZeroOnlyAtZero(x);
    x * x
  }

  lemma SquareNonNegative(x: real)
    ensures x * x >= 0.0
  {
  }

  lemma SquareZeroOnlyAtZero(x: real)
    ensures x * x == 0.0 ==> x == 0.0
  {
    if x != 0.0 && x * x == 0.0 {
      MulDivCancel(x, x);
      assert false;
    }
  }

  /** r is the square root of q. */
  ghost predicate RootOf(r: real, q: real) {
    r >= 0.0 && Sq(r) == q
  }

  lemma SqrtOf(sqrt: real -> real, q: real)
    requires IsSqrt(sqrt) && q >= 0.0
    ensures sqrt(q) >= 0.0 && Sq(sqrt(q)) == q
    ensures sqrt(q) == 0.0 <==> q == 0.0
  {
    assert RootOf(sqrt(q), q);
  }

  /** The options the frame loop reads: the channels, fps, the sample rate, pps and correctness. */
  datatype Config = Config(
    channels: seq<Channel>,
    sqrt: real -> real,
    fps: real,
    sampleRate: nat,
    pps: real,
    correctness: real)
  {
    ghost predicate Valid() {
      fps != 0.0 && sampleRate > 0 && pps > 0.0 && IsSqrt(sqrt)
    }

    /** `time_per_frame`. */
    function TimePerFrame(): real
      requires Valid()
    {
      1.0 / fps
    }

    /** `time_per_sample`. */
    function TimePerSample(): (t: real)
      requires Valid()
      ensures t > 0.0
    {
      1.0 / sampleRate as real
    }

    /** `guaranteed_per_sample`: the dwell time of every point. */
    function Guaranteed(): (g: real)
      requires Valid()
      ensures correctness >= 0.0 ==> g >= 0.0
    {
      DwellNonNegative(pps, correctness);
      (1.0 / pps) * correctness
    }
  }

  lemma DwellNonNegative(pps: real, correctness: real)
    requires pps > 0.0
    ensures correctness >= 0.0 ==> (1.0 / pps) * correctness >= 0.0
  {
  }

  /** `vec![0.0; channels.len()]`, the position before the first frame. */
  function Zeros(n: nat): (z: seq<real>)
    ensures |z| == n
  {
    seq(n, i => 0.0)
  }

  /** `total_d` after the first k channels: the squared differences of the axis channels only. */
  function SqDist(chs: seq<Channel>, from: seq<real>, to: seq<real>, k: nat): (d: real)
    requires k <= |chs| && |from| == |chs| && |to| == |chs|
    ensures d >= 0.0
  {
    if k == 0 then 0.0
    else
      var d := SqDist(chs, from, to, k - 1);
      if IsAxis(chs[k - 1]) then
        d + Sq(from[k - 1] - to[k - 1])
      else d
  }

  /** The squared distance is zero exactly when the two vectors agree on every axis channel. */
  lemma {:induction false} SqDistZero(chs: seq<Channel>, from: seq<real>, to: seq<real>, k: nat)
    requires k <= |chs| && |from| == |chs| && |to| == |chs|
    ensures SqDist(chs, from, to, k) == 0.0 <==>
      forall j :: 0 <= j < k && IsAxis(chs[j]) ==> from[j] == to[j]
  {
    if k > 0 {
      SqDistZero(chs, from, to, k - 1);
    }
  }

  /** FramePoints: a point's channel vector and its distance from the vector before it. */
  datatype FramePoint = FramePoint(pos: seq<real>, dist: real)

  /** A point mapped against the previous vector `prev`. */
  function PointOf(cfg: Config, prev: seq<real>, p: Point): (fp: FramePoint)
    requires |prev| == |cfg.channels| && IsSqrt(cfg.sqrt)
    ensures fp.pos == MapPoint(cfg.channels, p)
    ensures fp.dist >= 0.0
    ensures fp.dist == cfg.sqrt(SqDist(cfg.channels, prev, fp.pos, |cfg.channels|))
  {
    var pos := MapPoint(cfg.channels, p);
    FramePoint(pos, cfg.sqrt(SqDist(cfg.channels, prev, pos, |cfg.channels|)))
  }

  /**
    A point's distance is the Euclidean distance over the axis channels: its square is the sum of
    the squared axis differences, and it is zero exactly when the point sits on `prev` on every axis.
  */
  lemma PointDistance(cfg: Config, prev: seq<real>, p: Point)
    requires |prev| == |cfg.channels| && IsSqrt(cfg.sqrt)
    ensures var fp := PointOf(cfg, prev, p);
      Sq(fp.dist) == SqDist(cfg.channels, prev, fp.pos, |cfg.channels|) &&
      (fp.dist == 0.0 <==>
        forall j :: 0 <= j < |cfg.channels| && IsAxis(cfg.channels[j]) ==> prev[j] == fp.pos[j])
  {
    var fp := PointOf(cfg, prev, p);
    SqDistZero(cfg.channels, prev, fp.pos, |cfg.channels|);
    SqrtOf(cfg.sqrt, SqDist(cfg.channels, prev, fp.pos, |cfg.channels|));
  }

  /** The vector the next point is measured from: the last one mapped, or `start`. */
  function LastPos(start: seq<real>, measured: seq<FramePoint>): seq<real> {
    if measured == [] then start else measured[|measured| - 1].pos
  }

  /** The `points` of one frame. */
  function MapFrame(cfg: Config, start: seq<real>, frame: seq<Point>): (measured: seq<FramePoint>)
    requires |start| == |cfg.channels| && IsSqrt(cfg.sqrt)
    ensures |measured| == |frame|
    ensures forall i :: 0 <= i < |measured| ==> |measured[i].pos| == |cfg.channels| && measured[i].dist >= 0.0
  {
    if frame == [] then []
    else
      var init := MapFrame(cfg, start, frame[..|frame| - 1]);
      init + [PointOf(cfg, LastPos(start, init), frame[|frame| - 1])]
  }

  /**
    Every point of a frame is mapped, in order; the first is measured from the position the
    previous frame ended on, every other one from the point before it.
  */
  lemma {:induction false} MapFrameMeasures(cfg: Config, start: seq<real>, frame: seq<Point>, i: nat)
    requires |start| == |cfg.channels| && IsSqrt(cfg.sqrt) && i < |frame|
    ensures var measured := MapFrame(cfg, start, frame);
      measured[i] == PointOf(cfg, if i == 0 then start else measured[i - 1].pos, frame[i])
  {
    var init := frame[..|frame| - 1];
    if i < |init| {
      MapFrameMeasures(cfg, start, init, i);
      assert init[i] == frame[i];
    }
  }

  /** `total_dist`, the sum of the distances of a frame's points. */
  function TotalDist(measured: seq<FramePoint>): real {
    if measured == [] then 0.0 else TotalDist(measured[..|measured| - 1]) + measured[|measured| - 1].dist
  }

  /** With no negative distance, no point's distance exceeds the total. */
  lemma {:induction false} TotalDistBounds(measured: seq<FramePoint>)
    requires forall i :: 0 <= i < |measured| ==> measured[i].dist >= 0.0
    ensures TotalDist(measured) >= 0.0 && DistsWithin(measured, TotalDist(measured))
  {
    if measured != [] {
      var init := measured[..|measured| - 1];
      assert forall i :: 0 <= i < |init| ==> init[i] == measured[i];
      TotalDistBounds(init);
    }
  }

  /** With no negative distance, the total is zero exactly when every distance is. */
  lemma {:induction false} TotalDistZero(measured: seq<FramePoint>)
    requires forall i :: 0 <= i < |measured| ==> measured[i].dist >= 0.0
    ensures TotalDist(measured) == 0.0 <==> forall i :: 0 <= i < |measured| ==> measured[i].dist == 0.0
  {
    if measured != [] {
      var init := measured[..|measured| - 1];
      TotalDistZero(init);
      TotalDistBounds(init);
      assert forall i :: 0 <= i < |init| ==> init[i] == measured[i];
    }
  }

  /** `point.dist / total_dist`; total is the sum the distance is part of, so 0/0 is the only division by zero, and it is NaN. */
  function Share(dist: real, total: real): (s: F64)
    requires 0.0 <= dist <= total
    ensures s.NaN? <==> total == 0.0
    ensures s.Real? ==> 0.0 <= s.v <= 1.0
  {
    if total == 0.0 then NaN else Real(dist / total)
  }

  /** `shared_time`: what is left of the frame after every point's dwell, and never negative. */
  function SharedTime(cfg: Config, k: nat): (t: real)
    requires cfg.Valid()
    ensures t >= 0.0
  {
    MaxZero(Real(cfg.TimePerFrame() - cfg.Guaranteed() * k as real))
  }

  /**
    Together with the k dwells, the shared time fills the frame time exactly, unless the dwells
    alone need more, and then it is nothing.
  */
  lemma SharedTimeFillsFrame(cfg: Config, k: nat)
    requires cfg.Valid()
    ensures var g := cfg.Guaranteed() * k as real;
      SharedTime(cfg, k) + g == if cfg.TimePerFrame() >= g then cfg.TimePerFrame() else g
  {
  }

  /** One entry of `steps`: an axis channel moves linearly, any other channel jumps. */
  datatype Step = Linear(from: real, step: real) | Jump(pos: real)

  /** `steps` for a travel of n samples from `from` to `to`. */
  function StepsTo(chs: seq<Channel>, from: seq<real>, to: seq<real>, n: nat): (steps: seq<Step>)
    requires n > 0 && |from| == |chs| && |to| == |chs|
    ensures |steps| == |chs|
  {
    seq(|chs|, j requires 0 <= j < |chs| =>
      if IsAxis(chs[j]) then Linear(from[j], (to[j] - from[j]) / n as real) else Jump(to[j]))
  }

  /** `samples` for the i-th sample of a travel. */
  function SampleAt(steps: seq<Step>, i: nat): (v: seq<real>)
    ensures |v| == |steps|
  {
    seq(|steps|, j requires 0 <= j < |steps| =>
      match steps[j]
      case Linear(from, step) => from + step * i as real
      case Jump(pos) => pos)
  }

  lemma FractionOfTravel(from: real, to: real, n: nat, i: nat)
    requires n > 0
    ensures from + (to - from) / n as real * i as real == from + (to - from) * (i as real / n as real)
    ensures i == n ==> from + (to - from) / n as real * i as real == to
  {
  }

  /**
    The travel phase: n vectors, every non-axis channel held at its target, the last vector
    being the target itself.
  */
  function Ramp(chs: seq<Channel>, from: seq<real>, to: seq<real>, n: nat): (r: seq<seq<real>>)
    requires n > 0 && |from| == |chs| && |to| == |chs|
    ensures |r| == n
    ensures forall k :: 0 <= k < n ==> |r[k]| == |chs|
    ensures forall k, j :: 0 <= k < n && 0 <= j < |chs| && !IsAxis(chs[j]) ==> r[k][j] == to[j]
    ensures r[n - 1] == to
  {
    var steps := StepsTo(chs, from, to, n);
    var r := seq(n, k requires 0 <= k < n => SampleAt(steps, k + 1));
    forall j | 0 <= j < |chs|
      ensures r[n - 1][j] == to[j]
    {
      FractionOfTravel(from[j], to[j], n, n);
    }
    assert |r[n - 1]| == |to|;
    assert r[n - 1] == to;
    r
  }

  /** The k-th travel vector (from 1) has moved every axis channel k/n of the way from `from` to `to`. */
  lemma RampInterpolates(chs: seq<Channel>, from: seq<real>, to: seq<real>, n: nat, k: nat, j: nat)
    requires n > 0 && |from| == |chs| && |to| == |chs|
    requires 1 <= k <= n && j < |chs| && IsAxis(chs[j])
    ensures Ramp(chs, from, to, n)[k - 1][j] == from[j] + (to[j] - from[j]) * (k as real / n as real)
  {
    var steps := StepsTo(chs, from, to, n);
    assert steps[j] == Linear(from[j], (to[j] - from[j]) / n as real);
    assert Ramp(chs, from, to, n)[k - 1] == SampleAt(steps, k);
    assert SampleAt(steps, k)[j] == from[j] + (to[j] - from[j]) / n as real * k as real;
    FractionOfTravel(from[j], to[j], n, k);
  }

  /** The dwell phase: n copies of the point's vector. */
  function Hold(pos: seq<real>, n: nat): (r: seq<seq<real>>)
    ensures |r| == n
    ensures forall k :: 0 <= k < n ==> r[k] == pos
  {
    seq(n, k => pos)
  }

  /** What the frame loop carries: the sample clock, `cur_pos`, and every vector written so far. */
  datatype EncState = EncState(clock: ClockState, curPos: seq<real>, out: seq<seq<real>>)

  /** The duration asked of the clock for a travel: `shared_time * share_of_frame`. */
  function TravelTime(shared: real, dist: real, total: real): (dt: F64)
    requires 0.0 <= dist <= total && shared >= 0.0
    ensures dt.NaN? <==> total == 0.0
    ensures dt.Real? ==> dt.v >= 0.0
  {
    Mul(Real(shared), Share(dist, total))
  }

  /** The vectors the travel phase writes: none when the clock grants no sample. */
  function TravelOut(chs: seq<Channel>, from: seq<real>, to: seq<real>, n: nat): (r: seq<seq<real>>)
    requires |from| == |chs| && |to| == |chs|
    ensures |r| == n
  {
    if n > 0 then Ramp(chs, from, to, n) else []
  }

  /**
    One point of a frame: travel, then `cur_pos` becomes the point, then dwell. The vectors
    written are exactly as many as the clock advanced, and the clock moves by the travel time
    and then the dwell time.
  */
  function PointStep(cfg: Config, st: EncState, fp: FramePoint, total: real, shared: real): (st': EncState)
    requires cfg.Valid() && |st.curPos| == |cfg.channels| && |fp.pos| == |cfg.channels|
    requires 0.0 <= fp.dist <= total && shared >= 0.0
    ensures st'.curPos == fp.pos
    ensures |st'.out| >= |st.out|
    ensures |st'.out| - |st.out| == st'.clock.sample - st.clock.sample
    ensures st'.clock.time ==
      Add(Add(st.clock.time, TravelTime(shared, fp.dist, total)), Real(cfg.Guaranteed()))
  {
    var tps := cfg.TimePerSample();
    var dt := TravelTime(shared, fp.dist, total);
    var n := SamplesFor(st.clock, tps, dt);
    var afterTravel := Advanced(st.clock, tps, dt);
    var n2 := SamplesFor(afterTravel, tps, Real(cfg.Guaranteed()));
    EncState(Advanced(afterTravel, tps, Real(cfg.Guaranteed())), fp.pos,
             st.out + TravelOut(cfg.channels, st.curPos, fp.pos, n) + Hold(fp.pos, n2))
  }

  /**
    What one point writes after the vectors already there: n travel vectors, the last of them the
    point itself, then n2 copies of the point, where n and n2 are the clock's answers for the
    travel time and the dwell time.
  */
  lemma PointStepWrites(cfg: Config, st: EncState, fp: FramePoint, total: real, shared: real)
    requires cfg.Valid() && |st.curPos| == |cfg.channels| && |fp.pos| == |cfg.channels|
    requires 0.0 <= fp.dist <= total && shared >= 0.0
    ensures var st' := PointStep(cfg, st, fp, total, shared);
      var tps := cfg.TimePerSample();
      var dt := TravelTime(shared, fp.dist, total);
      var n := SamplesFor(st.clock, tps, dt);
      var n2 := SamplesFor(Advanced(st.clock, tps, dt), tps, Real(cfg.Guaranteed()));
      |st'.out| == |st.out| + n + n2 &&
      st'.out[..|st.out|] == st.out &&
      (n > 0 ==> st'.out[|st.out|..|st.out| + n] == Ramp(cfg.channels, st.curPos, fp.pos, n)) &&
      st'.out[|st.out| + n..] == Hold(fp.pos, n2)
  {
    var tps := cfg.TimePerSample();
    var dt := TravelTime(shared, fp.dist, total);
    var n := SamplesFor(st.clock, tps, dt);
    var n2 := SamplesFor(Advanced(st.clock, tps, dt), tps, Real(cfg.Guaranteed()));
    var travel := TravelOut(cfg.channels, st.curPos, fp.pos, n);
    var hold := Hold(fp.pos, n2);
    var out := st.out + travel + hold;
    assert PointStep(cfg, st, fp, total, shared).out == out;
    assert out[..|st.out|] == st.out;
    assert out[|st.out|..|st.out| + n] == travel;
    assert out[|st.out| + n..] == hold;
  }

  predicate DistsWithin(measured: seq<FramePoint>, total: real) {
    forall i :: 0 <= i < |measured| ==> 0.0 <= measured[i].dist <= total
  }

  predicate PositionsFit(measured: seq<FramePoint>, width: nat) {
    forall i :: 0 <= i < |measured| ==> |measured[i].pos| == width
  }

  /** The points of a frame taken in order; the vectors written match the samples the clock counted. */
  function Steps(cfg: Config, st: EncState, measured: seq<FramePoint>, total: real, shared: real): (st': EncState)
    requires cfg.Valid() && |st.curPos| == |cfg.channels| && PositionsFit(measured, |cfg.channels|)
    requires DistsWithin(measured, total) && shared >= 0.0
    ensures |st'.curPos| == |cfg.channels|
    ensures st'.curPos == LastPos(st.curPos, measured)
    ensures |st'.out| - |st.out| == st'.clock.sample - st.clock.sample
  {
    if measured == [] then st
    else
      var init := measured[..|measured| - 1];
      assert PositionsFit(init, |cfg.channels|) && DistsWithin(init, total);
      PointStep(cfg, Steps(cfg, st, init, total, shared), measured[|measured| - 1], total, shared)
  }

  /** One whole iteration of `for frame in animation`. */
  function EncodeFrameSpec(cfg: Config, st: EncState, frame: seq<Point>): (st': EncState)
    requires cfg.Valid() && |st.curPos| == |cfg.channels|
    ensures |st'.curPos| == |cfg.channels|
    ensures frame == [] ==> st' == st
    ensures frame != [] ==> st'.curPos == MapPoint(cfg.channels, frame[|frame| - 1])
    ensures |st'.out| - |st.out| == st'.clock.sample - st.clock.sample
  {
    var measured := MapFrame(cfg, st.curPos, frame);
    MapFrameWithin(cfg, st.curPos, frame);
    Steps(cfg, st, measured, TotalDist(measured), SharedTime(cfg, |measured|))
  }

  /** The whole animation, frame after frame. */
  function EncodeFrames(cfg: Config, st: EncState, frames: seq<seq<Point>>): (st': EncState)
    requires cfg.Valid() && |st.curPos| == |cfg.channels|
    ensures |st'.curPos| == |cfg.channels|
    ensures |st'.out| - |st.out| == st'.clock.sample - st.clock.sample
  {
    if frames == [] then st
    else EncodeFrameSpec(cfg, EncodeFrames(cfg, st, frames[..|frames| - 1]), frames[|frames| - 1])
  }

  /** The travel times asked of the clock over a frame's points, added up. */
  function TravelSum(measured: seq<FramePoint>, total: real, shared: real): real
    requires DistsWithin(measured, total) && shared >= 0.0 && total > 0.0
  {
    if measured == [] then 0.0
    else
      assert DistsWithin(measured[..|measured| - 1], total);
      TravelSum(measured[..|measured| - 1], total, shared) + TravelTime(shared, measured[|measured| - 1].dist, total).v
  }

  /** k dwells of g seconds each, added up. */
  function DwellSum(k: nat, g: real): real {
    if k == 0 then 0.0 else DwellSum(k - 1, g) + g
  }

  /** The travel times are shared in proportion to distance: together they are shared * (distance / total). */
  lemma {:induction false} TravelSumShares(measured: seq<FramePoint>, total: real, shared: real)
    requires DistsWithin(measured, total) && shared >= 0.0 && total > 0.0
    ensures TravelSum(measured, total, shared) == shared * (TotalDist(measured) / total)
  {
    if measured == [] {
      assert 0.0 / total == 0.0;
    } else {
      var init := measured[..|measured| - 1];
      assert DistsWithin(init, total);
      TravelSumShares(init, total, shared);
      ShareSum(shared, TotalDist(init), measured[|measured| - 1].dist, total);
    }
  }

  lemma ShareSum(shared: real, a: real, b: real, total: real)
    requires total != 0.0
    ensures shared * (a / total) + shared * (b / total) == shared * ((a + b) / total)
  {
    Distrib(a / total, b / total, shared);
  }

  lemma {:induction false} DwellSumIsProduct(k: nat, g: real)
    ensures DwellSum(k, g) == g * k as real
  {
    if k > 0 {
      DwellSumIsProduct(k - 1, g);
      Distrib((k - 1) as real, 1.0, g);
      assert g * (k - 1) as real == (k - 1) as real * g;
      assert g * k as real == k as real * g;
    }
  }

  lemma DivSelf(t: real)
    requires t != 0.0
    ensures t / t == 1.0
  {
  }

  lemma SameProduct(a: real, x: real, y: real)
    requires x == y
    ensures a * x == a * y
  {
  }

  lemma MulOne(a: real, b: real)
    requires b == 1.0
    ensures a * b == a
  {
  }

  /**
    With a positive total distance, the clock moves over the points of a frame by the sum of
    their travel times and their dwell times.
  */
  lemma {:induction false} StepsTime(cfg: Config, st: EncState, measured: seq<FramePoint>, total: real, shared: real)
    requires cfg.Valid() && |st.curPos| == |cfg.channels| && PositionsFit(measured, |cfg.channels|)
    requires DistsWithin(measured, total) && shared >= 0.0 && total > 0.0 && st.clock.time.Real?
    ensures Steps(cfg, st, measured, total, shared).clock.time ==
      Real(st.clock.time.v + TravelSum(measured, total, shared) + DwellSum(|measured|, cfg.Guaranteed()))
  {
    if measured != [] {
      var init := measured[..|measured| - 1];
      assert PositionsFit(init, |cfg.channels|) && DistsWithin(init, total);
      StepsTime(cfg, st, init, total, shared);
    }
  }

  /** Over the whole frame the travel times add up to the whole shared time. */
  lemma TravelSumWhole(measured: seq<FramePoint>, shared: real)
    requires DistsWithin(measured, TotalDist(measured)) && shared >= 0.0 && TotalDist(measured) > 0.0
    ensures TravelSum(measured, TotalDist(measured), shared) == shared
  {
    var total := TotalDist(measured);
    TravelSumShares(measured, total, shared);
    DivSelf(total);
    MulOne(shared, total / total);
  }

  /** Every point of a mapped frame lies within the frame's total distance. */
  lemma MapFrameWithin(cfg: Config, start: seq<real>, frame: seq<Point>)
    requires |start| == |cfg.channels| && IsSqrt(cfg.sqrt)
    ensures var measured := MapFrame(cfg, start, frame);
      PositionsFit(measured, |cfg.channels|) && DistsWithin(measured, TotalDist(measured))
  {
    TotalDistBounds(MapFrame(cfg, start, frame));
  }

  /**
    The frame time budget: a frame of k points whose total distance is positive moves the
    clock by exactly shared_time plus k dwells, that is (DwellSumIsProduct) shared_time +
    k * guaranteed, which by SharedTimeFillsFrame is max(1/fps, k * guaranteed): the frame time, unless
    the dwells alone need more.
  */
  lemma FrameTimeBudget(cfg: Config, st: EncState, frame: seq<Point>)
    requires cfg.Valid() && |st.curPos| == |cfg.channels| && st.clock.time.Real?
    requires TotalDist(MapFrame(cfg, st.curPos, frame)) > 0.0
    ensures EncodeFrameSpec(cfg, st, frame).clock.time ==
      Real(st.clock.time.v + SharedTime(cfg, |frame|) + DwellSum(|frame|, cfg.Guaranteed()))
  {
    var measured := MapFrame(cfg, st.curPos, frame);
    MapFrameWithin(cfg, st.curPos, frame);
    StepsBudget(cfg, st, measured, SharedTime(cfg, |frame|));
  }

  /** The budget over already mapped points, measured against their own total distance. */
  lemma StepsBudget(cfg: Config, st: EncState, measured: seq<FramePoint>, shared: real)
    requires cfg.Valid() && |st.curPos| == |cfg.channels| && PositionsFit(measured, |cfg.channels|)
    requires DistsWithin(measured, TotalDist(measured)) && shared >= 0.0 && TotalDist(measured) > 0.0
    requires st.clock.time.Real?
    ensures Steps(cfg, st, measured, TotalDist(measured), shared).clock.time ==
      Real(st.clock.time.v + shared + DwellSum(|measured|, cfg.Guaranteed()))
  {
    var total := TotalDist(measured);
    StepsTime(cfg, st, measured, total, shared);
    TravelSumWhole(measured, shared);
  }

  /**
    With a non-negative correctness, a frame keeps the sample clock in sync, as long as its total
    distance is positive or it has no points.
  */
  lemma {:induction false} StepsKeepSync(cfg: Config, st: EncState, measured: seq<FramePoint>, total: real, shared: real)
    requires cfg.Valid() && |st.curPos| == |cfg.channels| && PositionsFit(measured, |cfg.channels|)
    requires DistsWithin(measured, total) && shared >= 0.0 && total > 0.0
    requires cfg.correctness >= 0.0 && InSync(st.clock, cfg.TimePerSample())
    ensures InSync(Steps(cfg, st, measured, total, shared).clock, cfg.TimePerSample())
  {
    if measured != [] {
      var init := measured[..|measured| - 1];
      assert PositionsFit(init, |cfg.channels|) && DistsWithin(init, total);
      StepsKeepSync(cfg, st, init, total, shared);
      var mid := Steps(cfg, st, init, total, shared);
      var tps := cfg.TimePerSample();
      var dt := TravelTime(shared, measured[|measured| - 1].dist, total);
      AdvanceKeepsSync(mid.clock, tps, dt.v);
      AdvanceKeepsSync(Advanced(mid.clock, tps, dt), tps, cfg.Guaranteed());
    }
  }

  lemma FrameKeepsSync(cfg: Config, st: EncState, frame: seq<Point>)
    requires cfg.Valid() && |st.curPos| == |cfg.channels| && cfg.correctness >= 0.0
    requires InSync(st.clock, cfg.TimePerSample())
    requires frame == [] || TotalDist(MapFrame(cfg, st.curPos, frame)) > 0.0
    ensures InSync(EncodeFrameSpec(cfg, st, frame).clock, cfg.TimePerSample())
  {
    if frame != [] {
      var measured := MapFrame(cfg, st.curPos, frame);
      MapFrameWithin(cfg, st.curPos, frame);
      StepsKeepSync(cfg, st, measured, TotalDist(measured), SharedTime(cfg, |measured|));
    }
  }

  /** Once the clock's time is NaN, no point moves the sample count or writes anything. */
  lemma {:induction false} PoisonedSteps(cfg: Config, st: EncState, measured: seq<FramePoint>, total: real, shared: real)
    requires cfg.Valid() && |st.curPos| == |cfg.channels| && PositionsFit(measured, |cfg.channels|)
    requires DistsWithin(measured, total) && shared >= 0.0 && st.clock.time.NaN?
    ensures Steps(cfg, st, measured, total, shared).clock == st.clock
    ensures Steps(cfg, st, measured, total, shared).out == st.out
  {
    if measured != [] {
      var init := measured[..|measured| - 1];
      assert PositionsFit(init, |cfg.channels|) && DistsWithin(init, total);
      PoisonedSteps(cfg, st, init, total, shared);
      var mid := Steps(cfg, st, init, total, shared);
      PoisonAbsorbs(mid.clock, cfg.TimePerSample(), TravelTime(shared, measured[|measured| - 1].dist, total));
    }
  }

  /**
    A frame with points whose total distance is zero (every point on the position before it)
    shares 0/0 = NaN of the free time: it writes nothing, and the clock's time becomes NaN.
  */
  lemma ZeroDistancePoisons(cfg: Config, st: EncState, frame: seq<Point>)
    requires cfg.Valid() && |st.curPos| == |cfg.channels| && frame != []
    requires TotalDist(MapFrame(cfg, st.curPos, frame)) == 0.0
    ensures EncodeFrameSpec(cfg, st, frame).clock == ClockState(NaN, st.clock.sample)
    ensures EncodeFrameSpec(cfg, st, frame).out == st.out
  {
    var measured := MapFrame(cfg, st.curPos, frame);
    var shared := SharedTime(cfg, |measured|);
    TotalDistZero(measured);
    assert DistsWithin(measured, 0.0);
    var first := PointStep(cfg, st, measured[0], 0.0, shared);
    SamplesForCovers(st.clock, cfg.TimePerSample(), NaN);
    assert first.clock == ClockState(NaN, st.clock.sample) && first.out == st.out by {
      assert SamplesFor(st.clock, cfg.TimePerSample(), NaN) == 0;
      PoisonAbsorbs(Advanced(st.clock, cfg.TimePerSample(), NaN), cfg.TimePerSample(), Real(cfg.Guaranteed()));
    }
    PoisonedSteps(cfg, first, measured[1..], 0.0, shared);
    StepsFromFirst(cfg, st, measured, 0.0, shared);
  }

  /** Steps over a non-empty list is the first point's step followed by the rest. */
  lemma {:induction false} StepsFromFirst(cfg: Config, st: EncState, measured: seq<FramePoint>, total: real, shared: real)
    requires cfg.Valid() && |st.curPos| == |cfg.channels| && PositionsFit(measured, |cfg.channels|)
    requires DistsWithin(measured, total) && shared >= 0.0 && measured != []
    ensures Steps(cfg, st, measured, total, shared) ==
      Steps(cfg, PointStep(cfg, st, measured[0], total, shared), measured[1..], total, shared)
  {
    if |measured| > 1 {
      var init := measured[..|measured| - 1];
      StepsFromFirst(cfg, st, init, total, shared);
      assert init[1..] == measured[1..][..|measured| - 2];
    }
  }

  /** A frame encoded on a NaN clock leaves the clock and the output as they were. */
  lemma PoisonedFrame(cfg: Config, st: EncState, frame: seq<Point>)
    requires cfg.Valid() && |st.curPos| == |cfg.channels| && st.clock.time.NaN?
    ensures EncodeFrameSpec(cfg, st, frame).clock == st.clock
    ensures EncodeFrameSpec(cfg, st, frame).out == st.out
  {
    var measured := MapFrame(cfg, st.curPos, frame);
    MapFrameWithin(cfg, st.curPos, frame);
    PoisonedSteps(cfg, st, measured, TotalDist(measured), SharedTime(cfg, |measured|));
  }

  /** After a poisoning frame, no later frame writes anything: the rest of the output is empty. */
  lemma {:induction false} PoisonPersists(cfg: Config, st: EncState, frames: seq<seq<Point>>)
    requires cfg.Valid() && |st.curPos| == |cfg.channels| && st.clock.time.NaN?
    ensures EncodeFrames(cfg, st, frames).clock == st.clock
    ensures EncodeFrames(cfg, st, frames).out == st.out
  {
    if frames != [] {
      PoisonPersists(cfg, st, frames[..|frames| - 1]);
      PoisonedFrame(cfg, EncodeFrames(cfg, st, frames[..|frames| - 1]), frames[|frames| - 1]);
    }
  }

  /** The encoder: the options, the sample clock, `cur_pos`, and the sample vectors written. */
  class Encoder {
    const cfg: Config
    const progress: Progress
    var curPos: seq<real>
    var output: seq<seq<real>>

    /** The vectors written are exactly the samples the clock has counted. */
    ghost predicate Valid()
      reads this, progress
    {
      cfg.Valid() && progress.timePerSample == cfg.TimePerSample() &&
      |curPos| == |cfg.channels| && |output| == progress.sample
    }

    function State(): EncState
      reads this, progress
    {
      EncState(progress.State(), curPos, output)
    }

    constructor (cfg: Config)
      requires cfg.Valid()
      ensures Valid() && fresh(progress)
      ensures this.cfg == cfg
      ensures State() == EncState(START, Zeros(|cfg.channels|), [])
    {
      this.cfg := cfg;
      progress := new Progress(cfg.TimePerSample());
      curPos := Zeros(|cfg.channels|);
      output := [];
    }

    /** The `pos` map of one point together with its `total_d`, and the distance taken from it. */
    method MeasurePoint(prev: seq<real>, p: Point) returns (fp: FramePoint)
      requires cfg.Valid() && |prev| == |cfg.channels|
      ensures fp == PointOf(cfg, prev, p)
    {
      var target := MapPoint(cfg.channels, p);
      var totalD := 0.0;
      var pos: seq<real> := [];
      for i := 0 to |cfg.channels|
        invariant pos == target[..i]
        invariant totalD == SqDist(cfg.channels, prev, target, i)
      {
        var nextPos := MapValue(cfg.channels[i], p);
        if IsAxis(cfg.channels[i]) {
          var d := prev[i] - nextPos;
          totalD := totalD + Sq(d);
        }
        pos := pos + [nextPos];
      }
      fp := FramePoint(pos, cfg.sqrt(totalD));
    }

    /** The travel phase of one point: n vectors ramping from `cur_pos` to the target. */
    method Travel(target: seq<real>, n: nat)
      requires n > 0 && |curPos| == |cfg.channels| && |target| == |cfg.channels|
      modifies this
      ensures curPos == old(curPos)
      ensures output == old(output) + Ramp(cfg.channels, curPos, target, n)
    {
      var steps := StepsTo(cfg.channels, curPos, target, n);
      ghost var ramp := Ramp(cfg.channels, curPos, target, n);
      for i := 1 to n + 1
        invariant curPos == old(curPos)
        invariant output == old(output) + ramp[..i - 1]
      {
        var samples := SampleAt(steps, i);
        output := output + [samples];
        assert ramp[..i] == ramp[..i - 1] + [samples];
      }
      assert ramp[..n] == ramp;
    }

    /** The dwell phase of one point: n copies of `cur_pos`. */
    method Dwell(n: nat)
      modifies this
      ensures curPos == old(curPos)
      ensures output == old(output) + Hold(curPos, n)
    {
      for i := 1 to n + 1
        invariant curPos == old(curPos)
        invariant output == old(output) + Hold(curPos, i - 1)
      {
        output := output + [curPos];
        assert Hold(curPos, i) == Hold(curPos, i - 1) + [curPos];
      }
    }

    /** The `points` loop: every point of the frame mapped and measured, in order. */
    method MeasureFrame(frame: seq<Point>) returns (points: seq<FramePoint>)
      requires cfg.Valid() && |curPos| == |cfg.channels|
      ensures points == MapFrame(cfg, curPos, frame)
    {
      points := [];
      for i := 0 to |frame|
        invariant points == MapFrame(cfg, curPos, frame[..i])
      {
        var prev := if points == [] then curPos else points[|points| - 1].pos;
        var fp := MeasurePoint(prev, frame[i]);
        assert frame[..i + 1][..i] == frame[..i];
        points := points + [fp];
      }
      assert frame[..|frame|] == frame;
    }

    /** One point of the frame: travel to it, make it `cur_pos`, dwell on it. */
    method EncodePoint(fp: FramePoint, totalDist: real, sharedTime: real)
      requires Valid() && |fp.pos| == |cfg.channels| && 0.0 <= fp.dist <= totalDist && sharedTime >= 0.0
      modifies this, progress
      ensures Valid()
      ensures State() == PointStep(cfg, old(State()), fp, totalDist, sharedTime)
    {
      var share := Share(fp.dist, totalDist);
      var n := progress.Advance(Mul(Real(sharedTime), share));
      if n > 0 {
        Travel(fp.pos, n);
      }
      curPos := fp.pos;
      var n2 := progress.Advance(Real(cfg.Guaranteed()));
      Dwell(n2);
    }

    /** One iteration of `for frame in animation`. */
    method EncodeFrame(frame: seq<Point>)
      requires Valid()
      modifies this, progress
      ensures Valid()
      ensures State() == EncodeFrameSpec(cfg, old(State()), frame)
    {
      hide PointStep, MapFrame, TotalDist, SharedTime;
      var points := MeasureFrame(frame);
      MapFrameWithin(cfg, curPos, frame);
      var totalDist := TotalDist(points);
      var sharedTime := SharedTime(cfg, |points|);
      ghost var st0 := State();
      for j := 0 to |points|
        invariant Valid()
        invariant State() == Steps(cfg, st0, points[..j], totalDist, sharedTime)
      {
        assert points[..j + 1][..j] == points[..j];
        EncodePoint(points[j], totalDist, sharedTime);
      }
      assert points[..|points|] == points;
    }

    /** `for frame in animation`: every frame in turn. */
    method EncodeAll(frames: seq<seq<Point>>)
      requires Valid()
      modifies this, progress
      ensures Valid()
      ensures State() == EncodeFrames(cfg, old(State()), frames)
    {
      for f := 0 to |frames|
        invariant Valid()
        invariant State() == EncodeFrames(cfg, old(State()), frames[..f])
      {
        assert frames[..f + 1][..f] == frames[..f];
        EncodeFrame(frames[f]);
      }
      assert frames[..|frames|] == frames;
    }
  }
}

=== FILE: frame_splitter.dfy ===
/**
  The frame segmentation of the decoder's main loop (src/bin/ildawav2ilda.rs): decoded points
  are collected into a buffer while a clock advances by one sample period per point; whenever
  the clock passes the end of the current frame, the buffer is written out as one frame and the
  frame end moves on by one frame period. At the end of the stream a non-empty buffer becomes
  the last frame; a decoding error ends everything at once, without that last frame.

  f64 is modelled as exact `real` arithmetic.
*/
module FrameSplitter {
  import opened Wrappers
  import opened ChannelMap
  import opened PointDecoder
  import WavProgress
  import opened Seqs

  /** The loop's state: frames written, the point buffer, `current_time` and `next_frame`. */
  datatype Splitter = Splitter(frames: seq<seq<Point>>, points: seq<Point>, currentTime: real, nextFrame: real)

  /** Before the first point: nothing written, an empty buffer, time 0, the first frame ending at tpf. */
  function Start(tpf: real): (s: Splitter)
    ensures s.frames == [] && s.points == [] && s.currentTime == 0.0 && s.nextFrame == tpf
  {
    Splitter([], [], 0.0, tpf)
  }

  /** One iteration: buffer the point, advance the clock, and flush once the frame end is passed. */
  function Push(s: Splitter, p: Point, tps: real, tpf: real): Splitter {
    var points := s.points + [p];
    var time := s.currentTime + tps;
    if time > s.nextFrame then Splitter(s.frames + [points], [], time, s.nextFrame + tpf)
    else Splitter(s.frames, points, time, s.nextFrame)
  }

  /** The loop over a whole stream of points. */
  function PushAll(s: Splitter, ps: seq<Point>, tps: real, tpf: real): Splitter {
    if ps == [] then s else Push(PushAll(s, ps[..|ps| - 1], tps, tpf), ps[|ps| - 1], tps, tpf)
  }

  /** The final flush: the frames written, plus the buffer when it is not empty. */
  function Finish(s: Splitter): seq<seq<Point>> {
    if s.points != [] then s.frames + [s.points] else s.frames
  }

  /** Every frame a stream of points is cut into. */
  function Segment(ps: seq<Point>, tps: real, tpf: real): seq<seq<Point>> {
    Finish(PushAll(Start(tpf), ps, tps, tpf))
  }

  /** k periods of length t added one at a time, as the loop adds them. */
  function Periods(k: nat, t: real): real {
    if k == 0 then 0.0 else Periods(k - 1, t) + t
  }

  /** In exact arithmetic, adding k periods one at a time is multiplying. */
  lemma {:induction false} PeriodsIsProduct(k: nat, t: real)
    ensures Periods(k, t) == k as real * t
  {
    if k > 0 {
      PeriodsIsProduct(k - 1, t);
      WavProgress.Distrib((k - 1) as real, 1.0, t);
    }
  }

  predicate NoEmptyFrame(frames: seq<seq<Point>>) {
    forall i :: 0 <= i < |frames| ==> frames[i] != []
  }

  /**
    What the loop keeps: no frame written is empty, the frames and the buffer together are the
    points pushed so far, the clock reads k sample periods after k points, and the current frame
    ends one frame period after the last one written.
  */
  lemma PushAllInvariant(ps: seq<Point>, tps: real, tpf: real)
    ensures var s := PushAll(Start(tpf), ps, tps, tpf);
      NoEmptyFrame(s.frames) &&
      Concat(s.frames) + s.points == ps &&
      s.currentTime == Periods(|ps|, tps) &&
      s.nextFrame == Periods(|s.frames| + 1, tpf)
  {
    PushAllPartition(ps, tps, tpf);
    PushAllClock(ps, tps, tpf);
  }

  lemma {:induction false} PushAllPartition(ps: seq<Point>, tps: real, tpf: real)
    ensures var s := PushAll(Start(tpf), ps, tps, tpf);
      NoEmptyFrame(s.frames) && Concat(s.frames) + s.points == ps
  {
    if ps != [] {
      hide Push, Concat, NoEmptyFrame;
      var init, p := ps[..|ps| - 1], ps[|ps| - 1];
      var s := PushAll(Start(tpf), init, tps, tpf);
      assert PushAll(Start(tpf), ps, tps, tpf) == Push(s, p, tps, tpf);
      assert init + [p] == ps;
      PushAllPartition(init, tps, tpf);
      PushKeepsPartition(s, init, p, tps, tpf);
    }
  }

  lemma {:induction false} PushAllClock(ps: seq<Point>, tps: real, tpf: real)
    ensures var s := PushAll(Start(tpf), ps, tps, tpf);
      s.currentTime == Periods(|ps|, tps) && s.nextFrame == Periods(|s.frames| + 1, tpf)
  {
    if ps != [] {
      var init := ps[..|ps| - 1];
      PushAllClock(init, tps, tpf);
      PushKeepsClock(PushAll(Start(tpf), init, tps, tpf), |init|, ps[|ps| - 1], tps, tpf);
    }
  }

  /** One push keeps the frames non-empty and the points in order. */
  lemma PushKeepsPartition(s: Splitter, done: seq<Point>, p: Point, tps: real, tpf: real)
    requires NoEmptyFrame(s.frames) && Concat(s.frames) + s.points == done
    ensures NoEmptyFrame(Push(s, p, tps, tpf).frames)
    ensures Concat(Push(s, p, tps, tpf).frames) + Push(s, p, tps, tpf).points == done + [p]
  {
    var s' := Push(s, p, tps, tpf);
    if s'.frames != s.frames {
      assert s'.frames[..|s'.frames| - 1] == s.frames;
      assert Concat(s'.frames) == Concat(s.frames) + (s.points + [p]);
      assert Concat(s'.frames) + [] == Concat(s'.frames);
    } else {
      assert Concat(s.frames) + (s.points + [p]) == (Concat(s.frames) + s.points) + [p];
    }
  }

  /** One push moves the clock by one sample period, and the frame end by one frame period per frame written. */
  lemma PushKeepsClock(s: Splitter, k: nat, p: Point, tps: real, tpf: real)
    requires s.currentTime == Periods(k, tps) && s.nextFrame == Periods(|s.frames| + 1, tpf)
    ensures Push(s, p, tps, tpf).currentTime == Periods(k + 1, tps)
    ensures Push(s, p, tps, tpf).nextFrame == Periods(|Push(s, p, tps, tpf).frames| + 1, tpf)
  {
  }

  /** Segmenting loses, duplicates and reorders no point, and writes no empty frame. */
  lemma SegmentPartitions(ps: seq<Point>, tps: real, tpf: real)
    ensures NoEmptyFrame(Segment(ps, tps, tpf))
    ensures Concat(Segment(ps, tps, tpf)) == ps
  {
    var s := PushAll(Start(tpf), ps, tps, tpf);
    PushAllInvariant(ps, tps, tpf);
    if s.points != [] {
      assert Finish(s)[..|Finish(s)| - 1] == s.frames;
    } else {
      assert Concat(s.frames) + [] == Concat(s.frames);
    }
  }

  /** The final flush writes exactly one frame more, and only when points are left in the buffer. */
  lemma FinalFlush(ps: seq<Point>, tps: real, tpf: real)
    ensures var s := PushAll(Start(tpf), ps, tps, tpf);
      |Segment(ps, tps, tpf)| == |s.frames| + (if s.points == [] then 0 else 1) &&
      Segment(ps, tps, tpf)[..|s.frames|] == s.frames
  {
  }

  /** Where frame i begins when a frame spans exactly n sample periods: 0, then n + 1, 2n + 1, ... */
  function FrameStart(i: nat, n: nat): nat {
    if i == 0 then 0 else i * n + 1
  }

  /**
    When a frame is exactly n >= 1 sample periods long, the strict comparison makes the first
    frame hold n + 1 points and every later frame exactly n: after k points, m frames have been
    written where FrameStart(m) <= k < FrameStart(m + 1), frame i is the points from FrameStart(i)
    to FrameStart(i + 1), and the buffer holds the rest.
  */
  lemma {:induction false} WholeFrames(ps: seq<Point>, tps: real, n: nat, tpf: real)
    requires tps > 0.0 && n >= 1 && tpf == n as real * tps
    ensures var s := PushAll(Start(tpf), ps, tps, tpf);
      FrameStart(|s.frames|, n) <= |ps| < FrameStart(|s.frames| + 1, n) &&
      |s.points| == |ps| - FrameStart(|s.frames|, n) &&
      forall i :: 0 <= i < |s.frames| ==> |s.frames[i]| == if i == 0 then n + 1 else n
  {
    if ps != [] {
      var k := |ps| - 1;
      var init := ps[..k];
      var s0 := PushAll(Start(tpf), init, tps, tpf);
      var m := |s0.frames|;
      WholeFrames(init, tps, n, tpf);
      PushAllClock(init, tps, tpf);
      FrameEndsOnSample(k, m, n, tps, tpf);
      NextFrameStart(m, n);
      assert PushAll(Start(tpf), ps, tps, tpf) == Push(s0, ps[k], tps, tpf);
    }
  }

  /** A stream of exactly one frame's worth of points, n >= 1, comes out as that one frame. */
  lemma OneFrameWorth(ps: seq<Point>, tps: real, n: nat, tpf: real)
    requires tps > 0.0 && n >= 1 && tpf == n as real * tps && |ps| == n
    ensures Segment(ps, tps, tpf) == [ps]
  {
    var s := PushAll(Start(tpf), ps, tps, tpf);
    WholeFrames(ps, tps, n, tpf);
    PushAllPartition(ps, tps, tpf);
    if |s.frames| > 0 {
      MulMonoNat(1, |s.frames|, n);
    }
    assert s.frames == [] && s.points == ps;
  }

  /** Frame m + 1 starts n points after frame m, one more for the first. */
  lemma NextFrameStart(m: nat, n: nat)
    ensures FrameStart(m + 1, n) == FrameStart(m, n) + n + (if m == 0 then 1 else 0)
    ensures FrameStart(m + 1, n) == (m + 1) * n + 1
  {
  }

  /**
    With k points pushed and m frames written, the next push passes the frame end exactly when
    it is the first point of frame m + 1.
  */
  lemma FrameEndsOnSample(k: nat, m: nat, n: nat, tps: real, tpf: real)
    requires tps > 0.0 && tpf == n as real * tps
    ensures Periods(k + 1, tps) > Periods(m + 1, tpf) <==> k + 1 >= FrameStart(m + 1, n)
  {
    PeriodsIsProduct(k + 1, tps);
    PeriodsIsProduct(m + 1, tpf);
    NextFrameStart(m, n);
    hide Periods, FrameStart;
    var a, b := (k + 1) as real, ((m + 1) * n) as real;
    CastProduct(m + 1, n);
    assert (m + 1) as real * tpf == b * tps;
    assert Periods(k + 1, tps) == a * tps && Periods(m + 1, tpf) == b * tps;
    if k + 1 > (m + 1) * n {
      WavProgress.MulMonoStrict(b, a, tps);
      assert a * tps > b * tps;
    } else {
      WavProgress.MulMono(a, b, tps);
      assert a * tps <= b * tps;
    }
  }

  lemma CastProduct(a: nat, b: nat)
    ensures (a * b) as real == a as real * b as real
  {
  }

  /** The points of a stream of decoding results up to its first error, and that error. */
  function Decoded(rs: seq<Result<Point, DecodeError>>): (seq<Point>, Option<DecodeError>) {
    if rs == [] then ([], None)
    else
      var (ps, err) := Decoded(rs[..|rs| - 1]);
      if err.Some? then (ps, err)
      else
        match rs[|rs| - 1]
        case Ok(p) => (ps + [p], None)
        case Err(e) => (ps, Some(e))
  }

  /** Once an error is found, nothing after it matters. */
  lemma {:induction false} DecodedStops(rs: seq<Result<Point, DecodeError>>, j: nat)
    requires j <= |rs| && Decoded(rs[..j]).1.Some?
    ensures Decoded(rs) == Decoded(rs[..j])
    decreases |rs| - j
  {
    if j < |rs| {
      assert rs[..j + 1][..j] == rs[..j];
      DecodedStops(rs, j + 1);
    } else {
      assert rs[..j] == rs;
    }
  }

  /** Without an error, the points are the stream's values, one per result. */
  lemma {:induction false} DecodedAllOk(rs: seq<Result<Point, DecodeError>>)
    requires forall i :: 0 <= i < |rs| ==> rs[i].Ok?
    ensures Decoded(rs).1.None?
    ensures |Decoded(rs).0| == |rs|
    ensures forall i :: 0 <= i < |rs| ==> Decoded(rs).0[i] == rs[i].value
  {
    if rs != [] {
      DecodedAllOk(rs[..|rs| - 1]);
    }
  }

  /**
    What the decoder writes for a stream of decoding results: the frames, and the error that
    stopped it. An error ends the loop at once: the frames already written stay written and the
    buffer is not flushed.
  */
  function Outcome(rs: seq<Result<Point, DecodeError>>, tps: real, tpf: real): (seq<seq<Point>>, Option<DecodeError>) {
    var (ps, err) := Decoded(rs);
    var s := PushAll(Start(tpf), ps, tps, tpf);
    if err.None? then (Finish(s), None) else (s.frames, err)
  }

  /** A stream without an error is cut into frames that hold all its points, and none is empty. */
  lemma CleanStream(rs: seq<Result<Point, DecodeError>>, tps: real, tpf: real)
    requires forall i :: 0 <= i < |rs| ==> rs[i].Ok?
    ensures Outcome(rs, tps, tpf).1.None?
    ensures NoEmptyFrame(Outcome(rs, tps, tpf).0)
    ensures |Concat(Outcome(rs, tps, tpf).0)| == |rs|
    ensures forall i :: 0 <= i < |rs| ==> Concat(Outcome(rs, tps, tpf).0)[i] == rs[i].value
  {
    DecodedAllOk(rs);
    SegmentPartitions(Decoded(rs).0, tps, tpf);
  }

  /** With an error, the frames written are whole frames of the points before it; none is empty. */
  lemma FailedStream(rs: seq<Result<Point, DecodeError>>, tps: real, tpf: real, j: nat)
    requires j < |rs| && rs[j].Err? && forall i :: 0 <= i < j ==> rs[i].Ok?
    ensures Outcome(rs, tps, tpf).1 == Some(rs[j].error)
    ensures NoEmptyFrame(Outcome(rs, tps, tpf).0)
    ensures |Concat(Outcome(rs, tps, tpf).0)| <= j
    ensures forall i :: 0 <= i < |Concat(Outcome(rs, tps, tpf).0)| ==> Concat(Outcome(rs, tps, tpf).0)[i] == rs[i].value
  {
    hide Push, PushAll, Periods;
    var pre := rs[..j];
    DecodedAllOk(pre);
    assert rs[..j + 1][..j] == pre;
    DecodedStops(rs, j + 1);
    var s := PushAll(Start(tpf), Decoded(pre).0, tps, tpf);
    PushAllInvariant(Decoded(pre).0, tps, tpf);
    assert forall i :: 0 <= i < |Concat(s.frames)| ==> Concat(s.frames)[i] == (Concat(s.frames) + s.points)[i];
  }

  /**
    The loop of `main` over the reader: `points.push(result?)`, advance the clock, flush the buffer
    when the frame end is passed; then the final flush.
  */
  method Split(rs: seq<Result<Point, DecodeError>>, tps: real, tpf: real) returns (frames: seq<seq<Point>>, err: Option<DecodeError>)
    ensures (frames, err) == Outcome(rs, tps, tpf)
  {
    frames := [];
    var points: seq<Point> := [];
    var currentTime := 0.0;
    var nextFrame := tpf;
    ghost var pushed: seq<Point> := [];
    for i := 0 to |rs|
      invariant Decoded(rs[..i]) == (pushed, None)
      invariant Splitter(frames, points, currentTime, nextFrame) == PushAll(Start(tpf), pushed, tps, tpf)
    {
      assert rs[..i + 1][..i] == rs[..i];
      match rs[i] {
        case Err(e) =>
          DecodedStops(rs, i + 1);
          err := Some(e);
          return;
        case Ok(p) =>
          assert (pushed + [p])[..|pushed|] == pushed;
          pushed := pushed + [p];
          points := points + [p];
      }
      currentTime := currentTime + tps;
      if currentTime > nextFrame {
        frames := frames + [points];
        points := [];
        nextFrame := nextFrame + tpf;
      }
    }
    assert rs[..|rs|] == rs;
    if points != [] {
      frames := frames + [points];
    }
    err := None;
  }
}

=== FILE: full_buf_writer.dfy ===
/**
  `FullBufWriter` of the Rust tools (src/bin/common/full_buf_writer.rs): a seekable writer that
  collects everything in a `Cursor<Vec<u8>>` and hands the whole buffer to the writer it wraps
  once, on `finalize` or, failing that, when it is dropped. The encoder uses it to patch the WAV
  header at the start of a file after the samples are written.

  The wrapped writer is modelled as the bytes it has received; its write errors are not modelled.
*/
module FullBufWriter {
  import opened Wrappers
  import opened Bytes

  /** 2^64: the cursor position is a `u64`. */
  const U64_MODULUS: nat := 0x1_0000_0000_0000_0000

  function Max(a: nat, b: nat): nat {
    if a >= b then a else b
  }

  function Zeros(n: nat): (z: seq<Byte>)
    ensures |z| == n && forall i :: 0 <= i < n ==> z[i] == 0
  {
    seq(n, _ => 0)
  }

  /**
    The vector after `Cursor::write` of `buf` at `pos`: padded with zeros up to `pos` when it is
    shorter, then `buf` over whatever was there, extending it when `buf` runs past its end.
  */
  function Overwritten(data: seq<Byte>, pos: nat, buf: seq<Byte>): (r: seq<Byte>)
    ensures |r| == Max(|data|, pos + |buf|)
    ensures r[pos..pos + |buf|] == buf
    ensures forall i :: 0 <= i < |r| && !(pos <= i < pos + |buf|) ==> r[i] == if i < |data| then data[i] else 0
  {
    var padded := if pos <= |data| then data else data + Zeros(pos - |data|);
    padded[..pos] + buf + (if pos + |buf| < |padded| then padded[pos + |buf|..] else [])
  }

  /** Writing at the end appends. */
  lemma WriteAtEndAppends(data: seq<Byte>, buf: seq<Byte>)
    ensures Overwritten(data, |data|, buf) == data + buf
  {
    var r := Overwritten(data, |data|, buf);
    assert forall i :: 0 <= i < |r| ==> r[i] == (data + buf)[i] by {
      forall i | 0 <= i < |r|
        ensures r[i] == (data + buf)[i]
      {
        if i >= |data| {
          assert r[i] == r[|data|..|data| + |buf|][i - |data|];
        }
      }
    }
  }

  /** Two writes one after the other leave what one write of both buffers leaves. */
  lemma ConsecutiveWrites(data: seq<Byte>, pos: nat, a: seq<Byte>, b: seq<Byte>)
    ensures Overwritten(Overwritten(data, pos, a), pos + |a|, b) == Overwritten(data, pos, a + b)
  {
    var r := Overwritten(Overwritten(data, pos, a), pos + |a|, b);
    var s := Overwritten(data, pos, a + b);
    var mid := Overwritten(data, pos, a);
    forall i | 0 <= i < |r|
      ensures r[i] == s[i]
    {
      if pos <= i < pos + |a| {
        assert r[i] == mid[i] == mid[pos..pos + |a|][i - pos];
        assert s[i] == s[pos..pos + |a| + |b|][i - pos];
      } else if pos + |a| <= i < pos + |a| + |b| {
        assert r[i] == r[pos + |a|..pos + |a| + |b|][i - pos - |a|];
        assert s[i] == s[pos..pos + |a| + |b|][i - pos];
      }
    }
  }

  /**
    Seeking back to where a header was written and writing a header of the same size replaces
    it and leaves everything else as it was: the patch the encoder relies on.
  */
  lemma PatchInPlace(before: seq<Byte>, stale: seq<Byte>, after: seq<Byte>, patch: seq<Byte>)
    requires |patch| == |stale|
    ensures Overwritten(before + stale + after, |before|, patch) == before + patch + after
  {
    var data := before + stale + after;
    var r := Overwritten(data, |before|, patch);
    var p := |before|;
    forall i | 0 <= i < |r|
      ensures r[i] == (before + patch + after)[i]
    {
      if p <= i < p + |patch| {
        assert r[i] == r[p..p + |patch|][i - p];
      }
    }
  }

  /** Where `SeekFrom` points. */
  datatype SeekFrom = Start(offset: nat) | End(delta: int) | Current(delta: int)

  /**
    `Cursor::seek`: an absolute position is taken as it is; a relative one is added to the length
    or the position, and refused when the sum is negative or does not fit a `u64`.
  */
  function SeekTarget(len: nat, pos: nat, from: SeekFrom): Option<nat> {
    match from
    case Start(n) => Some(n)
    case End(d) => if 0 <= len + d < U64_MODULUS then Some(len + d) else None
    case Current(d) => if 0 <= pos + d < U64_MODULUS then Some(pos + d) else None
  }

  /** Seeking relative to the position and back again returns to the same place. */
  lemma SeekThereAndBack(len: nat, pos: nat, d: int)
    requires pos < U64_MODULUS
    requires SeekTarget(len, pos, Current(d)).Some?
    ensures SeekTarget(len, SeekTarget(len, pos, Current(d)).value, Current(-d)) == Some(pos)
  {
  }

  /** A seek is refused exactly when it would leave the range of a `u64`; then nothing moves. */
  lemma SeekRefused(len: nat, pos: nat, from: SeekFrom)
    requires pos < U64_MODULUS && (from.Start? ==> from.offset < U64_MODULUS)
    ensures SeekTarget(len, pos, from).None? <==>
      !from.Start? && !(0 <= (if from.End? then len else pos) + from.delta < U64_MODULUS)
    ensures SeekTarget(len, pos, from).Some? ==> SeekTarget(len, pos, from).value < U64_MODULUS
  {
  }

  /**
    `FullBufWriter`: the cursor's vector and position, the `finalized` flag and what the wrapped
    writer has received. `dropped` records that the value has gone out of scope.
  */
  class FullBufWriter {
    var data: seq<Byte>
    var position: nat
    var finalized: bool
    var writer: seq<Byte>
    ghost var dropped: bool

    /** The wrapped writer holds nothing until the buffer is handed over, then the buffer once. */
    ghost predicate Valid()
      reads this
    {
      position < U64_MODULUS &&
      writer == (if finalized || dropped then data else [])
    }

    /** `new(writer)`: an empty buffer at position 0, not finalized. */
    constructor ()
      ensures Valid()
      ensures data == [] && position == 0 && !finalized && writer == [] && !dropped
    {
      data := [];
      position := 0;
      finalized := false;
      writer := [];
      dropped := false;
    }

    /**
      `write(buf)`: the bytes go into the buffer at the position, which moves past them; the
      wrapped writer receives nothing. A position that would pass 2^64 cannot be allocated.
    */
    method Write(buf: seq<Byte>) returns (written: nat)
      requires Valid() && !finalized && !dropped
      requires position + |buf| < U64_MODULUS
      modifies `data, `position
      ensures Valid()
      ensures data == Overwritten(old(data), old(position), buf)
      ensures position == old(position) + |buf|
      ensures written == |buf|
    {
      data := Overwritten(data, position, buf);
      position := position + |buf|;
      written := |buf|;
    }

    /** `seek(pos)`: the position moves where `SeekTarget` says, or stays and the error is `None`. */
    method Seek(from: SeekFrom) returns (r: Option<nat>)
      requires Valid() && !finalized && !dropped
      requires from.Start? ==> from.offset < U64_MODULUS
      modifies `position
      ensures Valid()
      ensures r == SeekTarget(|data|, old(position), from)
      ensures position == if r.Some? then r.value else old(position)
    {
      r := SeekTarget(|data|, position, from);
      SeekRefused(|data|, position, from);
      if r.Some? {
        position := r.value;
      }
    }

    /** `copy_content()`: rewind, then copy the whole buffer to the wrapped writer. */
    method CopyContent() returns (count: nat)
      requires position < U64_MODULUS && |data| < U64_MODULUS
      modifies `position, `writer
      ensures writer == old(writer) + data && count == |data| && position == |data|
    {
      position := 0;
      writer := writer + data[position..];
      count := |data|;
      position := |data|;
    }

    /**
      `finalize()`: the flag is set and the buffer handed over, whatever the position was; the
      byte count is returned. `finalize` takes the writer by value, so it runs at most once.
    */
    method Finalize() returns (count: nat)
      requires Valid() && !finalized && !dropped && |data| < U64_MODULUS
      modifies this
      ensures Valid() && finalized && !dropped
      ensures data == old(data) && writer == data && count == |data|
    {
      finalized := true;
      count := CopyContent();
    }

    /**
      `drop()`: the buffer is handed over only when `finalize` has not done it, so on either path
      the wrapped writer ends up with the buffer exactly once.
    */
    method Drop()
      requires Valid() && !dropped && |data| < U64_MODULUS
      modifies this
      ensures Valid() && dropped
      ensures data == old(data) && writer == data
    {
      if !finalized {
        var _ := CopyContent();
      }
      dropped := true;
    }
  }
}

=== FILE: group_size.dfy ===
/**
  `groupSizeOfNthGroup` of src/ilda_wav.cpp: the legacy encoder's way of sharing `total` items
  (points of a second, points of a frame, samples of a second) among `groups` consumers as evenly
  as integers allow. Group i gets the quotient, plus one exactly when the running remainder
  i * rest, taken modulo groups, wraps around between i and i + 1.
*/
module GroupSize {
  import opened CInt

  /** The quotient `base` and the remainder `rest` of the C division. */
  function Base(total: int, groups: int): int
    requires groups != 0
  {
    CDiv(total, groups)
  }

  function Rest(total: int, groups: int): int
    requires groups != 0
  {
    CMod(total, groups)
  }

  /** `extra_needed`: whether i * rest modulo groups wraps around on the way to (i + 1) * rest. */
  predicate Extra(total: int, groups: int, index: int)
    requires groups != 0
  {
    var rest := Rest(total, groups);
    CMod(index * rest, groups) > CMod((index + 1) * rest, groups)
  }

  /**
    `groupSizeOfNthGroup(total_size, groups, index)`; a zero `groups` divides by zero in C. A
    group gets the truncated quotient or one more, and with a non-negative total the first group
    never gets the extra item.
  */
  function GroupSizeOfNthGroup(total: int, groups: int, index: int): (size: int)
    requires groups != 0
    ensures size == Base(total, groups) || size == Base(total, groups) + 1
    ensures total >= 0 && groups > 0 && index == 0 ==> size == Base(total, groups)
  {
    FirstGroupNoExtra(total, groups);
    if Extra(total, groups, index) then Base(total, groups) + 1 else Base(total, groups)
  }

  /** With a non-negative total the running remainder starts at 0, so the first group never wraps. */
  lemma FirstGroupNoExtra(total: int, groups: int)
    requires groups != 0
    ensures total >= 0 && groups > 0 ==> !Extra(total, groups, 0)
  {
    if total >= 0 && groups > 0 {
      var rest := Rest(total, groups);
      assert 0 * rest == 0 && (0 + 1) * rest == rest;
      CDivNonNegative(0, groups);
      CDivNonNegative(rest, groups);
    }
  }

  /** Nothing to share gives every group nothing. */
  lemma GroupSizeOfZero(groups: int, index: int)
    requires groups != 0
    ensures GroupSizeOfNthGroup(0, groups, index) == 0
  {
    assert CDiv(0, groups) * groups == 0;
  }

  /** Sharing is even: every group gets total / groups items or one more. */
  lemma GroupSizeBounds(total: int, groups: int, index: int)
    requires total >= 0 && groups > 0
    ensures var size := GroupSizeOfNthGroup(total, groups, index);
      size == total / groups || size == total / groups + 1
  {
    CDivNonNegative(total, groups);
  }

  /** Adding r < g to a either keeps the quotient by g, with a larger remainder, or raises it by one, with a smaller remainder. */
  lemma DivStep(a: int, r: int, g: int)
    requires a >= 0 && 0 <= r < g
    ensures ((a + r) / g == a / g + 1 && (a + r) % g < a % g) ||
            ((a + r) / g == a / g && (a + r) % g >= a % g)
  {
    var q := a / g;
    var m := a % g;
    if m + r < g {
      DivModUnique(a + r, g, q, m + r);
    } else {
      DivModUnique(a + r, g, q + 1, m + r - g);
    }
  }

  /** For i >= 0 the extra item goes to group i exactly when the quotient of i * rest by groups steps up. */
  lemma ExtraIsCarry(total: int, groups: int, i: int)
    requires total >= 0 && groups > 0 && i >= 0
    ensures var rest := total % groups;
      Extra(total, groups, i) <==> (i + 1) * rest / groups == i * rest / groups + 1
    ensures var rest := total % groups;
      !Extra(total, groups, i) <==> (i + 1) * rest / groups == i * rest / groups
  {
    CDivNonNegative(total, groups);
    var rest := total % groups;
    var a := i * rest;
    assert (i + 1) * rest == a + rest;
    CDivNonNegative(a, groups);
    CDivNonNegative(a + rest, groups);
    DivStep(a, rest, groups);
  }

  /** The sizes of groups 0 .. k - 1 added up. */
  function SumSizes(total: int, groups: int, k: nat): int
    requires groups != 0
  {
    if k == 0 then 0 else SumSizes(total, groups, k - 1) + GroupSizeOfNthGroup(total, groups, k - 1)
  }

  /** How many of groups 0 .. k - 1 get the extra item. */
  function CountExtras(total: int, groups: int, k: nat): nat
    requires groups != 0
  {
    if k == 0 then 0 else CountExtras(total, groups, k - 1) + (if Extra(total, groups, k - 1) then 1 else 0)
  }

  /** Over the first k groups, k * rest / groups of them get the extra item. */
  lemma {:induction false} CountExtrasIsQuotient(total: int, groups: int, k: nat)
    requires total >= 0 && groups > 0
    ensures CountExtras(total, groups, k) == k * (total % groups) / groups
  {
    if k > 0 {
      CountExtrasIsQuotient(total, groups, k - 1);
      ExtraIsCarry(total, groups, k - 1);
    }
  }

  /** The first k groups hold k * base items plus one per extra. */
  lemma {:induction false} SumSizesIsBasePlusExtras(total: int, groups: int, k: nat)
    requires groups != 0
    ensures SumSizes(total, groups, k) == k * Base(total, groups) + CountExtras(total, groups, k)
  {
    if k > 0 {
      SumSizesIsBasePlusExtras(total, groups, k - 1);
      assert k * Base(total, groups) == (k - 1) * Base(total, groups) + Base(total, groups);
    }
  }

  /**
    For a non-negative total and a positive number of groups, the groups share out exactly the
    total, and exactly total % groups of them get the extra item.
  */
  lemma GroupSizesSum(total: int, groups: int)
    requires total >= 0 && groups > 0
    ensures SumSizes(total, groups, groups) == total
    ensures CountExtras(total, groups, groups) == total % groups
  {
    CountExtrasIsQuotient(total, groups, groups);
    SumSizesIsBasePlusExtras(total, groups, groups);
    QuotientAndRemainder(total, groups);
    MulDivCancel(total % groups, groups);
  }

  /** The C quotient and remainder of a non-negative total put it back together. */
  lemma QuotientAndRemainder(total: int, groups: int)
    requires total >= 0 && groups > 0
    ensures groups * Base(total, groups) + total % groups == total
  {
    CDivNonNegative(total, groups);
  }

  lemma MulDivCancel(a: int, g: int)
    requires a >= 0 && g > 0
    ensures g * a / g == a
  {
    DivModUnique(g * a, g, a, 0);
  }

  /** With a non-negative total no group gets a negative size. */
  lemma GroupSizeNonNegative(total: int, groups: int, index: int)
    requires total >= 0 && groups > 0
    ensures GroupSizeOfNthGroup(total, groups, index) >= 0
  {
    var base := Base(total, groups);
    assert base >= 0 by {
      CDivNonNegative(total, groups);
    }
    assert GroupSizeOfNthGroup(total, groups, index) >= base;
  }

  /** With nothing negative to share, the running sum never decreases. */
  lemma {:induction false} SumSizesMonotone(total: int, groups: int, j: nat, k: nat)
    requires total >= 0 && groups > 0 && j <= k
    ensures SumSizes(total, groups, j) <= SumSizes(total, groups, k)
    decreases k - j
  {
    if j < k {
      SumSizesMonotone(total, groups, j, k - 1);
      GroupSizeNonNegative(total, groups, k - 1);
      assert SumSizes(total, groups, k) == SumSizes(total, groups, k - 1) + GroupSizeOfNthGroup(total, groups, k - 1);
    }
  }
}

=== FILE: ilda_format.dfy ===
/**
  The records of the ILDA Image Data Transfer Format as src/ilda.hpp declares them: packed
  structs that the reader fills straight from the file, so every field sits at a fixed offset and
  every multi-byte field is in the host's byte order (little-endian here).
*/
module IldaFormat {
  import opened Bytes
  import opened CInt

  /** The format codes; 3 is not defined. */
  const FORMAT_3D_COORDINATES_INDEXED: Byte := 0
  const FORMAT_2D_INDEXED: Byte := 1
  const FORMAT_COLOR_PALETTE: Byte := 2
  const FORMAT_COORDINATES_3D_TRUE: Byte := 4
  const FORMAT_COORDINATES_2D_TRUE: Byte := 5

  /** `sizeof(ilda_header)`. */
  const HEADER_SIZE: nat := 32

  /** The letters "ILDA". */
  const MAGIC: seq<Byte> := [0x49, 0x4C, 0x44, 0x41]

  /**
    `ilda_header`, field by field. The three 16-bit fields hold what a little-endian host reads
    from their two bytes; the file stores them big-endian.
  */
  datatype Header = Header(
    ilda: seq<Byte>,
    reservedA: seq<Byte>,
    format: Byte,
    name: seq<Byte>,
    company: seq<Byte>,
    numberOfRecords: Uint16,
    frameNumber: Uint16,
    totalFrames: Uint16,
    projectorId: Byte,
    reservedB: Byte)

  /** The character arrays have their declared lengths. */
  predicate WellFormed(h: Header) {
    |h.ilda| == 4 && |h.reservedA| == 3 && |h.name| == 8 && |h.company| == 8
  }

  lemma Pow256Two()
    ensures Pow256(2) == 0x1_0000
  {
  }

  /** The 16-bit number a little-endian host reads from two bytes. */
  function HostUint16(bs: seq<Byte>): (v: Uint16)
    requires |bs| == 2
    ensures LeBytes(v, 2) == bs
  {
    Pow256Two();
    LeBytesOfUnsigned(bs);
    LeUnsigned(bs)
  }

  /** The 32 bytes of a header read into the struct. */
  function ParseHeader(bs: seq<Byte>): (h: Header)
    requires |bs| == HEADER_SIZE
    ensures WellFormed(h)
  {
    Header(bs[0..4], bs[4..7], bs[7], bs[8..16], bs[16..24],
      HostUint16(bs[24..26]), HostUint16(bs[26..28]), HostUint16(bs[28..30]), bs[30], bs[31])
  }

  /** The struct's bytes in memory. */
  function SerialiseHeader(h: Header): (bs: seq<Byte>)
    requires WellFormed(h)
    ensures |bs| == HEADER_SIZE
  {
    h.ilda + h.reservedA + [h.format] + h.name + h.company +
    LeBytes(h.numberOfRecords, 2) + LeBytes(h.frameNumber, 2) + LeBytes(h.totalFrames, 2) +
    [h.projectorId, h.reservedB]
  }

  /** Every header survives being written and read back. */
  lemma ParseSerialiseHeader(h: Header)
    requires WellFormed(h)
    ensures ParseHeader(SerialiseHeader(h)) == h
  {
    var bs := SerialiseHeader(h);
    Pow256Two();
    assert bs[24..26] == LeBytes(h.numberOfRecords, 2);
    assert bs[26..28] == LeBytes(h.frameNumber, 2);
    assert bs[28..30] == LeBytes(h.totalFrames, 2);
    LeRoundTrip(h.numberOfRecords, 2);
    LeRoundTrip(h.frameNumber, 2);
    LeRoundTrip(h.totalFrames, 2);
    assert bs[0..4] == h.ilda && bs[4..7] == h.reservedA && bs[8..16] == h.name && bs[16..24] == h.company;
  }

  /** Every 32 bytes are the bytes of the header they are read as: nothing is lost. */
  lemma SerialiseParseHeader(bs: seq<Byte>)
    requires |bs| == HEADER_SIZE
    ensures SerialiseHeader(ParseHeader(bs)) == bs
  {
    var h := ParseHeader(bs);
    assert bs == bs[0..4] + bs[4..7] + [bs[7]] + bs[8..16] + bs[16..24] + bs[24..26] + bs[26..28] + bs[28..30] + [bs[30], bs[31]];
  }

  /** `boost::endian::big_to_native` on a little-endian host: the two bytes swapped. */
  function BigToNative16(v: Uint16): (w: Uint16) {
    (v % 256) * 256 + v / 256
  }

  /** Swapping twice gives the number back. */
  lemma SwapTwice(v: Uint16)
    ensures BigToNative16(BigToNative16(v)) == v
  {
    var lo, hi := v % 256, v / 256;
    var w := BigToNative16(v);
    assert w == lo * 256 + hi;
    DivModUnique(w, 256, lo, hi);
    assert BigToNative16(w) == hi * 256 + lo;
  }

  /** The record count a little-endian host gets from a header: its two bytes read big-endian. */
  lemma RecordCountIsBigEndian(bs: seq<Byte>)
    requires |bs| == HEADER_SIZE
    ensures BigToNative16(ParseHeader(bs).numberOfRecords) == BeU16(bs[24], bs[25])
  {
    var two := bs[24..26];
    assert LeUnsigned(two) == two[0] + 256 * LeUnsigned(two[1..]);
    assert LeUnsigned(two[1..]) == two[1] + 256 * LeUnsigned(two[2..]);
  }

  /** `string(chars)`: the bytes before the first NUL, or all of them when there is none. */
  function CString(bs: seq<Byte>): (s: seq<Byte>)
    ensures |s| <= |bs| && s == bs[..|s|]
    ensures forall i :: 0 <= i < |s| ==> s[i] != 0
    ensures |s| < |bs| ==> bs[|s|] == 0
  {
    if bs == [] || bs[0] == 0 then [] else [bs[0]] + CString(bs[1..])
  }

  /**
    The header check: the C string that starts at the `ilda` field is "ILDA". The field has no
    room for a terminator, so the string runs into `reserved_a`.
  */
  predicate HasMagic(bs: seq<Byte>)
    requires |bs| == HEADER_SIZE
  {
    CString(bs) == MAGIC
  }

  /** The check passes exactly when the header starts "ILDA" and its first reserved byte is NUL. */
  lemma MagicNeedsTerminator(bs: seq<Byte>)
    requires |bs| == HEADER_SIZE
    ensures HasMagic(bs) <==> bs[..4] == MAGIC && bs[4] == 0
  {
  }

  /**
    `ilda_status`: six padding bits, then `blanked`, then `last_point`; bit-fields are laid out
    from the least significant bit, so `blanked` is bit 6 and `last_point` bit 7.
  */
  function StatusByte(padding: int, blanked: bool, lastPoint: bool): (b: Byte)
    requires 0 <= padding < 64
  {
    padding + (if blanked then 64 else 0) + (if lastPoint then 128 else 0)
  }

  function Padding(status: Byte): int {
    status % 64
  }

  predicate Blanked(status: Byte) {
    status / 64 % 2 == 1
  }

  predicate LastPoint(status: Byte) {
    status / 128 == 1
  }

  /** Each bit-field reads back what was stored in it. */
  lemma StatusFields(padding: int, blanked: bool, lastPoint: bool)
    requires 0 <= padding < 64
    ensures var b := StatusByte(padding, blanked, lastPoint);
      Padding(b) == padding && Blanked(b) == blanked && LastPoint(b) == lastPoint
  {
  }

  /** The three bit-fields make up the whole byte. */
  lemma StatusOfFields(status: Byte)
    ensures StatusByte(Padding(status), Blanked(status), LastPoint(status)) == status
  {
  }

  /** `ILDAColor`: red, green and blue, in that order. */
  datatype Color = Color(r: Byte, g: Byte, b: Byte)

  const COLOR_SIZE: nat := 3

  function DecodeColor(bs: seq<Byte>): (c: Color)
    requires |bs| == COLOR_SIZE
  {
    Color(bs[0], bs[1], bs[2])
  }

  function EncodeColor(c: Color): (bs: seq<Byte>)
    ensures |bs| == COLOR_SIZE && DecodeColor(bs) == c
  {
    [c.r, c.g, c.b]
  }

  /** The four point records. */
  datatype Layout = Coordinates2dIndexed | Coordinates2dTrue | Coordinates3dIndexed | Coordinates3dTrue

  /** `sizeof` of each point record. */
  function RecordSize(layout: Layout): (size: nat)
    ensures size >= 6
  {
    match layout
    case Coordinates2dIndexed => 6
    case Coordinates2dTrue => 8
    case Coordinates3dIndexed => 8
    case Coordinates3dTrue => 10
  }

  /**
    A point record's fields. True-colour records keep their colour as b, g, r after the status
    byte; indexed ones keep a palette index.
  */
  datatype Record =
    | Indexed2d(x: Int16, y: Int16, status: Byte, color: Byte)
    | True2d(x: Int16, y: Int16, status: Byte, b: Byte, g: Byte, r: Byte)
    | Indexed3d(x: Int16, y: Int16, z: Int16, status: Byte, color: Byte)
    | True3d(x: Int16, y: Int16, z: Int16, status: Byte, b: Byte, g: Byte, r: Byte)

  function LayoutOf(rec: Record): Layout {
    match rec
    case Indexed2d(_, _, _, _) => Coordinates2dIndexed
    case True2d(_, _, _, _, _, _) => Coordinates2dTrue
    case Indexed3d(_, _, _, _, _) => Coordinates3dIndexed
    case True3d(_, _, _, _, _, _, _) => Coordinates3dTrue
  }

  lemma HalfTwo()
    ensures Half(2) == 32768
  {
    Pow256Two();
  }

  /** The `int16_t` a little-endian host reads from two bytes. */
  function HostInt16(bs: seq<Byte>): (v: Int16)
    requires |bs| == 2
  {
    HalfTwo();
    LeSigned(bs)
  }

  /** The two bytes of an `int16_t` in memory. */
  function HostInt16Bytes(v: Int16): (bs: seq<Byte>)
    ensures |bs| == 2 && HostInt16(bs) == v
  {
    HalfTwo();
    SignedRoundTrip(v, 2);
    LeSignedBytes(v, 2)
  }

  /** A point record read from its bytes. */
  function DecodeRecord(layout: Layout, bs: seq<Byte>): (rec: Record)
    requires |bs| == RecordSize(layout)
    ensures LayoutOf(rec) == layout
  {
    match layout
    case Coordinates2dIndexed =>
      Indexed2d(HostInt16(bs[0..2]), HostInt16(bs[2..4]), bs[4], bs[5])
    case Coordinates2dTrue =>
      True2d(HostInt16(bs[0..2]), HostInt16(bs[2..4]), bs[4], bs[5], bs[6], bs[7])
    case Coordinates3dIndexed =>
      Indexed3d(HostInt16(bs[0..2]), HostInt16(bs[2..4]), HostInt16(bs[4..6]), bs[6], bs[7])
    case Coordinates3dTrue =>
      True3d(HostInt16(bs[0..2]), HostInt16(bs[2..4]), HostInt16(bs[4..6]), bs[6], bs[7], bs[8], bs[9])
  }

  /** A point record's bytes in memory. */
  function EncodeRecord(rec: Record): (bs: seq<Byte>)
    ensures |bs| == RecordSize(LayoutOf(rec))
  {
    match rec
    case Indexed2d(x, y, status, color) =>
      HostInt16Bytes(x) + HostInt16Bytes(y) + [status, color]
    case True2d(x, y, status, b, g, r) =>
      HostInt16Bytes(x) + HostInt16Bytes(y) + [status, b, g, r]
    case Indexed3d(x, y, z, status, color) =>
      HostInt16Bytes(x) + HostInt16Bytes(y) + HostInt16Bytes(z) + [status, color]
    case True3d(x, y, z, status, b, g, r) =>
      HostInt16Bytes(x) + HostInt16Bytes(y) + HostInt16Bytes(z) + [status, b, g, r]
  }

  /** Every record survives being written and read back. */
  lemma DecodeEncodeRecord(rec: Record)
    ensures DecodeRecord(LayoutOf(rec), EncodeRecord(rec)) == rec
  {
    var bs := EncodeRecord(rec);
    assert bs[0..2] == HostInt16Bytes(rec.x);
    assert bs[2..4] == HostInt16Bytes(rec.y);
    if rec.Indexed3d? || rec.True3d? {
      assert bs[4..6] == HostInt16Bytes(rec.z);
    }
  }
}

=== FILE: ilda_reader.dfy ===
/**
  The ILDA file reader of the C++ tools (`ILDAIStream` in src/ilda_istream.cpp). Each call of
  `nextFrame` reads one section: a 32-byte header, then `number_of_records` records of the
  section's format. Point sections replace the current frame, palette sections replace one
  projector's palette and hand back the previous frame again, and a section without records marks
  the end of the animation. Every failure is a thrown `runtime_error`, modelled as an outcome.

  The stream is the whole input as bytes and a read position; a short read takes what is left,
  leaves the stream at its end and throws.
*/
module IldaReader {
  import opened Wrappers
  import opened Bytes
  import opened CInt
  import opened IldaFrame
  import opened IldaFormat

  /** The three messages the reader throws. */
  datatype IldaError = Corrupt | UnexpectedEnd | NotSupported

  /** What `nextFrame` ends with: the frame it points at, `nullptr`, or an exception. */
  datatype Outcome = Delivered(frame: Frame) | EndOfAnimation | Thrown(error: IldaError)

  /** The palette indexed records use for a projector without one of its own. */
  const DEFAULT_PALETTE: seq<Color> := [
    Color(255, 0, 0), Color(255, 16, 0), Color(255, 32, 0), Color(255, 48, 0),
    Color(255, 64, 0), Color(255, 80, 0), Color(255, 96, 0), Color(255, 112, 0),
    Color(255, 128, 0), Color(255, 144, 0), Color(255, 160, 0), Color(255, 176, 0),
    Color(255, 192, 0), Color(255, 208, 0), Color(255, 224, 0), Color(255, 240, 0),
    Color(255, 255, 0), Color(224, 255, 0), Color(192, 255, 0), Color(160, 255, 0),
    Color(128, 255, 0), Color(96, 255, 0), Color(64, 255, 0), Color(32, 255, 0),
    Color(0, 255, 0), Color(0, 255, 36), Color(0, 255, 73), Color(0, 255, 109),
    Color(0, 255, 146), Color(0, 255, 182), Color(0, 255, 219), Color(0, 255, 255),
    Color(0, 227, 255), Color(0, 198, 255), Color(0, 170, 255), Color(0, 142, 255),
    Color(0, 113, 255), Color(0, 85, 255), Color(0, 56, 255), Color(0, 28, 255),
    Color(0, 0, 255), Color(32, 0, 255), Color(64, 0, 255), Color(96, 0, 255),
    Color(128, 0, 255), Color(160, 0, 255), Color(192, 0, 255), Color(224, 0, 255),
    Color(255, 0, 255), Color(255, 32, 255), Color(255, 64, 255), Color(255, 96, 255),
    Color(255, 128, 255), Color(255, 160, 255), Color(255, 192, 255), Color(255, 224, 255),
    Color(255, 255, 255), Color(255, 224, 224), Color(255, 192, 192), Color(255, 160, 160),
    Color(255, 128, 128), Color(255, 96, 96), Color(255, 64, 64), Color(255, 32, 32)
  ]

  function Min(a: int, b: int): int {
    if a <= b then a else b
  }

  /** The point an indexed record stands for: black when blanked or outside the palette. */
  function IndexedPoint(x: Int16, y: Int16, z: Int16, status: Byte, color: Byte, palette: seq<Color>): Point {
    if color >= |palette| || Blanked(status) then Point(x, y, z, 0, 0, 0)
    else Point(x, y, z, palette[color].r, palette[color].g, palette[color].b)
  }

  /** The point a true-colour record stands for: black when blanked. */
  function TruePoint(x: Int16, y: Int16, z: Int16, status: Byte, r: Byte, g: Byte, b: Byte): Point {
    if Blanked(status) then Point(x, y, z, 0, 0, 0) else Point(x, y, z, r, g, b)
  }

  /** The point of the frame a record becomes; 2-D records lie at z = 0. */
  function PointOf(rec: Record, palette: seq<Color>): Point {
    match rec
    case Indexed2d(x, y, status, color) => IndexedPoint(x, y, 0, status, color, palette)
    case True2d(x, y, status, b, g, r) => TruePoint(x, y, 0, status, r, g, b)
    case Indexed3d(x, y, z, status, color) => IndexedPoint(x, y, z, status, color, palette)
    case True3d(x, y, z, status, b, g, r) => TruePoint(x, y, z, status, r, g, b)
  }

  /**
    What reading `count` records of `size` bytes from `data` gets: the whole records, how many
    bytes the stream gives up, and whether every read was complete.
  */
  datatype Reading = Reading(chunks: seq<seq<Byte>>, used: nat, complete: bool)

  function Chunks(data: seq<Byte>, size: nat, count: nat): (r: Reading)
    requires size > 0
    ensures r.used <= |data|
    ensures r.complete <==> |r.chunks| == count
    ensures |r.chunks| <= count
    ensures forall k :: 0 <= k < |r.chunks| ==> |r.chunks[k]| == size
    ensures !r.complete ==> r.used == |data|
  {
    if count == 0 then Reading([], 0, true)
    else if |data| < size then Reading([], |data|, false)
    else
      var rest := Chunks(data[size..], size, count - 1);
      Reading([data[..size]] + rest.chunks, size + rest.used, rest.complete)
  }

  /** Records already read, followed by what the rest of the reading gets. */
  function Joined(done: seq<seq<Byte>>, used: nat, rest: Reading): Reading {
    Reading(done + rest.chunks, used + rest.used, rest.complete)
  }

  /**
    After i of the n reads that started at `start`, with the stream now at `pos`: the records read
    so far, followed by what the remaining reads get, make up the whole reading.
  */
  ghost predicate ReadSoFar(input: seq<Byte>, start: nat, size: nat, n: nat, i: nat, pos: nat, done: seq<seq<Byte>>) {
    size > 0 && i <= n && start <= pos <= |input| && |done| == i &&
    (forall k :: 0 <= k < i ==> |done[k]| == size) &&
    Chunks(input[start..], size, n) == Joined(done, pos - start, Chunks(input[pos..], size, n - i))
  }

  lemma ReadSoFarStart(input: seq<Byte>, start: nat, size: nat, n: nat)
    requires size > 0 && start <= |input|
    ensures ReadSoFar(input, start, size, n, 0, start, [])
  {
  }

  /** A complete read moves one record from what is left to what has been read. */
  lemma ReadSoFarStep(input: seq<Byte>, start: nat, size: nat, n: nat, i: nat, pos: nat, done: seq<seq<Byte>>)
    requires ReadSoFar(input, start, size, n, i, pos, done)
    requires i < n && pos + size <= |input|
    ensures ReadSoFar(input, start, size, n, i + 1, pos + size, done + [input[pos..pos + size]])
  {
    var rest := input[pos..];
    assert rest[..size] == input[pos..pos + size];
    assert rest[size..] == input[pos + size..];
    var c := input[pos..pos + size];
    var later := Chunks(input[pos + size..], size, n - i - 1);
    assert Chunks(rest, size, n - i) == Joined([c], size, later);
    assert done + ([c] + later.chunks) == (done + [c]) + later.chunks;
  }

  /** A short read ends the reading with the stream used up. */
  lemma ReadSoFarShort(input: seq<Byte>, start: nat, size: nat, n: nat, i: nat, pos: nat, done: seq<seq<Byte>>)
    requires ReadSoFar(input, start, size, n, i, pos, done)
    requires i < n && pos + size > |input|
    ensures Chunks(input[start..], size, n) == Reading(done, |input| - start, false)
  {
    assert done + [] == done;
  }

  /** After the last read nothing is left. */
  lemma ReadSoFarDone(input: seq<Byte>, start: nat, size: nat, n: nat, pos: nat, done: seq<seq<Byte>>)
    requires ReadSoFar(input, start, size, n, n, pos, done)
    ensures Chunks(input[start..], size, n) == Reading(done, pos - start, true)
  {
    assert done + [] == done;
  }

  /** The points of whole records, one per record and in file order. */
  function DecodePoints(layout: Layout, palette: seq<Color>, chunks: seq<seq<Byte>>): (ps: seq<Point>)
    requires forall k :: 0 <= k < |chunks| ==> |chunks[k]| == RecordSize(layout)
    ensures |ps| == |chunks|
  {
    if chunks == [] then []
    else
      var last := |chunks| - 1;
      DecodePoints(layout, palette, chunks[..last]) + [PointOf(DecodeRecord(layout, chunks[last]), palette)]
  }

  /** One more record, one more point at the end. */
  lemma DecodePointsSnoc(layout: Layout, palette: seq<Color>, chunks: seq<seq<Byte>>, c: seq<Byte>)
    requires forall k :: 0 <= k < |chunks| ==> |chunks[k]| == RecordSize(layout)
    requires |c| == RecordSize(layout)
    ensures DecodePoints(layout, palette, chunks + [c]) == DecodePoints(layout, palette, chunks) + [PointOf(DecodeRecord(layout, c), palette)]
  {
    assert (chunks + [c])[..|chunks|] == chunks;
  }

  /** Point i is the point of record i. */
  lemma {:induction false} DecodePointsAt(layout: Layout, palette: seq<Color>, chunks: seq<seq<Byte>>, i: nat)
    requires forall k :: 0 <= k < |chunks| ==> |chunks[k]| == RecordSize(layout)
    requires i < |chunks|
    ensures DecodePoints(layout, palette, chunks)[i] == PointOf(DecodeRecord(layout, chunks[i]), palette)
  {
    hide PointOf, DecodeRecord;
    var last := |chunks| - 1;
    if i < last {
      DecodePointsAt(layout, palette, chunks[..last], i);
    }
  }

  /** The colours of whole palette records, in file order. */
  function DecodeColors(chunks: seq<seq<Byte>>): (cs: seq<Color>)
    requires forall k :: 0 <= k < |chunks| ==> |chunks[k]| == COLOR_SIZE
    ensures |cs| == |chunks|
  {
    if chunks == [] then []
    else
      var last := |chunks| - 1;
      DecodeColors(chunks[..last]) + [DecodeColor(chunks[last])]
  }

  /** `resize(n)` fills with value-initialised colours: black. */
  function Blacks(n: nat): (cs: seq<Color>)
    ensures |cs| == n
  {
    if n == 0 then [] else Blacks(n - 1) + [Color(0, 0, 0)]
  }

  /** Storing the next colour over the first black entry. */
  lemma PaletteStep(done: seq<seq<Byte>>, c: seq<Byte>, n: nat)
    requires forall k :: 0 <= k < |done| ==> |done[k]| == COLOR_SIZE
    requires |c| == COLOR_SIZE && |done| < n
    ensures (DecodeColors(done) + Blacks(n - |done|))[|done| := DecodeColor(c)] == DecodeColors(done + [c]) + Blacks(n - |done| - 1)
  {
    assert (done + [c])[..|done|] == done;
    var m := n - |done|;
    assert Blacks(m) == Blacks(m - 1) + [Color(0, 0, 0)];
    BlacksAt(m);
    assert Blacks(m) == [Color(0, 0, 0)] + Blacks(m - 1);
  }

  /** `Blacks` is black all the way through. */
  lemma {:induction false} BlacksAt(n: nat)
    ensures forall i :: 0 <= i < n ==> Blacks(n)[i] == Color(0, 0, 0)
    ensures n > 0 ==> Blacks(n) == [Color(0, 0, 0)] + Blacks(n - 1)
  {
    if n > 0 {
      BlacksAt(n - 1);
    }
  }

  /** The fields of the reader the sections change. */
  datatype ReaderState = ReaderState(
    pos: nat,
    header: seq<Byte>,
    numberOfRecords: Uint16,
    frame: Frame,
    palettes: map<Uint16, seq<Color>>)

  predicate Consistent(input: seq<Byte>, st: ReaderState) {
    st.pos <= |input| && |st.header| == HEADER_SIZE
  }

  /** The palette indexed records of a projector are looked up in. */
  function PaletteOf(palettes: map<Uint16, seq<Color>>, projector: Byte): seq<Color> {
    if projector in palettes then palettes[projector] else DEFAULT_PALETTE
  }

  /**
    `readHeader()`: the header read over the old one (a short read overwrites only its start),
    then the magic check, then the record count converted from big-endian.
  */
  function HeaderRead(input: seq<Byte>, st: ReaderState): (r: (ReaderState, Option<IldaError>))
    requires Consistent(input, st)
    ensures Consistent(input, r.0)
  {
    var end := Min(st.pos + HEADER_SIZE, |input|);
    var got := input[st.pos..end];
    var s := st.(pos := end, header := got + st.header[|got|..]);
    if |got| < HEADER_SIZE then (s, Some(UnexpectedEnd))
    else if !HasMagic(s.header) then (s, Some(Corrupt))
    else (s.(numberOfRecords := BigToNative16(ParseHeader(s.header).numberOfRecords)), None)
  }

  /**
    A `frameFrom...` reader: the frame takes the header's projector and one point per whole record
    read; the flag says whether all `number_of_records` records were there.
  */
  function RecordsRead(input: seq<Byte>, st: ReaderState, layout: Layout): (r: (ReaderState, bool))
    requires Consistent(input, st)
    ensures Consistent(input, r.0)
  {
    var projector := ParseHeader(st.header).projectorId;
    var reading := Chunks(input[st.pos..], RecordSize(layout), st.numberOfRecords);
    var points := DecodePoints(layout, PaletteOf(st.palettes, projector), reading.chunks);
    (st.(pos := st.pos + reading.used, frame := Frame(projector, points)), reading.complete)
  }

  /**
    `setColorPalette()`: the projector's palette becomes `number_of_records` colours, those read
    and black for any a short read left unread.
  */
  function PaletteRead(input: seq<Byte>, st: ReaderState): (r: (ReaderState, bool))
    requires Consistent(input, st)
    ensures Consistent(input, r.0)
  {
    var projector := ParseHeader(st.header).projectorId;
    var reading := Chunks(input[st.pos..], COLOR_SIZE, st.numberOfRecords);
    var colors := DecodeColors(reading.chunks) + Blacks(st.numberOfRecords - |reading.chunks|);
    (st.(pos := st.pos + reading.used, palettes := st.palettes[projector := colors]), reading.complete)
  }

  /** After a section's records: the current frame, or the exception a short read throws. */
  function Finished(r: (ReaderState, bool)): (ReaderState, Outcome) {
    (r.0, if r.1 then Delivered(r.0.frame) else Thrown(UnexpectedEnd))
  }

  /** `nextFrame()`. */
  function Next(input: seq<Byte>, st: ReaderState): (r: (ReaderState, Outcome))
    requires Consistent(input, st)
    ensures Consistent(input, r.0)
    ensures st.pos <= r.0.pos
    ensures !r.1.Thrown? ==> r.0.pos >= st.pos + HEADER_SIZE
  {
    var (s, error) := HeaderRead(input, st);
    if error.Some? then (s, Thrown(error.value))
    else if s.numberOfRecords == 0 then (s, EndOfAnimation)
    else
      var format := ParseHeader(s.header).format;
      if format == FORMAT_3D_COORDINATES_INDEXED || format == FORMAT_2D_INDEXED then
        Finished(RecordsRead(input, s, Coordinates3dIndexed))
      else if format == FORMAT_COLOR_PALETTE then Finished(PaletteRead(input, s))
      else if format == FORMAT_COORDINATES_3D_TRUE then Finished(RecordsRead(input, s, Coordinates3dTrue))
      else if format == FORMAT_COORDINATES_2D_TRUE then Finished(RecordsRead(input, s, Coordinates2dTrue))
      else (s, Thrown(NotSupported))
  }

  /** `ILDAIStream`: the stream it reads and the state it keeps between sections. */
  class IldaIStream {
    const input: seq<Byte>
    var pos: nat
    var header: seq<Byte>
    var numberOfRecords: Uint16
    var currentFrame: Frame
    var palettes: map<Uint16, seq<Color>>

    function State(): ReaderState
      reads this
    {
      ReaderState(pos, header, numberOfRecords, currentFrame, palettes)
    }

    predicate Valid()
      reads this
    {
      Consistent(input, State())
    }

    /**
      `ILDAIStream(input)`: at the start of the stream, with no palettes and an empty frame. The
      header and the count, which C++ leaves uninitialised, start at zero; every section reads
      them before use.
    */
    constructor (input: seq<Byte>)
      ensures Valid() && this.input == input
      ensures State() == ReaderState(0, seq(HEADER_SIZE, _ => 0), 0, EMPTY_FRAME, map[])
    {
      this.input := input;
      pos := 0;
      header := seq(HEADER_SIZE, _ => 0);
      numberOfRecords := 0;
      currentFrame := EMPTY_FRAME;
      palettes := map[];
    }

    /** `read(target)` of n bytes: what the stream still holds, up to n bytes. */
    method Read(n: nat) returns (got: seq<Byte>)
      requires pos <= |input|
      modifies `pos
      ensures pos == Min(old(pos) + n, |input|)
      ensures got == input[old(pos)..pos]
    {
      var end := Min(pos + n, |input|);
      got := input[pos..end];
      pos := end;
    }

    /** `readHeader()`. */
    method ReadHeader() returns (error: Option<IldaError>)
      requires Valid()
      modifies this
      ensures Valid()
      ensures (State(), error) == HeaderRead(input, old(State()))
    {
      var got := Read(HEADER_SIZE);
      header := got + header[|got|..];
      if |got| < HEADER_SIZE {
        return Some(UnexpectedEnd);
      }
      if !HasMagic(header) {
        return Some(Corrupt);
      }
      numberOfRecords := BigToNative16(ParseHeader(header).numberOfRecords);
      error := None;
    }

    /** The loop the four `frameFrom...` readers share, over records of the given layout. */
    method FrameFromRecords(layout: Layout) returns (complete: bool)
      requires Valid()
      modifies `pos, `currentFrame
      ensures Valid()
      ensures var projector := ParseHeader(header).projectorId;
        var reading := Chunks(input[old(pos)..], RecordSize(layout), numberOfRecords);
        pos == old(pos) + reading.used && complete == reading.complete &&
        currentFrame == Frame(projector, DecodePoints(layout, PaletteOf(palettes, projector), reading.chunks))
    {
      hide Chunks, DecodePoints, PointOf, DecodeRecord, ParseHeader, PaletteOf;
      var projector := ParseHeader(header).projectorId;
      var palette := PaletteOf(palettes, projector);
      var size := RecordSize(layout);
      currentFrame := Frame(projector, []);
      ghost var start := pos;
      ghost var done: seq<seq<Byte>> := [];
      ReadSoFarStart(input, start, size, numberOfRecords);
      var i := 0;
      while i < numberOfRecords
        invariant ReadSoFar(input, start, size, numberOfRecords, i, pos, done)
        invariant currentFrame == Frame(projector, DecodePoints(layout, palette, done))
      {
        ghost var before := pos;
        var got := Read(size);
        if |got| < size {
          ReadSoFarShort(input, start, size, numberOfRecords, i, before, done);
          return false;
        }
        ReadSoFarStep(input, start, size, numberOfRecords, i, before, done);
        DecodePointsSnoc(layout, palette, done, got);
        done := done + [got];
        currentFrame := currentFrame.(points := currentFrame.points + [PointOf(DecodeRecord(layout, got), palette)]);
        i := i + 1;
      }
      ReadSoFarDone(input, start, size, numberOfRecords, pos, done);
      complete := true;
    }

    /** `frameFrom3dCoordinatesIndexed()`, which reads formats 0 and 1. */
    method FrameFrom3dCoordinatesIndexed() returns (complete: bool)
      requires Valid()
      modifies this
      ensures Valid()
      ensures (State(), complete) == RecordsRead(input, old(State()), Coordinates3dIndexed)
    {
      complete := FrameFromRecords(Coordinates3dIndexed);
    }

    /** `frameFrom2dCoordinatesIndexed()`, which `nextFrame` never calls. */
    method FrameFrom2dCoordinatesIndexed() returns (complete: bool)
      requires Valid()
      modifies this
      ensures Valid()
      ensures (State(), complete) == RecordsRead(input, old(State()), Coordinates2dIndexed)
    {
      complete := FrameFromRecords(Coordinates2dIndexed);
    }

    /** `frameFrom3dCoordinatesTrue()`. */
    method FrameFrom3dCoordinatesTrue() returns (complete: bool)
      requires Valid()
      modifies this
      ensures Valid()
      ensures (State(), complete) == RecordsRead(input, old(State()), Coordinates3dTrue)
    {
      complete := FrameFromRecords(Coordinates3dTrue);
    }

    /** `frameFrom2dCoordinatesTrue()`. */
    method FrameFrom2dCoordinatesTrue() returns (complete: bool)
      requires Valid()
      modifies this
      ensures Valid()
      ensures (State(), complete) == RecordsRead(input, old(State()), Coordinates2dTrue)
    {
      complete := FrameFromRecords(Coordinates2dTrue);
    }

    /**
      The loop of `setColorPalette()`: the palette starts as `number_of_records` black colours and
      is filled colour by colour until the records or the stream run out.
    */
    method ReadColors() returns (colors: seq<Color>, complete: bool)
      requires Valid()
      modifies `pos
      ensures Valid()
      ensures var reading := Chunks(input[old(pos)..], COLOR_SIZE, numberOfRecords);
        pos == old(pos) + reading.used && complete == reading.complete &&
        colors == DecodeColors(reading.chunks) + Blacks(numberOfRecords - |reading.chunks|)
    {
      assert DecodeColors([]) == [];
      hide Chunks, DecodeColors, Blacks;
      var n := numberOfRecords;
      colors := Blacks(n);
      ghost var start := pos;
      ghost var done: seq<seq<Byte>> := [];
      ReadSoFarStart(input, start, COLOR_SIZE, n);
      assert DecodeColors([]) + Blacks(n) == Blacks(n);
      var i := 0;
      while i < n
        invariant ReadSoFar(input, start, COLOR_SIZE, n, i, pos, done)
        invariant colors == DecodeColors(done) + Blacks(n - i)
      {
        ghost var before := pos;
        var got := Read(COLOR_SIZE);
        if |got| < COLOR_SIZE {
          ReadSoFarShort(input, start, COLOR_SIZE, n, i, before, done);
          return colors, false;
        }
        ReadSoFarStep(input, start, COLOR_SIZE, n, i, before, done);
        PaletteStep(done, got, n);
        colors := colors[i := DecodeColor(got)];
        done := done + [got];
        i := i + 1;
      }
      ReadSoFarDone(input, start, COLOR_SIZE, n, pos, done);
      complete := true;
    }

    /**
      `setColorPalette()`: the header's projector gets the colours read, black where a short read
      left them unread. The entry is stored once the loop stops, which leaves the same map as
      filling it in place.
    */
    method SetColorPalette() returns (complete: bool)
      requires Valid()
      modifies this
      ensures Valid()
      ensures (State(), complete) == PaletteRead(input, old(State()))
    {
      var projector := ParseHeader(header).projectorId;
      var colors;
      colors, complete := ReadColors();
      palettes := palettes[projector := colors];
    }

    /** `nextFrame()`: the outcome carries a copy of the frame the returned pointer points at. */
    method NextFrame() returns (outcome: Outcome)
      requires Valid()
      modifies this
      ensures Valid()
      ensures (State(), outcome) == Next(input, old(State()))
    {
      hide HeaderRead, RecordsRead, PaletteRead, Chunks, DecodePoints, DecodeColors, Blacks, HasMagic, PaletteOf;
      var error := ReadHeader();
      if error.Some? {
        return Thrown(error.value);
      }
      if numberOfRecords == 0 {
        return EndOfAnimation;
      }
      var format := ParseHeader(header).format;
      var complete;
      if format == FORMAT_3D_COORDINATES_INDEXED {
        complete := FrameFrom3dCoordinatesIndexed();
      } else if format == FORMAT_2D_INDEXED {
        complete := FrameFrom3dCoordinatesIndexed();
      } else if format == FORMAT_COLOR_PALETTE {
        complete := SetColorPalette();
      } else if format == FORMAT_COORDINATES_3D_TRUE {
        complete := FrameFrom3dCoordinatesTrue();
      } else if format == FORMAT_COORDINATES_2D_TRUE {
        complete := FrameFrom2dCoordinatesTrue();
      } else {
        return Thrown(NotSupported);
      }
      outcome := if complete then Delivered(currentFrame) else Thrown(UnexpectedEnd);
    }
  }
}

=== FILE: ilda_repeater.dfy ===
/**
  `ILDARepeater` of the C++ tools (src/ilda_repeater.cpp): an `ILDAInput` that hands on the
  frames of another one, keeping a copy of each, and once that input returns `nullptr` replays
  the copies round and round, starting from the first.

  The wrapped input is the sequence of frames it returns before its first `nullptr`; it is never
  asked again after that. A returned `Frame *` is modelled as the frame it points at; with at
  least one frame delivered the repeater never returns `nullptr`, which is why its result is a
  plain frame.
*/
module IldaRepeater {
  import opened Wrappers
  import opened IldaFrame
  import MemoryCycle

  /**
    What call k (from 0) of `nextFrame` returns when the wrapped input delivers `source`: the
    source's frames first, then the copies from the first one on, round and round.
  */
  function Output(source: seq<Frame>, k: nat): Frame
    requires |source| > 0
  {
    if k < |source| then source[k] else source[MemoryCycle.Slot(k - |source|, |source|)]
  }

  /** The first calls hand on the wrapped input's frames, in order. */
  lemma PassesSourceOn(source: seq<Frame>, k: nat)
    requires k < |source|
    ensures Output(source, k) == source[k]
  {
  }

  /** The replay starts from the first frame and goes through the copies in order. */
  lemma ReplayStartsAtFirst(source: seq<Frame>, j: nat)
    requires 0 <= j < |source|
    ensures Output(source, |source| + j) == source[j]
  {
  }

  /** After the wrapped input runs out the outputs repeat with the number of frames as period. */
  lemma ReplayIsPeriodic(source: seq<Frame>, k: nat)
    requires |source| > 0 && k >= |source|
    ensures Output(source, k + |source|) == Output(source, k)
  {
    MemoryCycle.ModAddDivisor(k - |source|, |source|);
  }

  /**
    The Rust `memory_cycle` replays one item ahead of the repeater: for the same source, its
    call k after the source is exhausted returns what the repeater returns at call k + 1.
  */
  lemma RustReplayIsOneAhead(source: seq<Frame>, k: nat)
    requires |source| > 0 && k >= |source|
    ensures MemoryCycle.Output(source, k) == Some(Output(source, k + 1))
  {
  }

  /** With two frames or more the two replays start differently whenever those frames differ. */
  lemma ReplaysStartDifferently(source: seq<Frame>)
    requires |source| >= 2 && source[0] != source[1]
    ensures MemoryCycle.Output(source, |source|) != Some(Output(source, |source|))
  {
  }

  /** `ILDARepeater`: the wrapped input, the copies, the replay iterator and the `repeating` flag. */
  class IldaRepeater {
    /** Every frame the wrapped input returns, and the number of `nextFrame` calls so far. */
    ghost const source: seq<Frame>
    ghost var calls: nat

    var originalInput: seq<Frame>
    var frames: seq<Frame>
    var it: nat
    var repeating: bool

    /**
      Before the replay the copies are what has been handed on; from the call that found the
      input exhausted on, they are all of it and `it` stands just after the frame last returned.
    */
    ghost predicate Valid()
      reads this
    {
      frames + originalInput == source &&
      (!repeating ==> calls <= |source| && |frames| == calls) &&
      (repeating ==> calls > |source| > 0 && originalInput == [] && it == MemoryCycle.Slot(calls - |source| - 1, |source|) + 1)
    }

    /** `ILDARepeater(input)`: no copies and not repeating. */
    constructor (input: seq<Frame>)
      ensures Valid() && source == input && calls == 0
      ensures originalInput == input && frames == [] && !repeating
    {
      source := input;
      calls := 0;
      originalInput := input;
      frames := [];
      it := 0;
      repeating := false;
    }

    /**
      `nextFrame()`: call number `calls` returns what `Output` says it does. Replaying with no
      frames dereferences `end()`, which C++ leaves undefined, so the wrapped input must have
      delivered at least one frame.
    */
    method NextFrame() returns (frame: Frame)
      requires Valid() && |source| > 0
      modifies this
      ensures Valid() && calls == old(calls) + 1
      ensures frame == Output(source, old(calls))
      ensures old(repeating) ==> frames == old(frames) && repeating
    {
      hide MemoryCycle.Slot;
      if !repeating {
        if originalInput != [] {
          frame := originalInput[0];
          originalInput := originalInput[1..];
          frames := frames + [frame];
          calls := calls + 1;
          assert (old(frames) + [frame]) + originalInput == old(frames) + old(originalInput);
          return;
        }
        repeating := true;
        it := 0;
      }
      assert frames == source;
      var n := |frames|;
      ghost var k := calls - n;
      if it == n {
        it := 0;
      }
      if k > 0 {
        MemoryCycle.SlotSucc(k - 1, n);
      }
      assert it == MemoryCycle.Slot(k, n);
      frame := frames[it];
      it := it + 1;
      calls := calls + 1;
      assert calls - n - 1 == k;
    }
  }
}

=== FILE: ilda_sections.dfy ===
/**
  What one call of `nextFrame` makes of the bytes ahead of the stream (src/ilda_istream.cpp):
  which headers it rejects and with what, where the animation ends, which formats it refuses,
  when a section is cut short, and that a section written out field by field is read back as the
  frame or palette it was written from.
*/
module IldaSections {
  import opened Wrappers
  import opened Bytes
  import opened CInt
  import opened IldaFrame
  import opened IldaFormat
  import opened IldaReader
  import opened Seqs

  /** The bytes of point records, one string per record. */
  function EncodedRecords(recs: seq<Record>): seq<seq<Byte>> {
    seq(|recs|, i requires 0 <= i < |recs| => EncodeRecord(recs[i]))
  }

  /** The bytes of palette colours, one string per colour. */
  function EncodedColors(colors: seq<Color>): seq<seq<Byte>> {
    seq(|colors|, i requires 0 <= i < |colors| => EncodeColor(colors[i]))
  }

  /** The points records stand for, indexed ones looked up in the given palette. */
  function Points(recs: seq<Record>, palette: seq<Color>): seq<Point> {
    seq(|recs|, i requires 0 <= i < |recs| => PointOf(recs[i], palette))
  }

  /** Records of one size laid end to end are read back one by one, all of them. */
  lemma {:induction false} ChunksOfConcat(chunks: seq<seq<Byte>>, size: nat, rest: seq<Byte>)
    requires size > 0
    requires forall k :: 0 <= k < |chunks| ==> |chunks[k]| == size
    ensures Chunks(Concat(chunks) + rest, size, |chunks|) == Reading(chunks, |Concat(chunks)|, true)
  {
    hide Concat;
    if chunks != [] {
      var data := Concat(chunks) + rest;
      var tail := Concat(chunks[1..]) + rest;
      ConcatCons(chunks);
      assert data == chunks[0] + tail;
      assert data[..size] == chunks[0];
      assert data[size..] == tail;
      ChunksOfConcat(chunks[1..], size, rest);
      assert [chunks[0]] + chunks[1..] == chunks;
    }
  }

  /**
    Reading `count` records is complete exactly when the data holds `count * size` bytes, and
    then it takes exactly that many.
  */
  lemma {:induction false} ChunksComplete(data: seq<Byte>, size: nat, count: nat)
    requires size > 0
    ensures Chunks(data, size, count).complete <==> count * size <= |data|
    ensures Chunks(data, size, count).complete ==> Chunks(data, size, count).used == count * size
  {
    if count > 0 {
      assert count * size == (count - 1) * size + size;
      if |data| < size {
        MulAtLeast(count, size);
      } else {
        ChunksComplete(data[size..], size, count - 1);
      }
    }
  }

  /** Colour i of whole palette records is the colour of record i. */
  lemma {:induction false} DecodeColorsAt(chunks: seq<seq<Byte>>, i: nat)
    requires forall k :: 0 <= k < |chunks| ==> |chunks[k]| == COLOR_SIZE
    requires i < |chunks|
    ensures DecodeColors(chunks)[i] == DecodeColor(chunks[i])
  {
    var last := |chunks| - 1;
    if i < last {
      DecodeColorsAt(chunks[..last], i);
    }
  }

  /**
    A frame reader over records of its own layout, written out one after the other: it reads
    all of them, stops right after the last and makes them the header's projector's frame.
  */
  lemma RecordsReadEncoded(input: seq<Byte>, st: ReaderState, layout: Layout, recs: seq<Record>, rest: seq<Byte>)
    requires Consistent(input, st)
    requires forall i :: 0 <= i < |recs| ==> LayoutOf(recs[i]) == layout
    requires st.numberOfRecords == |recs|
    requires input[st.pos..] == Concat(EncodedRecords(recs)) + rest
    ensures var projector := ParseHeader(st.header).projectorId;
      RecordsRead(input, st, layout) ==
        (st.(pos := |input| - |rest|, frame := Frame(projector, Points(recs, PaletteOf(st.palettes, projector)))), true)
  {
    hide PointOf, DecodeRecord, EncodeRecord, DecodePoints, Chunks, ParseHeader, PaletteOf, Concat;
    var chunks := EncodedRecords(recs);
    var projector := ParseHeader(st.header).projectorId;
    var palette := PaletteOf(st.palettes, projector);
    ChunksOfConcat(chunks, RecordSize(layout), rest);
    var points := DecodePoints(layout, palette, chunks);
    forall i | 0 <= i < |recs|
      ensures points[i] == PointOf(recs[i], palette)
    {
      DecodePointsAt(layout, palette, chunks, i);
      DecodeEncodeRecord(recs[i]);
    }
    assert points == Points(recs, palette);
  }

  /**
    The palette reader over colours written out one after the other: it reads all of them,
    stops right after the last and makes them the header's projector's palette.
  */
  lemma PaletteReadEncoded(input: seq<Byte>, st: ReaderState, colors: seq<Color>, rest: seq<Byte>)
    requires Consistent(input, st)
    requires st.numberOfRecords == |colors|
    requires input[st.pos..] == Concat(EncodedColors(colors)) + rest
    ensures var projector := ParseHeader(st.header).projectorId;
      PaletteRead(input, st) == (st.(pos := |input| - |rest|, palettes := st.palettes[projector := colors]), true)
  {
    var chunks := EncodedColors(colors);
    ChunksOfConcat(chunks, COLOR_SIZE, rest);
    var decoded := DecodeColors(chunks);
    forall i | 0 <= i < |colors|
      ensures decoded[i] == colors[i]
    {
      DecodeColorsAt(chunks, i);
    }
    assert decoded + Blacks(0) == colors;
  }

  /**
    A frame reader completes exactly when the stream still holds `number_of_records` records;
    otherwise it leaves the stream at its end.
  */
  lemma RecordsReadComplete(input: seq<Byte>, st: ReaderState, layout: Layout)
    requires Consistent(input, st)
    ensures RecordsRead(input, st, layout).1 <==> st.numberOfRecords * RecordSize(layout) <= |input| - st.pos
    ensures RecordsRead(input, st, layout).1 ==> RecordsRead(input, st, layout).0.pos == st.pos + st.numberOfRecords * RecordSize(layout)
    ensures !RecordsRead(input, st, layout).1 ==> RecordsRead(input, st, layout).0.pos == |input|
  {
    ChunksComplete(input[st.pos..], RecordSize(layout), st.numberOfRecords);
  }

  /**
    The palette reader completes exactly when the stream still holds `number_of_records`
    colours; otherwise it leaves the stream at its end.
  */
  lemma PaletteReadComplete(input: seq<Byte>, st: ReaderState)
    requires Consistent(input, st)
    ensures PaletteRead(input, st).1 <==> st.numberOfRecords * COLOR_SIZE <= |input| - st.pos
    ensures PaletteRead(input, st).1 ==> PaletteRead(input, st).0.pos == st.pos + st.numberOfRecords * COLOR_SIZE
    ensures !PaletteRead(input, st).1 ==> PaletteRead(input, st).0.pos == |input|
  {
    ChunksComplete(input[st.pos..], COLOR_SIZE, st.numberOfRecords);
  }

  /** The stream holds a whole header at `pos`, and it starts with the C string "ILDA". */
  predicate GoodHeaderAt(input: seq<Byte>, pos: nat) {
    pos + HEADER_SIZE <= |input| && input[pos..pos + 4] == MAGIC && input[pos + 4] == 0
  }

  /** The record count of the header at `pos`, stored big-endian in bytes 24 and 25. */
  function CountAt(input: seq<Byte>, pos: nat): nat
    requires pos + HEADER_SIZE <= |input|
  {
    BeU16(input[pos + 24], input[pos + 25])
  }

  /** The point record layout `nextFrame` reads a format with; format 1 gets the 3-D indexed one. */
  function ReaderLayout(format: Byte): Layout
    requires format in {0, 1, 4, 5}
  {
    if format == FORMAT_COORDINATES_3D_TRUE then Coordinates3dTrue
    else if format == FORMAT_COORDINATES_2D_TRUE then Coordinates2dTrue
    else Coordinates3dIndexed
  }

  /** What `readHeader` makes of a whole header. */
  lemma HeaderReadWhole(input: seq<Byte>, st: ReaderState)
    requires Consistent(input, st) && st.pos + HEADER_SIZE <= |input|
    ensures var hd := input[st.pos..st.pos + HEADER_SIZE];
      var (s, error) := HeaderRead(input, st);
      s.pos == st.pos + HEADER_SIZE && s.header == hd &&
      s.frame == st.frame && s.palettes == st.palettes &&
      (error == None <==> GoodHeaderAt(input, st.pos)) &&
      (error != None ==> error == Some(Corrupt)) &&
      (error == None ==> s.numberOfRecords == CountAt(input, st.pos)) &&
      ParseHeader(hd).format == input[st.pos + 7] &&
      ParseHeader(hd).projectorId == input[st.pos + 30]
  {
    var hd := input[st.pos..st.pos + HEADER_SIZE];
    assert Min(st.pos + HEADER_SIZE, |input|) == st.pos + HEADER_SIZE;
    assert hd + st.header[HEADER_SIZE..] == hd;
    MagicNeedsTerminator(hd);
    assert hd[..4] == input[st.pos..st.pos + 4] && hd[4] == input[st.pos + 4];
    RecordCountIsBigEndian(hd);
    assert hd[24] == input[st.pos + 24] && hd[25] == input[st.pos + 25];
    assert hd[7] == input[st.pos + 7] && hd[30] == input[st.pos + 30];
  }

  /** A header cut short by the end of the stream throws "Unexpected end of input." */
  lemma NextShortHeader(input: seq<Byte>, st: ReaderState)
    requires Consistent(input, st) && |input| < st.pos + HEADER_SIZE
    ensures Next(input, st).1 == Thrown(UnexpectedEnd)
    ensures Next(input, st).0.pos == |input|
  {
  }

  /**
    A whole header is refused as corrupt exactly when it does not start with the four letters
    "ILDA" followed by a NUL.
  */
  lemma NextCorrupt(input: seq<Byte>, st: ReaderState)
    requires Consistent(input, st) && st.pos + HEADER_SIZE <= |input|
    ensures Next(input, st).1 == Thrown(Corrupt) <==> !GoodHeaderAt(input, st.pos)
  {
    HeaderReadWhole(input, st);
  }

  /**
    A good header ends the animation exactly when its big-endian record count is zero; the
    stream then stands right after the header and nothing else changes.
  */
  lemma NextEnd(input: seq<Byte>, st: ReaderState)
    requires Consistent(input, st) && GoodHeaderAt(input, st.pos)
    ensures Next(input, st).1 == EndOfAnimation <==> CountAt(input, st.pos) == 0
    ensures Next(input, st).1 == EndOfAnimation ==>
      Next(input, st).0 == st.(pos := st.pos + HEADER_SIZE, header := input[st.pos..st.pos + HEADER_SIZE], numberOfRecords := 0)
  {
    HeaderReadWhole(input, st);
  }

  /**
    "Not supported." is thrown exactly for a good header with records whose format byte is
    none of 0, 1, 2, 4 and 5.
  */
  lemma NextNotSupported(input: seq<Byte>, st: ReaderState)
    requires Consistent(input, st)
    ensures Next(input, st).1 == Thrown(NotSupported) <==>
      GoodHeaderAt(input, st.pos) && CountAt(input, st.pos) != 0 && input[st.pos + 7] !in {0, 1, 2, 4, 5}
  {
    if st.pos + HEADER_SIZE <= |input| {
      HeaderReadWhole(input, st);
    }
  }

  /**
    After a good header with n > 0 records of a point format, the section is cut short, and
    throws, exactly when fewer than n records of the format's layout are left; otherwise the
    outcome is the frame the records make.
  */
  lemma NextPointSectionComplete(input: seq<Byte>, st: ReaderState)
    requires Consistent(input, st) && GoodHeaderAt(input, st.pos)
    requires CountAt(input, st.pos) != 0 && input[st.pos + 7] in {0, 1, 4, 5}
    ensures var layout := ReaderLayout(input[st.pos + 7]);
      var n := CountAt(input, st.pos);
      (Next(input, st).1 == Thrown(UnexpectedEnd) <==> |input| - (st.pos + HEADER_SIZE) < n * RecordSize(layout)) &&
      (Next(input, st).1 != Thrown(UnexpectedEnd) ==>
        Next(input, st).1 == Delivered(Next(input, st).0.frame) &&
        Next(input, st).0.pos == st.pos + HEADER_SIZE + n * RecordSize(layout))
  {
    HeaderReadWhole(input, st);
    var s := HeaderRead(input, st).0;
    RecordsReadComplete(input, s, ReaderLayout(input[st.pos + 7]));
  }

  /**
    After a good header with n > 0 palette records, the section is cut short, and throws,
    exactly when fewer than n colours are left; otherwise the outcome is the previous frame.
  */
  lemma NextPaletteSectionComplete(input: seq<Byte>, st: ReaderState)
    requires Consistent(input, st) && GoodHeaderAt(input, st.pos)
    requires CountAt(input, st.pos) != 0 && input[st.pos + 7] == FORMAT_COLOR_PALETTE
    ensures var n := CountAt(input, st.pos);
      (Next(input, st).1 == Thrown(UnexpectedEnd) <==> |input| - (st.pos + HEADER_SIZE) < n * COLOR_SIZE) &&
      (Next(input, st).1 != Thrown(UnexpectedEnd) ==>
        Next(input, st).1 == Delivered(st.frame) &&
        Next(input, st).0.pos == st.pos + HEADER_SIZE + n * COLOR_SIZE)
  {
    HeaderReadWhole(input, st);
    var s := HeaderRead(input, st).0;
    PaletteReadComplete(input, s);
  }

  /** A header a writer would produce for a section of n records in the given format. */
  predicate SectionHeader(h: Header, format: Byte, n: nat) {
    WellFormed(h) && h.ilda == MAGIC && h.reservedA[0] == 0 && h.format == format &&
    0 < n < 0x1_0000 && h.numberOfRecords == BigToNative16(n)
  }

  /** The header as the reader sees it once it is in the stream. */
  lemma HeaderReadSerialised(input: seq<Byte>, st: ReaderState, h: Header, format: Byte, n: nat, tail: seq<Byte>)
    requires Consistent(input, st) && SectionHeader(h, format, n)
    requires input[st.pos..] == SerialiseHeader(h) + tail
    ensures HeaderRead(input, st) ==
      (st.(pos := st.pos + HEADER_SIZE, header := SerialiseHeader(h), numberOfRecords := n), None)
    ensures ParseHeader(SerialiseHeader(h)) == h
    ensures input[st.pos + HEADER_SIZE..] == tail
  {
    var hd := SerialiseHeader(h);
    assert input[st.pos..st.pos + HEADER_SIZE] == hd;
    assert hd + st.header[HEADER_SIZE..] == hd;
    ParseSerialiseHeader(h);
    assert hd[..4] == MAGIC && hd[4] == 0;
    MagicNeedsTerminator(hd);
    SwapTwice(n);
    assert input[st.pos + HEADER_SIZE..] == input[st.pos..][HEADER_SIZE..];
  }

  /**
    A point section written out (a header of a point format with n records, then n records of
    the layout the reader uses for it) is read back as the frame of those records, with the
    header's projector and, for indexed records, that projector's palette; the stream stops
    right after the section and the palettes stay as they were.
  */
  lemma NextPointSection(input: seq<Byte>, st: ReaderState, h: Header, recs: seq<Record>, rest: seq<Byte>)
    requires Consistent(input, st) && h.format in {0, 1, 4, 5} && SectionHeader(h, h.format, |recs|)
    requires forall i :: 0 <= i < |recs| ==> LayoutOf(recs[i]) == ReaderLayout(h.format)
    requires input[st.pos..] == SerialiseHeader(h) + Concat(EncodedRecords(recs)) + rest
    ensures var frame := Frame(h.projectorId, Points(recs, PaletteOf(st.palettes, h.projectorId)));
      Next(input, st) ==
        (ReaderState(|input| - |rest|, SerialiseHeader(h), |recs|, frame, st.palettes), Delivered(frame))
  {
    hide HeaderRead, RecordsRead, PaletteRead, Chunks, DecodePoints, DecodeColors, Concat, PaletteOf, PointOf;
    var tail := Concat(EncodedRecords(recs)) + rest;
    assert input[st.pos..] == SerialiseHeader(h) + tail;
    HeaderReadSerialised(input, st, h, h.format, |recs|, tail);
    var s := HeaderRead(input, st).0;
    RecordsReadEncoded(input, s, ReaderLayout(h.format), recs, rest);
  }

  /**
    A palette section written out (a format 2 header with n records, then n colours) replaces
    the header's projector's palette by those colours and hands back the previous frame again.
  */
  lemma NextPaletteSection(input: seq<Byte>, st: ReaderState, h: Header, colors: seq<Color>, rest: seq<Byte>)
    requires Consistent(input, st) && SectionHeader(h, FORMAT_COLOR_PALETTE, |colors|)
    requires input[st.pos..] == SerialiseHeader(h) + Concat(EncodedColors(colors)) + rest
    ensures Next(input, st) ==
      (ReaderState(|input| - |rest|, SerialiseHeader(h), |colors|, st.frame, st.palettes[h.projectorId := colors]),
       Delivered(st.frame))
  {
    hide HeaderRead, RecordsRead, PaletteRead, Chunks, DecodePoints, DecodeColors, Concat, PaletteOf, PointOf;
    var tail := Concat(EncodedColors(colors)) + rest;
    assert input[st.pos..] == SerialiseHeader(h) + tail;
    HeaderReadSerialised(input, st, h, FORMAT_COLOR_PALETTE, |colors|, tail);
    var s := HeaderRead(input, st).0;
    PaletteReadEncoded(input, s, colors, rest);
  }

  /**
    Format 1 (2-D indexed) is read exactly as format 0: changing the format byte of a header
    from 1 to 0 changes nothing but that byte of the stored header.
  */
  lemma FormatOneReadAsZero(input: seq<Byte>, st: ReaderState)
    requires Consistent(input, st) && st.pos + HEADER_SIZE <= |input| && input[st.pos + 7] == FORMAT_2D_INDEXED
    ensures var other := input[st.pos + 7 := FORMAT_3D_COORDINATES_INDEXED];
      Next(other, st).1 == Next(input, st).1 &&
      Next(other, st).0 == Next(input, st).0.(header := Next(input, st).0.header[7 := FORMAT_3D_COORDINATES_INDEXED])
  {
    var other := input[st.pos + 7 := FORMAT_3D_COORDINATES_INDEXED];
    HeaderReadWhole(input, st);
    HeaderReadWhole(other, st);
    var hd := input[st.pos..st.pos + HEADER_SIZE];
    var hd' := other[st.pos..st.pos + HEADER_SIZE];
    assert hd' == hd[7 := FORMAT_3D_COORDINATES_INDEXED];
    assert other[st.pos..st.pos + 4] == input[st.pos..st.pos + 4];
    assert other[st.pos + HEADER_SIZE..] == input[st.pos + HEADER_SIZE..];
    assert ParseHeader(hd').projectorId == ParseHeader(hd).projectorId;
  }
}

=== FILE: legacy_wav.dfy ===
/**
  The legacy C++ converter `ILDAWavOutput::run` (src/ilda_wav.cpp): frames of ILDA points become
  16-bit PCM samples, one channel per byte of the signal string (`x y z l r g b`).

  Each second of animation is `fps` frames. Frame k of a second may use
  groupSizeOfNthGroup(pps, fps, k) points, shared among its locations the same way. A location
  with a share of n points is reached by n interpolation steps from the previous location. Point
  number j of the second gets groupSizeOfNthGroup(rate, pps, j) sample vectors. A location with
  no share is skipped. The WAV header is written first with a zero data size, then rewritten
  once the total is known.
*/
module LegacyWav {
  import opened Wrappers
  import opened Bytes
  import opened CInt
  import opened GroupSize
  import opened WavHeader
  import opened IldaFrame
  import Utf8

  /** The converter's settings: the constructor arguments of ILDAWavOutput. */
  datatype Settings = Settings(fps: int, signals: string, invert: string, rate: int, pps: int)

  /** What `run` relies on: a positive frame rate to divide by, and no negative rate or point rate. */
  predicate Sane(s: Settings) {
    s.fps > 0 && s.pps >= 0 && s.rate >= 0
  }

  /** The `runtime_error("Invalid signal.")` thrown for a character outside `x y z l r g b`. */
  datatype RunError = InvalidSignal

  const SIGNAL_CHARS: string := "xyzlrgb"

  predicate SignalsValid(signals: string) {
    forall i :: 0 <= i < |signals| ==> signals[i] in SIGNAL_CHARS
  }

  /**
    `channel_count = signals.length()`: the signal string's length in bytes. It is one channel
    per character for valid signals, which are all ASCII.
  */
  function ChannelCount(s: Settings): (n: nat)
    ensures n >= |s.signals|
    ensures SignalsValid(s.signals) ==> n == |s.signals|
  {
    ValidSignalsAreAscii(s.signals);
    Utf8.Len(s.signals)
  }

  /** A non-ASCII character counts as its UTF-8 bytes: "xé" makes a three-channel header. */
  lemma SignalBytesAreChannels()
    ensures ChannelCount(Settings(1, "x\U{E9}", "", 44100, 0)) == 3
    ensures InitialHeader(Settings(1, "x\U{E9}", "", 44100, 0)).channels == 3
  {
  }

  /** The signal characters `x y z l r g b` are all ASCII. */
  lemma ValidSignalsAreAscii(signals: string)
    ensures SignalsValid(signals) ==> forall i :: 0 <= i < |signals| ==> signals[i] as int < 0x80
  {
    if SignalsValid(signals) {
      forall i | 0 <= i < |signals|
        ensures signals[i] as int < 0x80
      {
        assert signals[i] in SIGNAL_CHARS;
      }
    }
  }

  /** A position on the three axes. */
  datatype Axes = Axes(x: Int16, y: Int16, z: Int16)

  /** `last_x`, `last_y` and `last_z` before the first location. */
  const ORIGIN: Axes := Axes(0, 0, 0)

  /** `v * -1` stored in an int16_t: negation, except that -32768 stays -32768. */
  function Invert(v: Int16, on: bool): (r: Int16)
    ensures !on ==> r == v
    ensures on && v != -32768 ==> r == -v
    ensures on && v == -32768 ==> r == -32768
  {
    if on then Wrap16(v * -1) else v
  }

  /** Where a point sends the beam: its coordinates, inverted on the axes `invert` names. */
  function Target(s: Settings, p: Point): Axes {
    Axes(Invert(p.x, 'x' in s.invert), Invert(p.y, 'y' in s.invert), Invert(p.z, 'z' in s.invert))
  }

  /**
    Interpolation step p of n as the source writes it: the difference is first stored in an
    `int16_t`, so a difference beyond 16 bits wraps around before it is scaled. While the
    difference fits in 16 bits it agrees with the intended interpolation.
  */
  function InterpolateAsWritten(last: Int16, target: Int16, p: int, n: int): (v: Int16)
    requires n > 0
    ensures 0 <= p <= n && -32768 <= target - last <= 32767 ==> v == Interpolate(last, target, p, n)
  {
    var d := Wrap16(target - last);
    Wrap16(last + CDiv(d * p, n))
  }

  /**
    Interpolation step p of n as intended: the whole difference scaled by p / n, truncated toward
    zero. Every step lies between the two locations; step 0 is the last location and step n the
    target.
  */
  function Interpolate(last: Int16, target: Int16, p: int, n: int): (v: Int16)
    requires 0 <= p <= n && n > 0
    ensures p == n ==> v == target
    ensures p == 0 ==> v == last
    ensures last <= target ==> last <= v <= target
    ensures target <= last ==> target <= v <= last
  {
    var q := CDiv((target - last) * p, n);
    ScaledDifference(target - last, p, n);
    Wrap16(last + q)
  }

  /** d * p / n, truncated, lies between 0 and d, and is d itself for p = n. */
  lemma ScaledDifference(d: int, p: int, n: int)
    requires 0 <= p <= n && n > 0
    ensures var q := CDiv(d * p, n);
      (d >= 0 ==> 0 <= q <= d) && (d <= 0 ==> d <= q <= 0) && (p == n ==> q == d) && (p == 0 ==> q == 0)
  {
    if d >= 0 {
      ScaledNonNegative(d, p, n);
    } else {
      ScaledNonNegative(-d, p, n);
      assert d * p == -((-d) * p);
      CDivNegate((-d) * p, n);
    }
  }

  lemma ScaledNonNegative(e: int, p: int, n: int)
    requires e >= 0 && 0 <= p <= n && n > 0
    ensures 0 <= CDiv(e * p, n) <= e
    ensures p == n ==> CDiv(e * p, n) == e
    ensures p == 0 ==> CDiv(e * p, n) == 0
  {
    var x := e * p;
    MulNonNegative(e, p);
    MulMonoInt(p, n, e);
    CDivNonNegative(x, n);
    DivAtMost(x, n, e);
    if p == n {
      DivModUnique(e * n, n, e, 0);
    }
  }

  /** 0 <= x <= e * n gives 0 <= x / n <= e. */
  lemma DivAtMost(x: int, n: int, e: int)
    requires 0 <= x <= e * n && n > 0
    ensures 0 <= x / n <= e
  {
    var q := x / n;
    if q > e {
      MulMonoInt(e + 1, q, n);
    }
  }

  /** Truncation toward zero is symmetric. */
  lemma CDivNegate(a: int, b: int)
    requires b != 0
    ensures CDiv(-a, b) == -CDiv(a, b)
  {
    var n := Abs(a) / Abs(b);
    assert Abs(-a) / Abs(b) == n;
    if a == 0 {
      assert n == 0;
    }
  }

  lemma MulNonNegative(a: int, b: int)
    requires a >= 0 && b >= 0
    ensures a * b >= 0
  {
  }

  lemma MulMonoInt(a: int, b: int, k: int)
    requires a <= b && k >= 0
    ensures a * k <= b * k && k * a <= k * b
  {
  }

  /**
    The wrapped difference still lands on the target at the last step, because the wrap-around
    cancels modulo 2^16.
  */
  lemma AsWrittenLandsOnTarget(last: Int16, target: Int16, n: int)
    requires n > 0
    ensures InterpolateAsWritten(last, target, n, n) == target
  {
    var d := Wrap16(target - last);
    DivModUnique(Abs(d * n), n, Abs(d), 0);
    assert CDiv(d * n, n) == d;
  }

  /**
    ... but the steps in between can leave the segment: from -30000 to 30000 in 4 steps the
    difference 60000 wraps to -5536, and step 3 lands on 31384 instead of 15000, a jump across
    the whole range.
  */
  lemma AsWrittenLeavesSegment()
    ensures InterpolateAsWritten(-30000, 30000, 3, 4) == 31384
    ensures Interpolate(-30000, 30000, 3, 4) == 15000
  {
    assert Wrap16(60000) == -5536;
    assert CDiv(-5536 * 3, 4) == -4152;
    assert CDiv(60000 * 3, 4) == 45000;
  }

  /** The three axes of step p of n. */
  function InterpolateAxes(last: Axes, target: Axes, p: int, n: int): Axes
    requires 0 <= p <= n && n > 0
  {
    Axes(Interpolate(last.x, target.x, p, n), Interpolate(last.y, target.y, p, n), Interpolate(last.z, target.z, p, n))
  }

  /** The blanking signal: off (0) for a black point, full scale otherwise. */
  function Blank(p: Point): Int16 {
    if p.r == 0 && p.g == 0 && p.b == 0 then 0 else INT16_MAX
  }

  /** A colour component scaled by `INT16_MAX / UINT8_MAX`, which is 128 in integer division. */
  function Colour(c: Uint16): Int16 {
    Wrap16(c * (INT16_MAX / UINT8_MAX))
  }

  /** Colours of the ILDA range come out as c * 128, so 255 gives 32640 and not full scale. */
  lemma ColourScale(c: Uint16)
    requires c <= UINT8_MAX
    ensures Colour(c) == c * 128
    ensures 0 <= Colour(c) <= 32640
  {
  }

  /** The value one signal character writes; characters outside `x y z l r g b` never write. */
  function SignalValue(ch: char, a: Axes, p: Point): Int16 {
    match ch
    case 'x' => a.x
    case 'y' => a.y
    case 'z' => a.z
    case 'l' => Blank(p)
    case 'r' => Colour(p.r)
    case 'g' => Colour(p.g)
    case 'b' => Colour(p.b)
    case _ => 0
  }

  /** One sample vector: a value per signal character, in the string's order. */
  function Vector(signals: string, a: Axes, p: Point): (v: seq<Int16>)
    ensures |v| == |signals|
  {
    seq(|signals|, i requires 0 <= i < |signals| => SignalValue(signals[i], a, p))
  }

  /** c copies of a vector, none when c is not positive. */
  function Repeat(v: seq<Int16>, c: int): (r: seq<Int16>)
    decreases c
  {
    if c <= 0 then [] else Repeat(v, c - 1) + v
  }

  lemma {:induction false} RepeatLength(v: seq<Int16>, c: int)
    ensures |Repeat(v, c)| == if c <= 0 then 0 else c * |v|
    decreases c
  {
    if c > 0 {
      RepeatLength(v, c - 1);
      assert c * |v| == (c - 1) * |v| + |v|;
    }
  }

  /** `groupSizeOfNthGroup(rate, pps, point_number)`: the sample vectors point number j gets. */
  function SamplesOf(s: Settings, j: int): int
    requires s.pps != 0
  {
    GroupSizeOfNthGroup(s.rate, s.pps, j)
  }

  /**
    The samples of interpolation steps 1 .. k towards a location given n points, the first of
    them numbered pn.
  */
  function Steps(s: Settings, pn: int, last: Axes, target: Axes, pt: Point, n: int, k: int): seq<Int16>
    requires s.pps != 0 && 0 <= k <= n
    decreases k
  {
    if k == 0 then []
    else
      Steps(s, pn, last, target, pt, n, k - 1) +
      Repeat(Vector(s.signals, InterpolateAxes(last, target, k, n), pt), SamplesOf(s, pn + k - 1))
  }

  /** Where a frame's loop stands: the samples of its buffer, `point_number` and the last location. */
  datatype Cursor = Cursor(samples: seq<Int16>, pointNumber: int, last: Axes)

  /**
    One location given n points: skipped when n is 0; otherwise n steps, one point number each,
    after which the target is the last location.
  */
  function Location(s: Settings, c: Cursor, pt: Point, n: int): (r: Cursor)
    requires n > 0 ==> s.pps != 0
    ensures n == 0 ==> r == c
    ensures n != 0 ==> r.last == Target(s, pt)
    ensures n > 0 ==> r.pointNumber == c.pointNumber + n
    ensures n < 0 ==> r.pointNumber == c.pointNumber && r.samples == c.samples
  {
    if n == 0 then c
    else if n < 0 then c.(last := Target(s, pt))
    else
      var target := Target(s, pt);
      Cursor(c.samples + Steps(s, c.pointNumber, c.last, target, pt, n, n), c.pointNumber + n, target)
  }

  /** The first i locations of a frame whose points share `budget`. */
  function Locations(s: Settings, budget: int, c0: Cursor, pts: seq<Point>, i: nat): Cursor
    requires i <= |pts| && (s.pps == 0 ==> budget == 0)
  {
    if i == 0 then c0
    else
      GroupSizeOfZero(|pts|, i - 1);
      Location(s, Locations(s, budget, c0, pts, i - 1), pts[i - 1], GroupSizeOfNthGroup(budget, |pts|, i - 1))
  }

  /**
    Where the first i locations leave a frame's loop: the cursor they compute, with a point number
    that has not gone negative and, unless every signal is valid, no samples yet.
  */
  predicate Written(s: Settings, budget: int, c0: Cursor, pts: seq<Point>, i: nat, c: Cursor)
    requires i <= |pts| && (s.pps == 0 ==> budget == 0)
  {
    c.pointNumber >= 0 && Locations(s, budget, c0, pts, i) == c && (SignalsValid(s.signals) || |c.samples| == 0)
  }

  /** `frame_number` and `point_number` between frames, and the last location. */
  datatype RunState = RunState(frameNumber: int, pointNumber: int, last: Axes)

  const START: RunState := RunState(0, 0, ORIGIN)

  /** `frame_in_second`. */
  function FrameInSecond(s: Settings, st: RunState): int
    requires s.fps != 0
  {
    CMod(st.frameNumber, s.fps)
  }

  /** `point_count`: the points the frame may use. */
  function Budget(s: Settings, st: RunState): int
    requires s.fps != 0
  {
    GroupSizeOfNthGroup(s.pps, s.fps, FrameInSecond(s, st))
  }

  /** A frame's loop: `point_number` restarts at the first frame of each second. */
  function FrameCursor(s: Settings, st: RunState, f: Frame): Cursor
    requires Sane(s)
  {
    var pn := if FrameInSecond(s, st) == 0 then 0 else st.pointNumber;
    GroupSizeOfZero(s.fps, FrameInSecond(s, st));
    Locations(s, Budget(s, st), Cursor([], pn, st.last), f.points, |f.points|)
  }

  /** The state after a frame. */
  function NextState(s: Settings, st: RunState, f: Frame): RunState
    requires Sane(s)
  {
    var c := FrameCursor(s, st, f);
    RunState(st.frameNumber + 1, c.pointNumber, c.last)
  }

  /** With an invalid signal character, a frame throws as soon as it would write its first sample. */
  predicate FrameThrows(s: Settings, st: RunState, f: Frame)
    requires Sane(s)
  {
    !SignalsValid(s.signals) && |FrameCursor(s, st, f).samples| > 0
  }

  /** The state, the samples written and whether a frame threw, after a list of frames. */
  datatype Progress = Progress(state: RunState, samples: seq<Int16>, failed: bool)

  /** The frames run one after another from a given progress, stopping at the first that throws. */
  function RunFrom(s: Settings, pr0: Progress, frames: seq<Frame>): Progress
    requires Sane(s)
  {
    if frames == [] then pr0
    else Step(s, RunFrom(s, pr0, frames[..|frames| - 1]), frames[|frames| - 1])
  }

  /** One frame of the loop: nothing after a failure, the failure itself on a throw, the frame's samples otherwise. */
  function Step(s: Settings, pr: Progress, f: Frame): Progress
    requires Sane(s)
  {
    if pr.failed then pr
    else if FrameThrows(s, pr.state, f) then pr.(failed := true)
    else Progress(NextState(s, pr.state, f), pr.samples + FrameCursor(s, pr.state, f).samples, false)
  }

  /** `run`'s loop over the input's frames. */
  function RunFrames(s: Settings, frames: seq<Frame>): Progress
    requires Sane(s)
  {
    RunFrom(s, Progress(START, [], false), frames)
  }

  /** The bytes of 16-bit samples on a little-endian host. */
  function SampleBytes(samples: seq<Int16>): (bs: seq<Byte>)
    ensures |bs| == 2 * |samples|
  {
    if samples == [] then []
    else SampleBytes(samples[..|samples| - 1]) + LeSignedBytes(samples[|samples| - 1], 2)
  }

  /** The header before `update`: the struct's defaults, the channel count and the rate. */
  function InitialHeader(s: Settings): HeaderFields {
    HeaderFields(0, 16, 1, ToUint16(ChannelCount(s)), ToUint32(s.rate), 0, 0, 16, 0)
  }

  /**
    What `run` leaves in the output and how it ends: the header, rewritten with the final size on
    success, followed by the samples of every frame written before any exception.
  */
  function Output(s: Settings, frames: seq<Frame>): (seq<Byte>, Result<int, RunError>)
    requires Sane(s)
  {
    var pr := RunFrames(s, frames);
    var body := SampleBytes(pr.samples);
    if pr.failed then (Serialise(Updated(InitialHeader(s), 0)) + body, Err(InvalidSignal))
    else (Serialise(Updated(InitialHeader(s), 2 * |pr.samples|)) + body, Ok(0))
  }

  /** a * (b + c) distributes, and products commute. */
  lemma MulAdd(a: int, b: int, c: int)
    ensures a * (b + c) == a * b + a * c && a * c == c * a
  {
  }

  /** Sample vectors given to point numbers a .. b - 1 of a second. */
  function Span(s: Settings, a: nat, b: nat): int
    requires s.pps != 0
  {
    SumSizes(s.rate, s.pps, b) - SumSizes(s.rate, s.pps, a)
  }

  /** The k steps of a location write one vector per signal for every sample their points get. */
  lemma {:induction false} StepsLength(s: Settings, pn: nat, last: Axes, target: Axes, pt: Point, n: int, k: int)
    requires s.pps > 0 && s.rate >= 0 && 0 <= k <= n
    ensures |Steps(s, pn, last, target, pt, n, k)| == |s.signals| * Span(s, pn, pn + k)
    decreases k
  {
    hide InterpolateAxes, Vector, Repeat, GroupSizeOfNthGroup;
    if k > 0 {
      StepsLength(s, pn, last, target, pt, n, k - 1);
      var c := SamplesOf(s, pn + k - 1);
      GroupSizeNonNegative(s.rate, s.pps, pn + k - 1);
      RepeatLength(Vector(s.signals, InterpolateAxes(last, target, k, n), pt), c);
      assert Span(s, pn, pn + k) == Span(s, pn, pn + k - 1) + c;
      MulAdd(|s.signals|, Span(s, pn, pn + k - 1), c);
    }
  }

  /** The first i locations of a frame use the first i shares of its budget, one point number each. */
  lemma {:induction false} LocationsPoints(s: Settings, budget: int, c0: Cursor, pts: seq<Point>, i: nat)
    requires i <= |pts| && |pts| > 0 && budget >= 0 && (s.pps == 0 ==> budget == 0)
    ensures Locations(s, budget, c0, pts, i).pointNumber == c0.pointNumber + SumSizes(budget, |pts|, i)
  {
    hide Location, GroupSizeOfNthGroup;
    if i > 0 {
      LocationsPoints(s, budget, c0, pts, i - 1);
      GroupSizeOfZero(|pts|, i - 1);
      var n := GroupSizeOfNthGroup(budget, |pts|, i - 1);
      GroupSizeNonNegative(budget, |pts|, i - 1);
      var prev := Locations(s, budget, c0, pts, i - 1);
      assert Locations(s, budget, c0, pts, i) == Location(s, prev, pts[i - 1], n);
      assert SumSizes(budget, |pts|, i) == SumSizes(budget, |pts|, i - 1) + n;
    }
  }

  /** One location writes one vector per signal for every sample its point numbers get. */
  lemma LocationSamples(s: Settings, c: Cursor, pt: Point, n: int)
    requires s.pps > 0 && s.rate >= 0 && n >= 0 && c.pointNumber >= 0
    ensures var r := Location(s, c, pt, n);
      r.pointNumber >= c.pointNumber &&
      |r.samples| == |c.samples| + |s.signals| * Span(s, c.pointNumber, r.pointNumber)
  {
    if n > 0 {
      StepsLength(s, c.pointNumber, c.last, Target(s, pt), pt, n, n);
    }
  }

  /** The first i locations write one vector per signal for every sample their point numbers get. */
  lemma {:induction false} LocationsSamples(s: Settings, budget: int, c0: Cursor, pts: seq<Point>, i: nat)
    requires i <= |pts| && |pts| > 0 && budget >= 0 && s.pps > 0
    requires s.rate >= 0 && c0.pointNumber >= 0
    ensures var c := Locations(s, budget, c0, pts, i);
      c.pointNumber >= c0.pointNumber &&
      |c.samples| == |c0.samples| + |s.signals| * Span(s, c0.pointNumber, c.pointNumber)
  {
    hide Location, Steps, GroupSizeOfNthGroup, Target, SumSizes;
    if i > 0 {
      LocationsSamples(s, budget, c0, pts, i - 1);
      var prev := Locations(s, budget, c0, pts, i - 1);
      var n := GroupSizeOfNthGroup(budget, |pts|, i - 1);
      GroupSizeNonNegative(budget, |pts|, i - 1);
      var c := Location(s, prev, pts[i - 1], n);
      assert Locations(s, budget, c0, pts, i) == c;
      LocationSamples(s, prev, pts[i - 1], n);
      MulAdd(|s.signals|, Span(s, c0.pointNumber, prev.pointNumber), Span(s, prev.pointNumber, c.pointNumber));
    }
  }

  /** Without a point rate no location gets a share, and nothing is written. */
  lemma {:induction false} LocationsSilent(s: Settings, c0: Cursor, pts: seq<Point>, i: nat)
    requires i <= |pts| && s.pps == 0
    ensures Locations(s, 0, c0, pts, i).samples == c0.samples
  {
    if i > 0 {
      LocationsSilent(s, c0, pts, i - 1);
      GroupSizeOfZero(|pts|, i - 1);
    }
  }

  /** Where a frame's point numbers start: 0 at the first frame of a second. */
  function FirstPoint(s: Settings, st: RunState): int
    requires s.fps != 0
  {
    if FrameInSecond(s, st) == 0 then 0 else st.pointNumber
  }

  /**
    A frame with at least one location uses exactly its budget of point numbers, and writes one
    vector per signal for every sample they get; an empty frame uses and writes nothing.
  */
  lemma FrameAdvance(s: Settings, st: RunState, f: Frame)
    requires Sane(s) && FirstPoint(s, st) >= 0
    ensures var c := FrameCursor(s, st, f);
      Budget(s, st) >= 0 &&
      c.pointNumber == FirstPoint(s, st) + (if |f.points| == 0 then 0 else Budget(s, st)) &&
      (s.pps == 0 ==> c.samples == []) &&
      (s.pps > 0 ==> |c.samples| == |s.signals| * Span(s, FirstPoint(s, st), c.pointNumber))
  {
    var k := FrameInSecond(s, st);
    GroupSizeNonNegative(s.pps, s.fps, k);
    GroupSizeOfZero(s.fps, k);
    var c0 := Cursor([], FirstPoint(s, st), st.last);
    if |f.points| > 0 {
      LocationsPoints(s, Budget(s, st), c0, f.points, |f.points|);
      if s.pps == 0 {
        LocationsSilent(s, c0, f.points, |f.points|);
      } else {
        LocationsSamples(s, Budget(s, st), c0, f.points, |f.points|);
      }
      GroupSizesSum(Budget(s, st), |f.points|);
    }
  }

  /** `frame_number % fps` on the next frame, for a non-negative frame number. */
  lemma NextInSecond(a: int, g: int)
    requires a >= 0 && g > 0
    ensures CMod(a + 1, g) == if a % g + 1 < g then a % g + 1 else 0
  {
    CDivNonNegative(a, g);
    CDivNonNegative(a + 1, g);
    if a % g + 1 < g {
      DivModUnique(a + 1, g, a / g, a % g + 1);
    } else {
      DivModUnique(a + 1, g, a / g + 1, 0);
    }
  }

  /**
    Between frames, point numbers stay within the second: frame k of a second starts no later than
    the points frames 0 .. k - 1 may use.
  */
  predicate WithinSecond(s: Settings, st: RunState)
    requires Sane(s)
  {
    st.frameNumber >= 0 && st.pointNumber >= 0 &&
    (FrameInSecond(s, st) == 0 || st.pointNumber <= SumSizes(s.pps, s.fps, FrameInSecond(s, st)))
  }

  /** A frame ends no later than the points frames 0 .. k of its second may use, and keeps the invariant. */
  lemma NextStateWithinSecond(s: Settings, st: RunState, f: Frame)
    requires Sane(s) && WithinSecond(s, st)
    ensures FrameCursor(s, st, f).pointNumber <= SumSizes(s.pps, s.fps, FrameInSecond(s, st) + 1)
    ensures WithinSecond(s, NextState(s, st, f))
  {
    var k := FrameInSecond(s, st);
    CDivNonNegative(st.frameNumber, s.fps);
    FrameAdvance(s, st, f);
    assert SumSizes(s.pps, s.fps, k + 1) == SumSizes(s.pps, s.fps, k) + Budget(s, st);
    SumSizesMonotone(s.pps, s.fps, 0, k);
    NextInSecond(st.frameNumber, s.fps);
  }

  /** No frame of a second uses more point numbers than the second has. */
  lemma FrameWithinPoints(s: Settings, st: RunState, f: Frame)
    requires Sane(s) && WithinSecond(s, st)
    ensures FirstPoint(s, st) <= FrameCursor(s, st, f).pointNumber <= s.pps
  {
    var k := FrameInSecond(s, st);
    NextStateWithinSecond(s, st, f);
    FrameAdvance(s, st, f);
    SumSizesMonotone(s.pps, s.fps, k + 1, s.fps);
    GroupSizesSum(s.pps, s.fps);
  }

  /** The samples of point numbers a .. b - 1 of one second are at most the second's `rate`. */
  lemma SpanWithinSecond(s: Settings, a: nat, b: nat)
    requires s.pps > 0 && s.rate >= 0 && a <= b <= s.pps
    ensures 0 <= Span(s, a, b) <= s.rate
  {
    SumSizesMonotone(s.rate, s.pps, 0, a);
    SumSizesMonotone(s.rate, s.pps, a, b);
    SumSizesMonotone(s.rate, s.pps, b, s.pps);
    GroupSizesSum(s.rate, s.pps);
  }

  /**
    `frame_data` holds `rate * channel_count` samples, and no frame writes more: the samples of
    one frame never exceed one second's worth.
  */
  lemma FrameFitsBuffer(s: Settings, st: RunState, f: Frame)
    requires Sane(s) && WithinSecond(s, st)
    ensures |FrameCursor(s, st, f).samples| <= s.rate * ChannelCount(s)
  {
    MulNonNegative(s.rate, |s.signals|);
    MulMonoInt(|s.signals|, ChannelCount(s), s.rate);
    FrameAdvance(s, st, f);
    if s.pps > 0 {
      var c := FrameCursor(s, st, f);
      var first := FirstPoint(s, st);
      FrameWithinPoints(s, st, f);
      SpanWithinSecond(s, first, c.pointNumber);
      MulMonoInt(Span(s, first, c.pointNumber), s.rate, |s.signals|);
    }
  }

  /** The state after one more frame: unchanged after a failure or a throw, the frame's otherwise. */
  lemma RunFromLast(s: Settings, pr0: Progress, frames: seq<Frame>)
    requires Sane(s) && frames != []
    ensures var pr := RunFrom(s, pr0, frames[..|frames| - 1]);
      RunFrom(s, pr0, frames).state == pr.state ||
      RunFrom(s, pr0, frames).state == NextState(s, pr.state, frames[|frames| - 1])
  {
  }

  /** Every state `run` reaches between frames keeps point numbers within the second. */
  lemma {:induction false} RunFramesWithinSecond(s: Settings, frames: seq<Frame>)
    requires Sane(s)
    ensures WithinSecond(s, RunFrames(s, frames).state)
  {
    if frames == [] {
      assert FrameInSecond(s, START) == 0;
    } else {
      var pre := frames[..|frames| - 1];
      RunFramesWithinSecond(s, pre);
      RunFromLast(s, Progress(START, [], false), frames);
      NextStateWithinSecond(s, RunFrames(s, pre).state, frames[|frames| - 1]);
    }
  }

  /** Frame j of a second that starts at frame f0 is frame j of the second, and the next second starts after fps frames. */
  lemma FrameOfSecond(f0: int, g: int, j: int)
    requires f0 >= 0 && g > 0 && CMod(f0, g) == 0 && 0 <= j <= g
    ensures CMod(f0 + j, g) == if j < g then j else 0
  {
    CDivNonNegative(f0, g);
    CDivNonNegative(f0 + j, g);
    if j < g {
      DivModUnique(f0 + j, g, f0 / g, j);
    } else {
      DivModUnique(f0 + j, g, f0 / g + 1, 0);
    }
  }

  /** j frames after the first frame of a second, for j < fps, is frame j of that second. */
  lemma InSecond(s: Settings, st: RunState, st': RunState, j: int)
    requires Sane(s) && st.frameNumber >= 0 && FrameInSecond(s, st) == 0
    requires 0 <= j < s.fps && st'.frameNumber == st.frameNumber + j
    ensures FrameInSecond(s, st') == j
  {
    FrameOfSecond(st.frameNumber, s.fps, j);
  }

  /** One more frame that does not throw, after a run that has not failed. */
  lemma RunFromStep(s: Settings, pr0: Progress, frames: seq<Frame>)
    requires Sane(s) && frames != []
    requires var pr := RunFrom(s, pr0, frames[..|frames| - 1]);
      !pr.failed && !FrameThrows(s, pr.state, frames[|frames| - 1])
    ensures var pr := RunFrom(s, pr0, frames[..|frames| - 1]);
      var f := frames[|frames| - 1];
      RunFrom(s, pr0, frames) == Progress(NextState(s, pr.state, f), pr.samples + FrameCursor(s, pr.state, f).samples, false)
  {
  }

  /** Frame k of a second, with a location, uses the point numbers of group k of the second's points. */
  lemma FrameOfSecondUses(s: Settings, st: RunState, f: Frame, k: nat)
    requires Sane(s) && s.pps > 0 && FrameInSecond(s, st) == k && |f.points| > 0
    requires FirstPoint(s, st) == SumSizes(s.pps, s.fps, k)
    ensures var c := FrameCursor(s, st, f);
      0 <= SumSizes(s.pps, s.fps, k) <= SumSizes(s.pps, s.fps, k + 1) &&
      c.pointNumber == SumSizes(s.pps, s.fps, k + 1) &&
      |c.samples| == |s.signals| * Span(s, SumSizes(s.pps, s.fps, k), SumSizes(s.pps, s.fps, k + 1))
  {
    SumSizesMonotone(s.pps, s.fps, 0, k);
    SumSizesMonotone(s.pps, s.fps, k, k + 1);
    FrameAdvance(s, st, f);
  }

  /**
    What the first n frames of a second come to: no throw, n more frames, the point numbers that
    groups 0 .. n - 1 of the second's points cover, and one vector per signal for each of their samples.
  */
  predicate SecondPrefix(s: Settings, st: RunState, n: nat, pr: Progress)
    requires Sane(s) && s.pps > 0
  {
    var used := SumSizes(s.pps, s.fps, n);
    used >= 0 && !pr.failed && pr.state.frameNumber == st.frameNumber + n &&
    (n > 0 ==> pr.state.pointNumber == used) &&
    |pr.samples| == |s.signals| * SumSizes(s.rate, s.pps, used)
  }

  /** Valid signals, points to share and a state at the first frame of a second. */
  predicate SecondStart(s: Settings, st: RunState) {
    Sane(s) && s.pps > 0 && SignalsValid(s.signals) && st.frameNumber >= 0 && FrameInSecond(s, st) == 0
  }

  /** Frame i of a second, with a location, after frames 0 .. i - 1 used their share of the points. */
  lemma FrameOfSecondStep(s: Settings, st: RunState, st': RunState, f: Frame, i: int)
    requires Sane(s) && s.pps > 0 && SignalsValid(s.signals) && st.frameNumber >= 0 && FrameInSecond(s, st) == 0
    requires 0 <= i < s.fps && st'.frameNumber == st.frameNumber + i && |f.points| > 0
    requires i > 0 ==> st'.pointNumber == SumSizes(s.pps, s.fps, i)
    ensures var c := FrameCursor(s, st', f);
      var before := SumSizes(s.pps, s.fps, i);
      var after := SumSizes(s.pps, s.fps, i + 1);
      !FrameThrows(s, st', f) && 0 <= before <= after && c.pointNumber == after &&
      |c.samples| == |s.signals| * Span(s, before, after)
  {
    SumSizesMonotone(s.pps, s.fps, 0, i);
    InSecond(s, st, st', i);
    FrameOfSecondUses(s, st', f, i);
  }

  /** The first j frames of a second whose frames all have a location, with valid signals. */
  lemma {:induction false} SecondSoFar(s: Settings, st: RunState, frames: seq<Frame>)
    requires SecondStart(s, st) && |frames| <= s.fps
    requires forall i :: 0 <= i < |frames| ==> |frames[i].points| > 0
    ensures SecondPrefix(s, st, |frames|, RunFrom(s, Progress(st, [], false), frames))
  {
    hide Step, GroupSizeOfNthGroup;
    var j := |frames|;
    SumSizesMonotone(s.pps, s.fps, 0, j);
    if j > 0 {
      var pre := frames[..j - 1];
      SecondSoFar(s, st, pre);
      SecondStep(s, st, RunFrom(s, Progress(st, [], false), pre), frames[j - 1], j - 1);
    }
  }

  /** One more frame of a second. */
  lemma SecondStep(s: Settings, st: RunState, pr: Progress, f: Frame, i: nat)
    requires SecondStart(s, st) && i < s.fps && |f.points| > 0
    requires SecondPrefix(s, st, i, pr)
    ensures SecondPrefix(s, st, i + 1, Step(s, pr, f))
  {
    var before := SumSizes(s.pps, s.fps, i);
    FrameOfSecondStep(s, st, pr.state, f, i);
    var c := FrameCursor(s, pr.state, f);
    var pr' := Step(s, pr, f);
    assert pr'.samples == pr.samples + c.samples;
    var span := Span(s, before, c.pointNumber);
    var k := |s.signals|;
    var sofar := SumSizes(s.rate, s.pps, before);
    assert |pr'.samples| == k * sofar + k * span;
    MulAdd(k, sofar, span);
    assert sofar + span == SumSizes(s.rate, s.pps, SumSizes(s.pps, s.fps, i + 1));
  }

  /**
    With valid signals and a location in every frame, one second of animation (fps frames,
    starting at the first frame of a second) becomes exactly one second of audio: `rate` sample
    vectors. The next frame starts a new second.
  */
  lemma OneSecondOfAudio(s: Settings, st: RunState, frames: seq<Frame>)
    requires Sane(s) && s.pps > 0 && SignalsValid(s.signals)
    requires st.frameNumber >= 0 && FrameInSecond(s, st) == 0 && |frames| == s.fps
    requires forall i :: 0 <= i < |frames| ==> |frames[i].points| > 0
    ensures var pr := RunFrom(s, Progress(st, [], false), frames);
      !pr.failed && |pr.samples| == s.rate * |s.signals| && FrameInSecond(s, pr.state) == 0
  {
    var pr := RunFrom(s, Progress(st, [], false), frames);
    SecondSoFar(s, st, frames);
    GroupSizesSum(s.pps, s.fps);
    GroupSizesSum(s.rate, s.pps);
    var used := SumSizes(s.pps, s.fps, s.fps);
    assert SumSizes(s.rate, s.pps, used) == s.rate;
    MulAdd(|s.signals|, 0, s.rate);
    FrameOfSecond(st.frameNumber, s.fps, s.fps);
    assert pr.state.frameNumber == st.frameNumber + s.fps;
  }

  /** Reading 16-bit little-endian samples back from bytes, as a WAV reader does. */
  function BytesToSamples(bs: seq<Byte>): (xs: seq<int>)
    requires |bs| % 2 == 0
    ensures 2 * |xs| == |bs|
  {
    if bs == [] then [] else BytesToSamples(bs[..|bs| - 2]) + [LeSigned(bs[|bs| - 2..])]
  }

  /** The sample bytes `run` writes read back as the samples it computed. */
  lemma {:induction false} SampleBytesRoundTrip(samples: seq<Int16>)
    ensures BytesToSamples(SampleBytes(samples)) == samples
  {
    if samples != [] {
      var pre := samples[..|samples| - 1];
      var last := samples[|samples| - 1];
      var bs := SampleBytes(samples);
      assert bs == SampleBytes(pre) + LeSignedBytes(last, 2);
      assert bs[..|bs| - 2] == SampleBytes(pre);
      assert bs[|bs| - 2..] == LeSignedBytes(last, 2);
      SampleBytesRoundTrip(pre);
      SignedRoundTrip(last, 2);
      assert samples == pre + [last];
    }
  }

  /** A run that has failed stays failed, and only an invalid signal character makes it fail. */
  lemma {:induction false} FailsOnlyOnInvalidSignal(s: Settings, pr0: Progress, frames: seq<Frame>)
    requires Sane(s) && !pr0.failed
    ensures RunFrom(s, pr0, frames).failed ==> !SignalsValid(s.signals)
  {
    if frames != [] {
      FailsOnlyOnInvalidSignal(s, pr0, frames[..|frames| - 1]);
    }
  }

  /** With an invalid signal character, the first frame that would write a sample makes the run fail. */
  lemma InvalidSignalFails(s: Settings, frames: seq<Frame>, i: nat)
    requires Sane(s) && !SignalsValid(s.signals) && i < |frames|
    requires |FrameCursor(s, RunFrames(s, frames[..i]).state, frames[i]).samples| > 0
    ensures RunFrames(s, frames[..i + 1]).failed
  {
    assert frames[..i + 1][..i] == frames[..i];
  }

  /**
    When `run` returns 0, the file starts with a header that reads back as 16-bit PCM on one
    channel per byte of the signal string at the given rate, and describes the sample bytes that follow,
    as long as the sizes fit their fields.
  */
  lemma OutputOnSuccess(s: Settings, frames: seq<Frame>)
    requires Sane(s) && !RunFrames(s, frames).failed
    requires ChannelCount(s) < 0x8000 && s.rate < 0x1_0000_0000
    requires s.rate * (2 * ChannelCount(s)) < 0x1_0000_0000
    requires 2 * |RunFrames(s, frames).samples| + 36 < 0x1_0000_0000
    ensures var out := Output(s, frames).0;
      Output(s, frames).1 == Ok(0) && |out| >= HEADER_SIZE &&
      out[HEADER_SIZE..] == SampleBytes(RunFrames(s, frames).samples) &&
      Parse(out[..HEADER_SIZE]).Some? &&
      var h := Parse(out[..HEADER_SIZE]).value;
      Describes(h, |out| - HEADER_SIZE) &&
      h.audioFormat == 1 && h.bitsPerSample == 16 && h.channels == ChannelCount(s) && h.rate == s.rate
  {
    var samples := RunFrames(s, frames).samples;
    var h := Updated(InitialHeader(s), 2 * |samples|);
    var out := Output(s, frames).0;
    assert out == Serialise(h) + SampleBytes(samples);
    assert out[..HEADER_SIZE] == Serialise(h);
    ParseSerialise(h);
    assert 16 * ChannelCount(s) / 8 == 2 * ChannelCount(s);
    UpdatedDescribes(InitialHeader(s), 2 * |samples|);
  }

  /**
    When a frame throws, the file holds the first header, with a zero data size, followed by the
    samples of the frames before it, and `run` reports the invalid signal.
  */
  lemma OutputOnError(s: Settings, frames: seq<Frame>)
    requires Sane(s) && RunFrames(s, frames).failed
    ensures var out := Output(s, frames).0;
      Output(s, frames).1 == Err(InvalidSignal) && !SignalsValid(s.signals) &&
      |out| >= HEADER_SIZE &&
      out[HEADER_SIZE..] == SampleBytes(RunFrames(s, frames).samples) &&
      Parse(out[..HEADER_SIZE]).Some? && Parse(out[..HEADER_SIZE]).value.dataSize == 0
  {
    var h := Updated(InitialHeader(s), 0);
    var out := Output(s, frames).0;
    FailsOnlyOnInvalidSignal(s, Progress(START, [], false), frames);
    assert out[..HEADER_SIZE] == Serialise(h);
    ParseSerialise(h);
  }

  /** More copies of a vector are never shorter, and one more copy adds one vector. */
  lemma {:induction false} RepeatGrows(v: seq<Int16>, i: int, j: int)
    requires 0 <= i <= j
    ensures |Repeat(v, i)| <= |Repeat(v, j)|
    ensures |Repeat(v, i + 1)| == |Repeat(v, i)| + |v|
    decreases j
  {
    if i < j {
      RepeatGrows(v, i, j - 1);
    }
  }

  /** No copies for a count that is not positive; one more copy appends the vector once more. */
  lemma RepeatUnfold(v: seq<Int16>, c: int)
    ensures c <= 0 ==> Repeat(v, c) == []
    ensures c >= 0 ==> Repeat(v, c + 1) == Repeat(v, c) + v
  {
  }

  /** A later step never has fewer samples before it. */
  lemma {:induction false} StepsGrow(s: Settings, pn: int, last: Axes, target: Axes, pt: Point, n: int, i: int, j: int)
    requires s.pps != 0 && 0 <= i <= j <= n
    ensures |Steps(s, pn, last, target, pt, n, i)| <= |Steps(s, pn, last, target, pt, n, j)|
    decreases j
  {
    hide InterpolateAxes, Vector, Repeat, SamplesOf;
    if i < j {
      StepsGrow(s, pn, last, target, pt, n, i, j - 1);
    }
  }

  /** A later location never has fewer samples before it. */
  lemma {:induction false} LocationsGrow(s: Settings, budget: int, c0: Cursor, pts: seq<Point>, i: nat, j: nat)
    requires i <= j <= |pts| && (s.pps == 0 ==> budget == 0)
    ensures |Locations(s, budget, c0, pts, i).samples| <= |Locations(s, budget, c0, pts, j).samples|
    decreases j
  {
    hide Steps, GroupSizeOfNthGroup, Target;
    if i < j {
      LocationsGrow(s, budget, c0, pts, i, j - 1);
    }
  }

  /** Once a run has failed, later frames change nothing. */
  lemma {:induction false} FailedStays(s: Settings, pr0: Progress, frames: seq<Frame>, i: nat)
    requires Sane(s) && i <= |frames| && RunFrom(s, pr0, frames[..i]).failed
    ensures RunFrom(s, pr0, frames) == RunFrom(s, pr0, frames[..i])
    decreases |frames|
  {
    if i < |frames| {
      var pre := frames[..|frames| - 1];
      assert pre[..i] == frames[..i];
      FailedStays(s, pr0, pre, i);
    } else {
      assert frames[..i] == frames;
    }
  }

  /** The bytes of two runs of samples are the bytes of each, one after the other. */
  lemma {:induction false} SampleBytesAppend(a: seq<Int16>, b: seq<Int16>)
    ensures SampleBytes(a + b) == SampleBytes(a) + SampleBytes(b)
    decreases |b|
  {
    if b != [] {
      var b' := b[..|b| - 1];
      assert (a + b)[..|a + b| - 1] == a + b';
      SampleBytesAppend(a, b');
    } else {
      assert a + b == a;
    }
  }

  /** One more frame of `run`'s loop, when none before it threw. */
  lemma RunFramesStep(s: Settings, frames: seq<Frame>, i: nat)
    requires Sane(s) && i < |frames| && !RunFrames(s, frames[..i]).failed
    ensures var pr := RunFrames(s, frames[..i]);
      RunFrames(s, frames[..i + 1]) ==
        if FrameThrows(s, pr.state, frames[i]) then pr.(failed := true)
        else Progress(NextState(s, pr.state, frames[i]), pr.samples + FrameCursor(s, pr.state, frames[i]).samples, false)
  {
    assert frames[..i + 1][..i] == frames[..i];
  }

  /** Updating twice is updating once with the later size: `update` reads only fields it does not write. */
  lemma UpdatedTwice(h: HeaderFields, a: int, b: int)
    ensures Updated(Updated(h, a), b) == Updated(h, b)
  {
  }

  /** What `run` leaves when it stops at a throw, and when it reaches the last frame. */
  lemma OutputOf(s: Settings, frames: seq<Frame>, pr: Progress)
    requires Sane(s) && RunFrames(s, frames) == pr
    ensures pr.failed ==> Output(s, frames) == (Serialise(Updated(InitialHeader(s), 0)) + SampleBytes(pr.samples), Err(InvalidSignal))
    ensures !pr.failed ==> Output(s, frames) == (Serialise(Updated(InitialHeader(s), 2 * |pr.samples|)) + SampleBytes(pr.samples), Ok(0))
  {
  }

  /** A frame's loop is its locations' loop, from the point number and the budget its second gives it. */
  lemma FrameIsLocations(s: Settings, st: RunState, f: Frame, pointCount: int, c0: Cursor)
    requires Sane(s) && pointCount == Budget(s, st) && c0 == Cursor([], FirstPoint(s, st), st.last)
    requires s.pps == 0 ==> pointCount == 0
    ensures var c := Locations(s, pointCount, c0, f.points, |f.points|);
      FrameCursor(s, st, f) == c &&
      NextState(s, st, f) == RunState(st.frameNumber + 1, c.pointNumber, c.last) &&
      (FrameThrows(s, st, f) <==> !SignalsValid(s.signals) && |c.samples| > 0)
  {
    GroupSizeOfZero(s.fps, FrameInSecond(s, st));
  }

  /** `ILDAWavOutput`: the settings, and the stream `run` writes to. */
  class LegacyWavOutput {
    const settings: Settings
    var output: seq<Byte>

    /** The output starts as a new, empty file. */
    constructor (s: Settings)
      ensures settings == s && output == []
    {
      settings := s;
      output := [];
    }

    /** The `for (unsigned char s : signals)` loop: one value per signal character, or the throw. */
    method WriteVector(data: array<Int16>, at: int, a: Axes, pt: Point) returns (thrown: bool)
      requires 0 <= at && at + |settings.signals| <= data.Length
      modifies data
      ensures thrown <==> !SignalsValid(settings.signals)
      ensures !thrown ==> data[..at + |settings.signals|] == old(data[..at]) + Vector(settings.signals, a, pt)
    {
      var signals := settings.signals;
      var v := Vector(signals, a, pt);
      var j := 0;
      while j < |signals|
        invariant 0 <= j <= |signals|
        invariant forall k :: 0 <= k < j ==> signals[k] in SIGNAL_CHARS
        invariant data[..at + j] == old(data[..at]) + v[..j]
      {
        match signals[j] {
          case 'x' => data[at + j] := a.x;
          case 'y' => data[at + j] := a.y;
          case 'z' => data[at + j] := a.z;
          case 'l' => data[at + j] := Blank(pt);
          case 'r' => data[at + j] := Colour(pt.r);
          case 'g' => data[at + j] := Colour(pt.g);
          case 'b' => data[at + j] := Colour(pt.b);
          case _ => return true;
        }
        assert data[..at + j + 1] == data[..at + j] + [v[j]];
        assert v[..j + 1] == v[..j] + [v[j]];
        j := j + 1;
      }
      assert v[..j] == v;
      return false;
    }

    /** The `for (int q = 0; q < samples_of_location; q++)` loop: `count` copies of one vector. */
    method WriteSamples(data: array<Int16>, at: int, a: Axes, pt: Point, count: int) returns (end: int, thrown: bool)
      requires 0 <= at && at + |Repeat(Vector(settings.signals, a, pt), count)| <= data.Length
      modifies data
      ensures thrown <==> !SignalsValid(settings.signals) && count > 0
      ensures !thrown ==> (end == at + |Repeat(Vector(settings.signals, a, pt), count)| &&
        data[..end] == old(data[..at]) + Repeat(Vector(settings.signals, a, pt), count))
    {
      hide Vector, SignalsValid, Repeat;
      var v := Vector(settings.signals, a, pt);
      ghost var start := data[..at];
      end := at;
      var q := 0;
      RepeatUnfold(v, 0);
      while q < count
        invariant 0 <= q <= if count > 0 then count else 0
        invariant !SignalsValid(settings.signals) ==> q == 0
        invariant end == at + |Repeat(v, q)| && end <= data.Length
        invariant data[..end] == start + Repeat(v, q)
      {
        RepeatGrows(v, q, q + 1);
        RepeatGrows(v, q + 1, count);
        thrown := WriteVector(data, end, a, pt);
        if thrown {
          return;
        }
        RepeatUnfold(v, q);
        end := end + |v|;
        q := q + 1;
      }
      RepeatUnfold(v, count);
      thrown := false;
    }

    /**
      One pass of the `for (int p = 1; p <= point_count_of_location; p++)` loop: interpolation
      step p of n, written `samples_of_location` times, the count point number pn + p - 1 gets.
    */
    method WriteStep(data: array<Int16>, at: int, ghost start: seq<Int16>, end: int, pn: nat,
                     last: Axes, target: Axes, pt: Point, n: int, p: int)
      returns (end': int, thrown: bool)
      requires settings.pps > 0 && settings.rate >= 0 && 1 <= p <= n
      requires 0 <= at && at + |Steps(settings, pn, last, target, pt, n, n)| <= data.Length
      requires end == at + |Steps(settings, pn, last, target, pt, n, p - 1)| && end <= data.Length
      requires data[..end] == start + Steps(settings, pn, last, target, pt, n, p - 1)
      modifies data
      ensures thrown ==> !SignalsValid(settings.signals) && |Steps(settings, pn, last, target, pt, n, p)| > 0
      ensures !thrown ==> (SignalsValid(settings.signals) ||
        |Steps(settings, pn, last, target, pt, n, p)| == |Steps(settings, pn, last, target, pt, n, p - 1)|)
      ensures !thrown ==> (end' == at + |Steps(settings, pn, last, target, pt, n, p)| && end' <= data.Length &&
        data[..end'] == start + Steps(settings, pn, last, target, pt, n, p))
    {
      hide InterpolateAxes, Vector, GroupSizeOfNthGroup;
      var a := InterpolateAxes(last, target, p, n);
      var count := GroupSizeOfNthGroup(settings.rate, settings.pps, pn + p - 1);
      ghost var v := Vector(settings.signals, a, pt);
      ghost var before := Steps(settings, pn, last, target, pt, n, p - 1);
      assert Steps(settings, pn, last, target, pt, n, p) == before + Repeat(v, count);
      StepsGrow(settings, pn, last, target, pt, n, p, n);
      end', thrown := WriteSamples(data, end, a, pt, count);
      if thrown {
        RepeatGrows(v, count - 1, count);
        return;
      }
      assert (start + before) + Repeat(v, count) == start + (before + Repeat(v, count));
    }

    /**
      The `for (int p = 1; p <= point_count_of_location; p++)` loop: n interpolation steps towards
      a location, point number after point number.
    */
    method WriteLocation(data: array<Int16>, at: int, pn: nat, last: Axes, target: Axes, pt: Point, n: int)
      returns (end: int, thrown: bool)
      requires settings.pps > 0 && settings.rate >= 0 && n > 0
      requires 0 <= at && at + |Steps(settings, pn, last, target, pt, n, n)| <= data.Length
      modifies data
      ensures thrown <==> !SignalsValid(settings.signals) && |Steps(settings, pn, last, target, pt, n, n)| > 0
      ensures !thrown ==> (end == at + |Steps(settings, pn, last, target, pt, n, n)| &&
        data[..end] == old(data[..at]) + Steps(settings, pn, last, target, pt, n, n))
    {
      hide InterpolateAxes, Vector, Repeat, SamplesOf, GroupSizeOfNthGroup;
      ghost var start := data[..at];
      ghost var done: seq<Int16> := [];
      end, thrown := at, false;
      var p := 1;
      while p <= n && !thrown
        invariant 1 <= p <= n + 1
        invariant thrown ==> !SignalsValid(settings.signals) && |Steps(settings, pn, last, target, pt, n, n)| > 0
        invariant !thrown ==> (done == Steps(settings, pn, last, target, pt, n, p - 1) &&
          end == at + |done| && end <= data.Length && data[..end] == start + done &&
          (SignalsValid(settings.signals) || |done| == 0))
      {
        end, thrown := WriteStep(data, at, start, end, pn, last, target, pt, n, p);
        if thrown {
          StepsGrow(settings, pn, last, target, pt, n, p, n);
        } else {
          done := Steps(settings, pn, last, target, pt, n, p);
        }
        p := p + 1;
      }
    }

    /**
      One pass of the `for (int i = 0; i < location_count; i++)` loop: location i, with its share
      of the frame's budget `pointCount`, skipped (`continue`) when that share is 0.
    */
    method WriteLocationOf(data: array<Int16>, ghost c0: Cursor, pointCount: int, pts: seq<Point>, i: nat,
                           sampleNumber: int, pointNumber: int, last: Axes)
      returns (sampleNumber': int, pointNumber': int, last': Axes, thrown: bool)
      requires settings.pps >= 0 && settings.rate >= 0 && (settings.pps == 0 ==> pointCount == 0)
      requires i < |pts| && 0 <= sampleNumber <= data.Length
      requires Written(settings, pointCount, c0, pts, i, Cursor(data[..sampleNumber], pointNumber, last))
      requires |Locations(settings, pointCount, c0, pts, i + 1).samples| <= data.Length
      modifies data
      ensures thrown ==> !SignalsValid(settings.signals) && |Locations(settings, pointCount, c0, pts, i + 1).samples| > 0
      ensures !thrown ==> (0 <= sampleNumber' <= data.Length &&
        Written(settings, pointCount, c0, pts, i + 1, Cursor(data[..sampleNumber'], pointNumber', last')))
    {
      hide Steps, GroupSizeOfNthGroup, Target, InterpolateAxes;
      GroupSizeOfZero(|pts|, i);
      var n := GroupSizeOfNthGroup(pointCount, |pts|, i);
      ghost var prev := Cursor(data[..sampleNumber], pointNumber, last);
      assert Locations(settings, pointCount, c0, pts, i + 1) == Location(settings, prev, pts[i], n);
      sampleNumber', pointNumber', last', thrown := sampleNumber, pointNumber, last, false;
      if n == 0 {
        return;
      }
      var target := Target(settings, pts[i]);
      if n > 0 {
        sampleNumber', thrown := WriteLocation(data, sampleNumber, pointNumber, last, target, pts[i], n);
        if thrown {
          return;
        }
        pointNumber' := pointNumber + n;
      }
      last' := target;
    }

    /** `frame_in_second`, the restart of `point_number` and `point_count` at the top of a frame. */
    method FrameStart(st: RunState) returns (pointNumber: int, pointCount: int)
      requires Sane(settings) && st.pointNumber >= 0
      ensures pointNumber == FirstPoint(settings, st) && pointNumber >= 0
      ensures pointCount == Budget(settings, st)
      ensures settings.pps == 0 ==> pointCount == 0
    {
      var frameInSecond := CMod(st.frameNumber, settings.fps);
      pointNumber := st.pointNumber;
      if frameInSecond == 0 {
        pointNumber := 0;
      }
      pointCount := GroupSizeOfNthGroup(settings.pps, settings.fps, frameInSecond);
      GroupSizeOfZero(settings.fps, frameInSecond);
    }

    /**
      The `for (int i = 0; i < location_count; i++)` loop of one frame, stopping at the first
      throw: the samples of all its locations in `data`, and where the loop leaves `point_number`
      and the last location.
    */
    method WriteLocations(data: array<Int16>, firstPoint: int, start: Axes, pointCount: int, pts: seq<Point>)
      returns (sampleNumber: int, pointNumber: int, last: Axes, thrown: bool)
      requires settings.pps >= 0 && settings.rate >= 0 && (settings.pps == 0 ==> pointCount == 0) && firstPoint >= 0
      requires |Locations(settings, pointCount, Cursor([], firstPoint, start), pts, |pts|).samples| <= data.Length
      modifies data
      ensures thrown <==> !SignalsValid(settings.signals) && |Locations(settings, pointCount, Cursor([], firstPoint, start), pts, |pts|).samples| > 0
      ensures !thrown ==> (0 <= sampleNumber <= data.Length &&
        Locations(settings, pointCount, Cursor([], firstPoint, start), pts, |pts|) == Cursor(data[..sampleNumber], pointNumber, last))
    {
      hide Location, GroupSizeOfNthGroup;
      ghost var c0 := Cursor([], firstPoint, start);
      sampleNumber, pointNumber, last, thrown := 0, firstPoint, start, false;
      var i := 0;
      while i < |pts|
        invariant 0 <= i <= |pts| && 0 <= sampleNumber <= data.Length
        invariant Written(settings, pointCount, c0, pts, i, Cursor(data[..sampleNumber], pointNumber, last))
      {
        LocationsGrow(settings, pointCount, c0, pts, i + 1, |pts|);
        sampleNumber, pointNumber, last, thrown :=
          WriteLocationOf(data, c0, pointCount, pts, i, sampleNumber, pointNumber, last);
        if thrown {
          return;
        }
        i := i + 1;
      }
    }

    /**
      One pass of `run`'s frame loop: the frame's samples in `data`, and the state after it. The
      loop over locations stops at the first throw.
    */
    method WriteFrame(data: array<Int16>, st: RunState, f: Frame) returns (sampleNumber: int, next: RunState, thrown: bool)
      requires Sane(settings) && st.pointNumber >= 0
      requires |FrameCursor(settings, st, f).samples| <= data.Length
      modifies data
      ensures thrown <==> FrameThrows(settings, st, f)
      ensures !thrown ==> (0 <= sampleNumber <= data.Length &&
        data[..sampleNumber] == FrameCursor(settings, st, f).samples && next == NextState(settings, st, f))
    {
      var pointNumber, pointCount := FrameStart(st);
      ghost var c0 := Cursor([], pointNumber, st.last);
      FrameIsLocations(settings, st, f, pointCount, c0);
      var last;
      sampleNumber, pointNumber, last, thrown := WriteLocations(data, pointNumber, st.last, pointCount, f.points);
      next := st;
      if !thrown {
        next := RunState(st.frameNumber + 1, pointNumber, last);
      }
    }

    /**
      One pass of `run`'s frame loop from the output's point of view: the frame is encoded into
      `data` and, unless it threw, its samples are appended to the output.
    */
    method EncodeFrame(data: array<Int16>, frames: seq<Frame>, i: nat, st: RunState, ghost samples: seq<Int16>)
      returns (next: RunState, byteCount: int, thrown: bool, ghost frameSamples: seq<Int16>)
      requires Sane(settings) && i < |frames|
      requires RunFrames(settings, frames[..i]) == Progress(st, samples, false)
      requires data.Length == settings.rate * ChannelCount(settings)
      modifies this, data
      ensures thrown ==> RunFrames(settings, frames[..i + 1]) == Progress(st, samples, true) && output == old(output)
      ensures !thrown ==> (RunFrames(settings, frames[..i + 1]) == Progress(next, samples + frameSamples, false) &&
        output == old(output) + SampleBytes(frameSamples) && byteCount == 2 * |frameSamples|)
    {
      RunFramesWithinSecond(settings, frames[..i]);
      FrameFitsBuffer(settings, st, frames[i]);
      MulAdd(settings.rate, 0, ChannelCount(settings));
      var sampleNumber;
      sampleNumber, next, thrown := WriteFrame(data, st, frames[i]);
      RunFramesStep(settings, frames, i);
      byteCount, frameSamples := 0, [];
      if !thrown {
        frameSamples := data[..sampleNumber];
        output := output + SampleBytes(data[..sampleNumber]);
        byteCount := 2 * sampleNumber;
      }
    }

    /** The start of `run`: the header with a zero data size, written to the empty output. */
    method Begin() returns (header: WavHeader)
      requires output == []
      modifies this
      ensures fresh(header) && header.State() == Updated(InitialHeader(settings), 0)
      ensures output == Serialise(header.State())
    {
      header := new WavHeader(ChannelCount(settings), settings.rate);
      header.Update(0);
      var le := header.LittleEndian();
      output := output + le;
    }

    /** The end of `run`: the header, updated with the size of the data, written over the first one. */
    method Finish(header: WavHeader, ghost samples: seq<Int16>, totalBytes: int)
      requires header.State() == Updated(InitialHeader(settings), 0)
      requires output == Serialise(header.State()) + SampleBytes(samples) && totalBytes == 2 * |samples|
      modifies this, header
      ensures output == Serialise(Updated(InitialHeader(settings), totalBytes)) + SampleBytes(samples)
    {
      UpdatedTwice(InitialHeader(settings), 0, totalBytes);
      header.Update(totalBytes);
      var le := header.LittleEndian();
      output := le + output[HEADER_SIZE..];
    }

    /**
      `run`'s loop over the input's frames: each frame's samples appended to the output, until the
      last frame or the first that throws.
    */
    method EncodeFrames(data: array<Int16>, frames: seq<Frame>) returns (thrown: bool, totalBytes: int, ghost samples: seq<Int16>)
      requires Sane(settings) && data.Length == settings.rate * ChannelCount(settings)
      modifies this, data
      ensures RunFrames(settings, frames).samples == samples && RunFrames(settings, frames).failed == thrown
      ensures output == old(output) + SampleBytes(samples) && totalBytes == 2 * |samples|
    {
      hide ChannelCount;
      var frameNumber, pointNumber, last := 0, 0, ORIGIN;
      thrown, totalBytes, samples := false, 0, [];
      var i := 0;
      while i < |frames|
        invariant 0 <= i <= |frames|
        invariant RunFrames(settings, frames[..i]) == Progress(RunState(frameNumber, pointNumber, last), samples, false)
        invariant output == old(output) + SampleBytes(samples) && totalBytes == 2 * |samples|
      {
        var next, byteCount;
        ghost var frameSamples;
        next, byteCount, thrown, frameSamples := EncodeFrame(data, frames, i, RunState(frameNumber, pointNumber, last), samples);
        if thrown {
          FailedStays(settings, Progress(START, [], false), frames, i + 1);
          return;
        }
        SampleBytesAppend(samples, frameSamples);
        assert output == old(output) + SampleBytes(samples + frameSamples);
        totalBytes := totalBytes + byteCount;
        samples := samples + frameSamples;
        frameNumber, pointNumber, last := next.frameNumber, next.pointNumber, next.last;
        i := i + 1;
      }
      assert frames[..i] == frames;
    }

    /**
      `run()`: the header with a zero data size, then each frame's samples as it is encoded, then
      the header again, rewritten in place with the size of the data. An invalid signal character
      ends the run with the error, leaving what was written so far.
    */
    method Run(frames: seq<Frame>) returns (r: Result<int, RunError>)
      requires Sane(settings) && output == []
      modifies this
      ensures (output, r) == Output(settings, frames)
    {
      var header := Begin();
      var channelCount := ChannelCount(settings);
      MulNonNegative(settings.rate, channelCount);
      var data := new Int16[settings.rate * channelCount];
      var thrown, totalBytes;
      ghost var samples;
      thrown, totalBytes, samples := EncodeFrames(data, frames);
      OutputOf(settings, frames, RunFrames(settings, frames));
      if thrown {
        return Err(InvalidSignal);
      }
      Finish(header, samples, totalBytes);
      return Ok(0);
    }
  }
}

=== FILE: memory_cycle.dfy ===
/**
  `memory_cycle` of the Rust tools (src/bin/common/memory_cycle.rs): an iterator adapter that
  passes on what its source yields while keeping a copy of each item, and once the source is
  exhausted replays the copies round and round.

  The source is the sequence of items it yields before its first `None`; the model takes it to
  stay exhausted after that, so every later call of its `next` is `None` again. `cycling` is a
  `usize` of a 64-bit target, with the wrapping arithmetic of a release build.
*/
module MemoryCycle {
  import opened Wrappers
  import opened CInt

  /** 2^64: `usize` arithmetic of a release build wraps modulo this. */
  const USIZE_MODULUS: nat := 0x1_0000_0000_0000_0000

  /** `a - b` and `a + b` on `usize`, wrapping. */
  function WrappingSub(a: nat, b: nat): (r: nat)
    ensures r < USIZE_MODULUS
    ensures a < USIZE_MODULUS && b <= a ==> r == a - b
  {
    (a - b) % USIZE_MODULUS
  }

  function WrappingAdd(a: nat, b: nat): (r: nat)
    ensures r < USIZE_MODULUS
    ensures a + b < USIZE_MODULUS ==> r == a + b
  {
    (a + b) % USIZE_MODULUS
  }

  /** Where a replay stands after k steps round n copies. */
  function Slot(k: nat, n: nat): (r: nat)
    requires n > 0
    ensures r < n
    ensures k < n ==> r == k
  {
    k % n
  }

  /** One step more moves the replay on by one, back to the first copy after the last. */
  lemma SlotSucc(k: nat, n: nat)
    requires n > 0
    ensures Slot(k + 1, n) == if Slot(k, n) == n - 1 then 0 else Slot(k, n) + 1
  {
    ModSucc(k, n);
  }

  /**
    What call k (from 0) of the adapter's `next` returns for a source that yields `source`: the
    source's own items first, then, from its second item (or its only one), the source's items
    round and round; nothing at all for an empty source.
  */
  function Output<T>(source: seq<T>, k: nat): Option<T> {
    if k < |source| then Some(source[k])
    else if |source| == 0 then None
    else Some(source[Slot(k - |source| + 1, |source|)])
  }

  /** The first calls hand on the source's items unchanged, in order. */
  lemma PassesSourceOn<T>(source: seq<T>, k: nat)
    requires k < |source|
    ensures Output(source, k) == Some(source[k])
  {
  }

  /** Once a non-empty source is exhausted the adapter never returns `None`. */
  lemma ReplayNeverEnds<T>(source: seq<T>, k: nat)
    requires |source| > 0
    ensures Output(source, k).Some?
    ensures Output(source, k).value in source
  {
  }

  /**
    The replay starts at the source's second item, not its first: `cycling` is stepped before it
    is used. A source of one item replays that item.
  */
  lemma ReplayStartsAtSecond<T>(source: seq<T>)
    requires |source| > 0
    ensures |source| >= 2 ==> Output(source, |source|) == Some(source[1])
    ensures |source| == 1 ==> Output(source, 1) == Some(source[0])
  {
  }

  /** After the source is exhausted the outputs repeat with the source's length as period. */
  lemma ReplayIsPeriodic<T>(source: seq<T>, k: nat)
    requires |source| > 0 && k >= |source|
    ensures Output(source, k + |source|) == Output(source, k)
  {
    var n := |source|;
    var a := k - n + 1;
    assert (a + n) % n == a % n by { ModAddDivisor(a, n); }
  }

  /** An empty source gives an adapter that returns `None` on every call. */
  lemma EmptySourceGivesNothing<T>(source: seq<T>, k: nat)
    requires |source| == 0
    ensures Output(source, k) == None
  {
  }

  lemma ModAddDivisor(a: nat, n: nat)
    requires n > 0
    ensures (a + n) % n == a % n
  {
    var q := a / n;
    assert (q + 1) * n == q * n + n;
    DivModUnique(a + n, n, q + 1, a % n);
  }

  /** Stepping a remainder by one, as `cycling` is stepped: back to 0 after n - 1. */
  lemma ModSucc(a: nat, n: nat)
    requires n > 0
    ensures (a + 1) % n == if a % n == n - 1 then 0 else a % n + 1
  {
    var q := a / n;
    assert (q + 1) * n == q * n + n;
    if a % n == n - 1 {
      DivModUnique(a + 1, n, q + 1, 0);
    } else {
      DivModUnique(a + 1, n, q, a % n + 1);
    }
  }

  /** `MemoryCycleIterator`: the source still to come, the copies kept and the replay index. */
  class MemoryCycleIterator<T> {
    /** Everything the source yields, and the number of `next` calls made so far. */
    ghost const source: seq<T>
    ghost var calls: nat

    var upstream: seq<T>
    var cycling: nat
    var items: seq<T>

    /**
      The copies are what has been handed on so far, and once the source is exhausted they are
      all of it; after call `calls` of the replay, `cycling` is where the last replayed item was.
    */
    ghost predicate Valid()
      reads this
    {
      items + upstream == source &&
      |items| == (if calls < |source| then calls else |source|) &&
      |source| < USIZE_MODULUS && cycling < USIZE_MODULUS &&
      (calls <= |source| ==> cycling == 0) &&
      (calls >= |source| > 0 ==> cycling == Slot(calls - |source|, |source|))
    }

    /** `memory_cycle()`: no copies yet and `cycling` at 0. */
    constructor (source: seq<T>)
      requires |source| < USIZE_MODULUS
      ensures Valid() && this.source == source && calls == 0
      ensures upstream == source && items == [] && cycling == 0
    {
      this.source := source;
      calls := 0;
      upstream := source;
      cycling := 0;
      items := [];
    }

    /** `next()`: call number `calls` returns what `Output` says it does. */
    method Next() returns (r: Option<T>)
      requires Valid()
      modifies this
      ensures Valid() && calls == old(calls) + 1
      ensures r == Output(source, old(calls))
      ensures old(upstream) == [] ==> items == old(items)
    {
      if upstream != [] {
        var item := upstream[0];
        upstream := upstream[1..];
        items := items + [item];
        calls := calls + 1;
        assert (old(items) + [item]) + upstream == old(items) + old(upstream);
        return Some(item);
      }
      assert items == source && calls >= |source|;
      var n := |items|;
      ghost var k := calls - n;
      hide Slot;
      if n > 0 {
        SlotSucc(k, n);
      }
      if cycling == WrappingSub(n, 1) {
        cycling := 0;
      } else {
        cycling := WrappingAdd(cycling, 1);
      }
      assert n > 0 ==> cycling == Slot(k + 1, n);
      calls := calls + 1;
      r := if cycling < |items| then Some(items[cycling]) else None;
    }
  }
}

=== FILE: point_decoder.dfy ===
/**
  The point side of src/bin/ildawav2ilda.rs: `to_point` turns one normalised sample vector (one
  value per character of the mapping string) back into a point, and the two readers group the
  PCM samples of a file into such vectors.

  f64 is modelled as exact `real` arithmetic; the inputs are finite (a sample divided by a
  positive maximum), so Rust's saturating float-to-int casts never see NaN.
*/
module PointDecoder {
  import opened Wrappers
  import opened Bytes
  import opened ChannelMap
  import Utf8

  /** The errors of the decoder that the model produces. */
  datatype DecodeError = InvalidChannel(c: char) | UnsupportedBitsPerSample

  /** The characters `to_point` accepts: no `1` and no `0`. */
  const DECODER_CHARS: string := "xXyYrgbl_"

  /** Truncation toward zero, the first half of Rust's `f64 as` integer casts. */
  function Trunc(v: real): (t: int)
    ensures v >= 0.0 ==> t as real <= v < t as real + 1.0
    ensures v < 0.0 ==> t as real - 1.0 < v <= t as real
  {
    if v >= 0.0 then v.Floor else -((-v).Floor)
  }

  /** `v as i16`: truncated toward zero, then saturated at the ends of the i16 range. */
  function CastI16(v: real): (r: I16)
    ensures -32768.0 < v < 32768.0 ==> r == Trunc(v)
    ensures v >= 32767.0 ==> r == 32767
    ensures v <= -32768.0 ==> r == -32768
  {
    var t := Trunc(v);
    if t > 32767 then 32767 else if t < -32768 then -32768 else t
  }

  /** `v as u8`: truncated toward zero, then saturated at 0 and 255. */
  function CastU8(v: real): (r: U8)
    ensures -1.0 < v < 256.0 ==> r == if v < 0.0 then 0 else Trunc(v)
    ensures v >= 255.0 ==> r == 255
    ensures v <= 0.0 ==> r == 0
  {
    var t := Trunc(v);
    if t > 255 then 255 else if t < 0 then 0 else t
  }

  /** The axis value of `x`/`y` (or, negated first, `X`/`Y`). */
  function AxisOf(v: real, inverted: bool): I16 {
    CastI16((if inverted then -v else v) * I16_MAX as real)
  }

  /** The colour value of `r`, `g` or `b`. */
  function ColourOf(v: real): U8 {
    CastU8((v + 1.0) / 2.0 * U8_MAX as real)
  }

  /** `has_color`: whether the mapping names any colour channel. */
  predicate HasColour(conf: string) {
    'r' in conf || 'g' in conf || 'b' in conf
  }

  /** The point `to_point` starts from: origin, not blanked, white unless some colour is mapped. */
  function DefaultPoint(conf: string): (p: Point)
    ensures p.x == 0 && p.y == 0 && !p.isBlank
    ensures HasColour(conf) ==> p.r == 0 && p.g == 0 && p.b == 0
    ensures !HasColour(conf) ==> p.r == 255 && p.g == 255 && p.b == 255
  {
    var c := if HasColour(conf) then 0 else 255;
    Point(0, 0, c, c, c, false)
  }

  /** One arm of the character match: the field the channel writes, or `InvalidChannel`. */
  function DecodeChannel(p: Point, c: char, v: real): (r: Result<Point, DecodeError>)
    ensures r.Err? <==> c !in DECODER_CHARS
    ensures r.Err? ==> r.error == InvalidChannel(c)
  {
    match c
    case 'x' => Ok(p.(x := AxisOf(v, false)))
    case 'X' => Ok(p.(x := AxisOf(v, true)))
    case 'y' => Ok(p.(y := AxisOf(v, false)))
    case 'Y' => Ok(p.(y := AxisOf(v, true)))
    case 'r' => Ok(p.(r := ColourOf(v)))
    case 'g' => Ok(p.(g := ColourOf(v)))
    case 'b' => Ok(p.(b := ColourOf(v)))
    case 'l' => Ok(p.(isBlank := v < 0.0))
    case '_' => Ok(p)
    case _ => Err(InvalidChannel(c))
  }

  /** The loop of `to_point` after its first k channels, starting from `p`. */
  function DecodePrefix(p: Point, input: seq<real>, conf: string, k: nat): Result<Point, DecodeError>
    requires k <= |conf| == |input|
  {
    if k == 0 then Ok(p)
    else
      match DecodePrefix(p, input, conf, k - 1)
      case Err(e) => Err(e)
      case Ok(q) => DecodeChannel(q, conf[k - 1], input[k - 1])
  }

  /** `to_point` as a value. */
  function ToPointSpec(input: seq<real>, conf: string): Result<Point, DecodeError>
    requires |input| == |conf|
  {
    DecodePrefix(DefaultPoint(conf), input, conf, |conf|)
  }

  /** Once a channel is refused, the rest of the mapping does not matter. */
  lemma {:induction false} ErrorSticks(p: Point, input: seq<real>, conf: string, k: nat, k': nat)
    requires k <= k' <= |conf| == |input| && DecodePrefix(p, input, conf, k).Err?
    ensures DecodePrefix(p, input, conf, k') == DecodePrefix(p, input, conf, k)
    decreases k' - k
  {
    if k < k' {
      ErrorSticks(p, input, conf, k, k' - 1);
    }
  }

  /** `to_point`: the mapping is walked in order, each channel overwriting its own field. */
  method ToPoint(input: seq<real>, conf: string) returns (r: Result<Point, DecodeError>)
    requires |input| == |conf|
    ensures r == ToPointSpec(input, conf)
  {
    var hasColour := 'r' in conf || 'g' in conf || 'b' in conf;
    var result := Point(0, 0, if hasColour then 0 else 255, if hasColour then 0 else 255,
                        if hasColour then 0 else 255, false);
    for i := 0 to |conf|
      invariant DecodePrefix(DefaultPoint(conf), input, conf, i) == Ok(result)
    {
      var c := conf[i];
      match c {
        case 'x' => result := result.(x := CastI16(input[i] * I16_MAX as real));
        case 'X' => result := result.(x := CastI16(-input[i] * I16_MAX as real));
        case 'y' => result := result.(y := CastI16(input[i] * I16_MAX as real));
        case 'Y' => result := result.(y := CastI16(-input[i] * I16_MAX as real));
        case 'r' => result := result.(r := CastU8((input[i] + 1.0) / 2.0 * U8_MAX as real));
        case 'g' => result := result.(g := CastU8((input[i] + 1.0) / 2.0 * U8_MAX as real));
        case 'b' => result := result.(b := CastU8((input[i] + 1.0) / 2.0 * U8_MAX as real));
        case 'l' => result := result.(isBlank := input[i] < 0.0);
        case '_' =>
        case _ =>
          ErrorSticks(DefaultPoint(conf), input, conf, i + 1, |conf|);
          return Err(InvalidChannel(c));
      }
    }
    return Ok(result);
  }

  /** The first character of the mapping that `to_point` refuses, if any. */
  function FirstInvalid(conf: string): (r: Option<nat>)
    ensures r.None? <==> forall i :: 0 <= i < |conf| ==> conf[i] in DECODER_CHARS
    ensures r.Some? ==> r.value < |conf| && conf[r.value] !in DECODER_CHARS &&
                        (forall i :: 0 <= i < r.value ==> conf[i] in DECODER_CHARS)
  {
    if conf == [] then None
    else if conf[0] !in DECODER_CHARS then Some(0)
    else match FirstInvalid(conf[1..])
      case None => None
      case Some(i) => Some(i + 1)
  }

  /**
    `to_point` fails exactly when the mapping holds a character outside `x X y Y r g b l _`
    (so `1` and `0`, which the encoder writes, are refused), and it names the first one.
  */
  lemma {:induction false} ToPointFails(input: seq<real>, conf: string)
    requires |input| == |conf|
    ensures ToPointSpec(input, conf).Err? <==> FirstInvalid(conf).Some?
    ensures FirstInvalid(conf).Some? ==>
      ToPointSpec(input, conf) == Err(InvalidChannel(conf[FirstInvalid(conf).value]))
  {
    var p := DefaultPoint(conf);
    match FirstInvalid(conf)
    case None =>
      PrefixValid(p, input, conf, |conf|);
    case Some(i) =>
      PrefixValid(p, input, conf, i);
      ErrorSticks(p, input, conf, i + 1, |conf|);
  }

  /** Over characters that are all accepted, the loop never fails. */
  lemma {:induction false} PrefixValid(p: Point, input: seq<real>, conf: string, k: nat)
    requires k <= |conf| == |input|
    requires forall i :: 0 <= i < k ==> conf[i] in DECODER_CHARS
    ensures DecodePrefix(p, input, conf, k).Ok?
  {
    if k > 0 {
      PrefixValid(p, input, conf, k - 1);
    }
  }

  /** The index of the last of the first k characters that lies in `cs`, if any. */
  function LastOf(conf: string, cs: set<char>, k: nat): (r: Option<nat>)
    requires k <= |conf|
    ensures r.Some? ==> r.value < k && conf[r.value] in cs &&
                        (forall j :: r.value < j < k ==> conf[j] !in cs)
    ensures r.None? ==> forall j :: 0 <= j < k ==> conf[j] !in cs
  {
    if k == 0 then None
    else if conf[k - 1] in cs then Some(k - 1)
    else LastOf(conf, cs, k - 1)
  }

  /** The six fields of a point a channel can write. */
  datatype Field = FieldX | FieldY | FieldR | FieldG | FieldB | FieldBlank

  /** The characters that write a field. */
  function FieldChars(f: Field): set<char> {
    match f
    case FieldX => {'x', 'X'}
    case FieldY => {'y', 'Y'}
    case FieldR => {'r'}
    case FieldG => {'g'}
    case FieldB => {'b'}
    case FieldBlank => {'l'}
  }

  /** The encoder channels that carry a field. */
  function FieldChannels(f: Field): set<Channel> {
    match f
    case FieldX => {AxisX, AxisXInverted}
    case FieldY => {AxisY, AxisYInverted}
    case FieldR => {Red}
    case FieldG => {Green}
    case FieldB => {Blue}
    case FieldBlank => {Blank}
  }

  /** A field of a point as a number (the blank flag as 1 or 0). */
  function FieldOf(q: Point, f: Field): int {
    match f
    case FieldX => q.x
    case FieldY => q.y
    case FieldR => q.r
    case FieldG => q.g
    case FieldB => q.b
    case FieldBlank => if q.isBlank then 1 else 0
  }

  /** The value an accepted character writes into its field for the sample v. */
  function Written(c: char, v: real): int {
    match c
    case 'x' => AxisOf(v, false)
    case 'X' => AxisOf(v, true)
    case 'y' => AxisOf(v, false)
    case 'Y' => AxisOf(v, true)
    case 'l' => if v < 0.0 then 1 else 0
    case _ => ColourOf(v)
  }

  /** Each accepted character writes its own field and leaves the others alone. */
  lemma DecodeChannelFields(p: Point, c: char, v: real, f: Field)
    requires c in DECODER_CHARS
    ensures FieldOf(DecodeChannel(p, c, v).value, f) ==
      if c in FieldChars(f) then Written(c, v) else FieldOf(p, f)
  {
  }

  /**
    Each field of the decoded point is written by the LAST channel of the mapping that names it,
    and keeps its default when no channel does; `_` writes nothing.
  */
  lemma {:induction false} LastChannelWins(p: Point, input: seq<real>, conf: string, k: nat, f: Field)
    requires k <= |conf| == |input| && DecodePrefix(p, input, conf, k).Ok?
    ensures FieldOf(DecodePrefix(p, input, conf, k).value, f) ==
      match LastOf(conf, FieldChars(f), k)
      case None => FieldOf(p, f)
      case Some(i) => Written(conf[i], input[i])
  {
    if k > 0 {
      var q0 := DecodePrefix(p, input, conf, k - 1).value;
      LastChannelWins(p, input, conf, k - 1, f);
      DecodeChannelFields(q0, conf[k - 1], input[k - 1], f);
    }
  }

  /**
    One channel round trip: the value a decoder channel reads back from what the encoder's mapper
    wrote is the field the mapper encoded (coordinates, intensities and the blank flag exactly).
  */
  lemma ChannelRoundTrip(ch: Channel, p: Point, f: Field)
    requires ch in FieldChannels(f)
    ensures Written(ChannelChar(ch), MapValue(ch, p)) == FieldOf(p, f)
  {
  }

  /** The channels both sides understand: every encoder channel except the constants `1` and `0`. */
  predicate Decodable(chs: seq<Channel>) {
    forall i :: 0 <= i < |chs| ==> !chs[i].High? && !chs[i].Low?
  }

  /** Whether some channel of the list is one of `wanted`. */
  predicate Names(chs: seq<Channel>, wanted: set<Channel>) {
    exists i :: 0 <= i < |chs| && chs[i] in wanted
  }

  /** A decodable mapping is accepted by the decoder. */
  lemma DecodesMapping(chs: seq<Channel>, p: Point)
    requires Decodable(chs)
    ensures ToPointSpec(MapPoint(chs, p), MappingString(chs)).Ok?
  {
    var conf := MappingString(chs);
    forall i | 0 <= i < |conf|
      ensures conf[i] in DECODER_CHARS
    {
      ChannelCharRoundTrip(chs[i]);
    }
    PrefixValid(DefaultPoint(conf), MapPoint(chs, p), conf, |conf|);
  }

  /** A channel carries a field exactly when the character it is written as writes that field. */
  lemma FieldCharsOfChannels(f: Field)
    ensures forall ch :: ChannelChar(ch) in FieldChars(f) <==> ch in FieldChannels(f)
  {
    forall ch: Channel
      ensures ChannelChar(ch) in FieldChars(f) <==> ch in FieldChannels(f)
    {
      match f
      case FieldX =>
      case FieldY =>
      case FieldR =>
      case FieldG =>
      case FieldB =>
      case FieldBlank =>
    }
  }

  /** The round trip for one field over a whole mapping. */
  lemma FieldRoundTrip(chs: seq<Channel>, p: Point, f: Field)
    requires Decodable(chs)
    ensures var conf := MappingString(chs);
      var q := ToPointSpec(MapPoint(chs, p), conf);
      q.Ok? &&
      FieldOf(q.value, f) == if Names(chs, FieldChannels(f)) then FieldOf(p, f) else FieldOf(DefaultPoint(conf), f)
  {
    hide Written, MapValue, DecodeChannel, AxisOf, ColourOf, FieldOf;
    var conf := MappingString(chs);
    DecodesMapping(chs, p);
    LastChannelWins(DefaultPoint(conf), MapPoint(chs, p), conf, |conf|, f);
    FieldCharsOfChannels(f);
    NamedIffWritten(chs, FieldChannels(f), FieldChars(f));
    if LastOf(conf, FieldChars(f), |conf|).Some? {
      ChannelRoundTrip(chs[LastOf(conf, FieldChars(f), |conf|).value], p, f);
    }
  }

  /**
    The decoder inverts the encoder's mappers: decoding the vector the encoder writes for p
    under the same mapping gives p back on every field some channel carries, and the decoder's
    defaults on the others.
  */
  lemma MappersRoundTrip(chs: seq<Channel>, p: Point)
    requires Decodable(chs)
    ensures var q := ToPointSpec(MapPoint(chs, p), MappingString(chs));
      var d := DefaultPoint(MappingString(chs));
      q.Ok? &&
      q.value.x == (if Names(chs, {AxisX, AxisXInverted}) then p.x else 0) &&
      q.value.y == (if Names(chs, {AxisY, AxisYInverted}) then p.y else 0) &&
      q.value.r == (if Names(chs, {Red}) then p.r else d.r) &&
      q.value.g == (if Names(chs, {Green}) then p.g else d.g) &&
      q.value.b == (if Names(chs, {Blue}) then p.b else d.b) &&
      q.value.isBlank == (Names(chs, {Blank}) && p.isBlank)
  {
    FieldRoundTrip(chs, p, FieldX);
    FieldRoundTrip(chs, p, FieldY);
    FieldRoundTrip(chs, p, FieldR);
    FieldRoundTrip(chs, p, FieldG);
    FieldRoundTrip(chs, p, FieldB);
    FieldRoundTrip(chs, p, FieldBlank);
  }

  /** A channel list names a channel of `wanted` exactly when its string holds one of their characters. */
  lemma NamedIffWritten(chs: seq<Channel>, wanted: set<Channel>, cs: set<char>)
    requires forall ch :: ChannelChar(ch) in cs <==> ch in wanted
    ensures Names(chs, wanted) <==> LastOf(MappingString(chs), cs, |chs|).Some?
  {
    var conf := MappingString(chs);
    if Names(chs, wanted) {
      var i :| 0 <= i < |chs| && chs[i] in wanted;
      assert conf[i] in cs;
    }
    if LastOf(conf, cs, |chs|).Some? {
      var i := LastOf(conf, cs, |chs|).value;
      assert ChannelChar(chs[i]) in cs;
    }
  }

  /** What main accepts for `--bps` of raw input: bytes per sample, or `UnsupportedBitsPerSample`. */
  function BytesPerSample(bits: nat): (r: Result<nat, DecodeError>)
    ensures r.Ok? <==> bits in {8, 16, 32}
    ensures r.Ok? ==> r.value * 8 == bits
    ensures r.Err? ==> r.error == UnsupportedBitsPerSample
  {
    if bits == 8 then Ok(1)
    else if bits == 16 then Ok(2)
    else if bits == 32 then Ok(4)
    else Err(UnsupportedBitsPerSample)
  }

  /** `i8::MAX`, `i16::MAX`, `i32::MAX`: the divisor of a sample of that many bytes. */
  function SampleMax(width: nat): (m: int)
    requires width in {1, 2, 4}
    ensures m == Half(width) - 1
  {
    if width == 1 then 127 else if width == 2 then 32767 else 2147483647
  }

  /** A raw sample read little-endian and divided by its type's maximum. */
  function Normalise(bs: seq<Byte>): (v: real)
    requires |bs| in {1, 2, 4}
    ensures v * SampleMax(|bs|) as real == LeSigned(bs) as real
    ensures -1.0 - 1.0 / SampleMax(|bs|) as real <= v <= 1.0
  {
    LeSigned(bs) as real / SampleMax(|bs|) as real
  }

  /**
    n raw samples of `width` bytes each, normalised, and the bytes after them; `None` when the
    input ends before the n-th sample is complete.
  */
  function ReadSamples(input: seq<Byte>, width: nat, n: nat): (r: Option<(seq<real>, seq<Byte>)>)
    requires width in {1, 2, 4}
    ensures r.Some? ==> |r.value.0| == n
  {
    if n == 0 then Some(([], input))
    else if |input| < width then None
    else
      Prepend([Normalise(input[..width])], ReadSamples(input[width..], width, n - 1))
  }

  /** Samples already read in front of what the rest of a read yields; an end of input stays one. */
  function Prepend(done: seq<real>, r: Option<(seq<real>, seq<Byte>)>): (r': Option<(seq<real>, seq<Byte>)>)
    ensures r'.Some? <==> r.Some?
    ensures r.Some? ==> r'.value == (done + r.value.0, r.value.1)
  {
    match r
    case None => None
    case Some((vs, rest)) => Some((done + vs, rest))
  }

  lemma PrependTwice(a: seq<real>, b: seq<real>, r: Option<(seq<real>, seq<Byte>)>)
    ensures Prepend(a, Prepend(b, r)) == Prepend(a + b, r)
  {
    if r.Some? {
      assert a + (b + r.value.0) == (a + b) + r.value.0;
    }
  }

  lemma PrependNothing(r: Option<(seq<real>, seq<Byte>)>)
    ensures Prepend([], r) == r
  {
    if r.Some? {
      assert [] + r.value.0 == r.value.0;
    }
  }

  /**
    Reading n samples ends the stream exactly when fewer than n * width bytes are left; otherwise
    it takes exactly the first n * width bytes, the i-th sample from bytes i * width onwards.
  */
  lemma ReadSamplesConsumes(input: seq<Byte>, width: nat, n: nat)
    requires width in {1, 2, 4}
    ensures ReadSamples(input, width, n).None? <==> |input| < n * width
    ensures ReadSamples(input, width, n).Some? ==> ReadSamples(input, width, n).value.1 == input[n * width..]
  {
    hide Normalise, Prepend;
    ReadSamplesTake(input, width, n, n * width);
  }

  /** ReadSamplesConsumes with the byte count n * width named `total`. */
  lemma {:induction false} ReadSamplesTake(input: seq<Byte>, width: nat, n: nat, total: nat)
    requires width in {1, 2, 4} && total == n * width
    ensures ReadSamples(input, width, n).None? <==> |input| < total
    ensures ReadSamples(input, width, n).Some? ==> ReadSamples(input, width, n).value.1 == input[total..]
  {
    hide Normalise, Prepend;
    if n > 0 {
      OneLess(n, width, total);
      if |input| >= width {
        ReadSamplesTake(input[width..], width, n - 1, total - width);
      }
    }
  }

  /** The i-th normalised sample comes from the i-th group of `width` bytes. */
  lemma ReadSamplesValues(input: seq<Byte>, width: nat, n: nat, i: nat)
    requires width in {1, 2, 4} && i < n && ReadSamples(input, width, n).Some?
    ensures (i + 1) * width <= |input|
    ensures ReadSamples(input, width, n).value.0[i] == Normalise(input[i * width..(i + 1) * width])
  {
    hide Normalise;
    var at, next := i * width, (i + 1) * width;
    MulSucc(i, width);
    ReadSamplesAt(input, width, n, i, at);
    assert input[at..at + width] == input[at..next];
  }

  /** ReadSamplesValues with the offset i * width named `at`. */
  lemma {:induction false} ReadSamplesAt(input: seq<Byte>, width: nat, n: nat, i: nat, at: nat)
    requires width in {1, 2, 4} && i < n && ReadSamples(input, width, n).Some? && at == i * width
    ensures at + width <= |input|
    ensures ReadSamples(input, width, n).value.0[i] == Normalise(input[at..at + width])
  {
    hide Normalise, Prepend;
    var rest := ReadSamples(input[width..], width, n - 1);
    assert ReadSamples(input, width, n) == Prepend([Normalise(input[..width])], rest);
    if i > 0 {
      MulSucc(i - 1, width);
      ReadSamplesAt(input[width..], width, n - 1, i - 1, at - width);
      SliceOfRest(input, width, at - width);
    }
  }

  /** n groups of k, less one group, are n - 1 groups and no fewer than none. */
  lemma OneLess(n: nat, k: nat, total: nat)
    requires n > 0 && total == n * k
    ensures total - k == (n - 1) * k && total >= k
  {
    MulSucc(n - 1, k);
    MulMonoNat(0, n - 1, k);
  }

  lemma MulSucc(x: int, k: int)
    ensures (x + 1) * k == x * k + k
  {
  }

  lemma SliceOfRest(input: seq<Byte>, w: nat, a: nat)
    requires w + a + w <= |input|
    ensures input[w..][a..a + w] == input[w + a..w + a + w]
  {
  }

  lemma MulMonoNat(a: nat, b: nat, k: nat)
    requires a <= b
    ensures a * k <= b * k
  {
  }

  /**
    `SimplePointRawReader::next` as a value: the point it yields and the bytes left. It reads one
    sample per UTF-8 byte of the mapping and decodes the first `|conf|` of them, one per channel.
    An end of input in any of the point's samples ends the stream (`None`), drops the partial
    point and leaves nothing to read.
  */
  function RawNextSpec(input: seq<Byte>, width: nat, conf: string): (Option<Result<Point, DecodeError>>, seq<Byte>)
    requires width in {1, 2, 4}
  {
    match ReadSamples(input, width, Utf8.Len(conf))
    case None => (None, [])
    case Some((vs, rest)) => (Some(ToPointSpec(vs[..|conf|], conf)), rest)
  }

  /** The raw reader: the unread input, the sample width in bytes, and the mapping. */
  class RawReader {
    var input: seq<Byte>
    const width: nat
    const conf: string

    constructor (input: seq<Byte>, width: nat, conf: string)
      requires width in {1, 2, 4}
      ensures this.input == input && this.width == width && this.conf == conf
    {
      this.input, this.width, this.conf := input, width, conf;
    }

    /** `next`: read one sample per byte of the mapping, then decode the first one per channel. */
    method Next() returns (r: Option<Result<Point, DecodeError>>)
      requires width in {1, 2, 4}
      modifies this
      ensures (r, input) == RawNextSpec(old(input), width, conf)
    {
      ghost var input0 := input;
      var normalised: seq<real> := [];
      var count := Utf8.Len(conf);
      PrependNothing(ReadSamples(input, width, count));
      for i := 0 to count
        invariant ReadSamples(input0, width, count) == Prepend(normalised, ReadSamples(input, width, count - i))
      {
        if |input| < width {
          input := [];
          return None;
        }
        var value := Normalise(input[..width]);
        PrependTwice(normalised, [value], ReadSamples(input[width..], width, count - i - 1));
        input := input[width..];
        normalised := normalised + [value];
      }
      assert normalised + [] == normalised;
      var point := ToPoint(normalised[..|conf|], conf);
      r := Some(point);
    }
  }

  /**
    `n` samples from hound, already decoded to integers, divided by the maximum of their bit
    depth; `None` when hound runs out first, `UnsupportedBitsPerSample` as soon as a sample
    arrives with a depth other than 8, 16 or 32.
  */
  function HoundSamples(samples: seq<int>, bits: nat, n: nat): (r: (Option<Result<seq<real>, DecodeError>>, seq<int>))
    ensures r.0.Some? && r.0.value.Ok? ==> |r.0.value.value| == n
    ensures r.0.Some? && r.0.value.Err? ==> r.0.value.error == UnsupportedBitsPerSample
  {
    if n == 0 then (Some(Ok([])), samples)
    else if samples == [] then (None, samples)
    else if bits !in {8, 16, 32} then (Some(Err(UnsupportedBitsPerSample)), samples[1..])
    else
      var v := samples[0] as real / SampleMax(bits / 8) as real;
      HPrepend([v], HoundSamples(samples[1..], bits, n - 1))
  }

  /** Samples already read in front of what the rest of a hound read yields; an end or an error stays one. */
  function HPrepend(done: seq<real>, r: (Option<Result<seq<real>, DecodeError>>, seq<int>)): (r': (Option<Result<seq<real>, DecodeError>>, seq<int>))
    ensures r'.1 == r.1
    ensures r.0.Some? && r.0.value.Ok? ==> r'.0 == Some(Ok(done + r.0.value.value))
    ensures !(r.0.Some? && r.0.value.Ok?) ==> r' == r
  {
    match r
    case (Some(Ok(vs)), rest) => (Some(Ok(done + vs)), rest)
    case other => other
  }

  lemma HPrependTwice(a: seq<real>, b: seq<real>, r: (Option<Result<seq<real>, DecodeError>>, seq<int>))
    ensures HPrepend(a, HPrepend(b, r)) == HPrepend(a + b, r)
  {
    if r.0.Some? && r.0.value.Ok? {
      assert a + (b + r.0.value.value) == (a + b) + r.0.value.value;
    }
  }

  lemma HPrependNothing(r: (Option<Result<seq<real>, DecodeError>>, seq<int>))
    ensures HPrepend([], r) == r
  {
    if r.0.Some? && r.0.value.Ok? {
      assert [] + r.0.value.value == r.0.value.value;
    }
  }

  /** `SimplePointHoundReader::next` as a value: the point it yields and the samples left. */
  function HoundNextSpec(samples: seq<int>, bits: nat, conf: string): (Option<Result<Point, DecodeError>>, seq<int>) {
    match HoundSamples(samples, bits, Utf8.Len(conf))
    case (None, rest) => (None, rest)
    case (Some(Err(e)), rest) => (Some(Err(e)), rest)
    case (Some(Ok(vs)), rest) => (Some(ToPointSpec(vs[..|conf|], conf)), rest)
  }

  /**
    With a supported depth the hound reader, like the raw one, takes exactly n samples (n is the
    mapping's UTF-8 length) or ends the stream; with any other depth it fails on the first sample it gets.
  */
  lemma {:induction false} HoundSamplesConsume(samples: seq<int>, bits: nat, n: nat)
    ensures var (r, rest) := HoundSamples(samples, bits, n);
      (bits in {8, 16, 32} ==>
        (r.None? <==> |samples| < n) && (r.Some? ==> r.value.Ok? && rest == samples[n..])) &&
      (bits !in {8, 16, 32} && n > 0 ==>
        (r.None? <==> samples == []) && (r.Some? ==> r.value == Err(UnsupportedBitsPerSample)))
  {
    if n > 0 && samples != [] && bits in {8, 16, 32} {
      HoundSamplesConsume(samples[1..], bits, n - 1);
    }
  }

  /**
    An empty mapping string never ends the stream: both readers yield the default point forever
    without consuming any input.
  */
  lemma EmptyMappingNeverEnds(input: seq<Byte>, width: nat, samples: seq<int>, bits: nat)
    requires width in {1, 2, 4}
    ensures RawNextSpec(input, width, "") == (Some(Ok(DefaultPoint(""))), input)
    ensures HoundNextSpec(samples, bits, "") == (Some(Ok(DefaultPoint(""))), samples)
  {
  }

  /** The hound reader: the samples hound has yet to yield, their bit depth, and the mapping. */
  class HoundReader {
    var samples: seq<int>
    const bits: nat
    const conf: string

    constructor (samples: seq<int>, bits: nat, conf: string)
      ensures this.samples == samples && this.bits == bits && this.conf == conf
    {
      this.samples, this.bits, this.conf := samples, bits, conf;
    }

    /** `next`: one sample per byte of the mapping from hound, scaled by the file's bit depth, then decoded. */
    method Next() returns (r: Option<Result<Point, DecodeError>>)
      modifies this
      ensures (r, samples) == HoundNextSpec(old(samples), bits, conf)
    {
      ghost var samples0 := samples;
      var normalised: seq<real> := [];
      var count := Utf8.Len(conf);
      HPrependNothing(HoundSamples(samples, bits, count));
      for i := 0 to count
        invariant HoundSamples(samples0, bits, count) == HPrepend(normalised, HoundSamples(samples, bits, count - i))
      {
        if samples == [] {
          return None;
        }
        var sample := samples[0];
        var value: real;
        if bits == 8 {
          value := sample as real / 127.0;
        } else if bits == 16 {
          value := sample as real / 32767.0;
        } else if bits == 32 {
          value := sample as real / 2147483647.0;
        } else {
          samples := samples[1..];
          return Some(Err(UnsupportedBitsPerSample));
        }
        assert count - i > 0 && samples != [] && bits in {8, 16, 32};
        assert value == samples[0] as real / SampleMax(bits / 8) as real;
        assert HoundSamples(samples, bits, count - i) == HPrepend([value], HoundSamples(samples[1..], bits, count - i - 1));
        HPrependTwice(normalised, [value], HoundSamples(samples[1..], bits, count - i - 1));
        samples := samples[1..];
        normalised := normalised + [value];
      }
      assert normalised + [] == normalised;
      var point := ToPoint(normalised[..|conf|], conf);
      r := Some(point);
    }
  }
}

=== FILE: seqs.dfy ===
/** Sequences of sequences laid end to end: the frames of a point stream, the records of a section. */
module Seqs {
  /** All the pieces, in order. */
  function Concat<T>(pieces: seq<seq<T>>): (r: seq<T>)
    ensures pieces == [] ==> r == []
  {
    if pieces == [] then [] else Concat(pieces[..|pieces| - 1]) + pieces[|pieces| - 1]
  }

  /** The same concatenation taken from the front: the first piece, then the rest. */
  lemma {:induction false} ConcatCons<T>(pieces: seq<seq<T>>)
    requires pieces != []
    ensures Concat(pieces) == pieces[0] + Concat(pieces[1..])
  {
    var n := |pieces|;
    if n > 1 {
      var init := pieces[..n - 1];
      ConcatCons(init);
      assert init[1..] == pieces[1..][..n - 2];
    } else {
      assert pieces[..0] == [] && pieces[1..] == [];
    }
  }
}

=== FILE: utf8.dfy ===
/**
  Byte lengths of text. Rust's `str::len` and C++'s `std::string::length` count the bytes of the
  UTF-8 encoding, not the characters, and both tools size their per-point channel groups that way.
*/
module Utf8 {
  /** The number of bytes UTF-8 spends on one character: 1 below U+0080, up to 4 above U+FFFF. */
  function Width(c: char): (w: nat)
    ensures 1 <= w <= 4
    ensures w == 1 <==> c as int < 0x80
  {
    if c as int < 0x80 then 1 else if c as int < 0x800 then 2 else if c as int < 0x1_0000 then 3 else 4
  }

  /**
    The length of a string in UTF-8 bytes: never fewer than its characters, and exactly as many
    when every character is ASCII.
  */
  function Len(s: string): (n: nat)
    ensures n >= |s|
    ensures n == |s| <==> forall i :: 0 <= i < |s| ==> s[i] as int < 0x80
  {
    if s == [] then 0
    else
      var n := Width(s[0]) + Len(s[1..]);
      assert forall i :: 1 <= i < |s| ==> s[i] == s[1..][i - 1];
      n
  }
}

=== FILE: wav_header.dfy ===
/**
  The RIFF WAVE header the legacy encoder writes (`WavHeader` in src/ilda_wav.cpp): 44 bytes,
  a RIFF chunk descriptor, a 16-byte `fmt ` chunk for 16-bit PCM and the `data` chunk header,
  every number little-endian as the Microsoft RIFF WAVE format lays it out.

  The host is taken to be little-endian, where `littleEndian()` leaves every field as it is.
*/
module WavHeader {
  import opened Wrappers
  import opened Bytes
  import opened CInt

  /** The numeric fields of the header, in file order. */
  datatype HeaderFields = HeaderFields(
    chunkSize: Uint32,
    fmtChunkSize: Uint32,
    audioFormat: Uint16,
    channels: Uint16,
    rate: Uint32,
    bytesPerSecond: Uint32,
    bytesPerBlock: Uint16,
    bitsPerSample: Uint16,
    dataSize: Uint32)

  /** The size of the packed struct. */
  const HEADER_SIZE: nat := 44

  /** The four-character codes, as the bytes of their ASCII letters. */
  const RIFF: seq<Byte> := [0x52, 0x49, 0x46, 0x46]
  const WAVE: seq<Byte> := [0x57, 0x41, 0x56, 0x45]
  const FMT: seq<Byte> := [0x66, 0x6D, 0x74, 0x20]
  const DATA: seq<Byte> := [0x64, 0x61, 0x74, 0x61]

  /** C++ conversions of an int to `uint16_t` and `uint32_t`: modulo 2^16 and 2^32. */
  function ToUint16(v: int): (u: Uint16)
    ensures 0 <= v < 0x1_0000 ==> u == v
  {
    v % 0x1_0000
  }

  function ToUint32(v: int): (u: Uint32)
    ensures 0 <= v < 0x1_0000_0000 ==> u == v
  {
    v % 0x1_0000_0000
  }

  /** The bytes of the packed struct. */
  function Serialise(h: HeaderFields): (bs: seq<Byte>)
    ensures |bs| == HEADER_SIZE
  {
    RIFF + LeBytes(h.chunkSize, 4) + WAVE +
    FMT + LeBytes(h.fmtChunkSize, 4) + LeBytes(h.audioFormat, 2) + LeBytes(h.channels, 2) +
    LeBytes(h.rate, 4) + LeBytes(h.bytesPerSecond, 4) + LeBytes(h.bytesPerBlock, 2) + LeBytes(h.bitsPerSample, 2) +
    DATA + LeBytes(h.dataSize, 4)
  }

  /** Reading 44 bytes back as a header; `None` when a four-character code is wrong. */
  function Parse(bs: seq<Byte>): (r: Option<HeaderFields>)
    requires |bs| == HEADER_SIZE
    ensures r.Some? <==> bs[0..4] == RIFF && bs[8..12] == WAVE && bs[12..16] == FMT && bs[36..40] == DATA
  {
    if bs[0..4] == RIFF && bs[8..12] == WAVE && bs[12..16] == FMT && bs[36..40] == DATA then
      Some(HeaderFields(
        LeUnsigned(bs[4..8]), LeUnsigned(bs[16..20]), LeUnsigned(bs[20..22]), LeUnsigned(bs[22..24]),
        LeUnsigned(bs[24..28]), LeUnsigned(bs[28..32]), LeUnsigned(bs[32..34]), LeUnsigned(bs[34..36]),
        LeUnsigned(bs[40..44])))
    else None
  }

  /** Every header survives being written and read back. */
  lemma ParseSerialise(h: HeaderFields)
    ensures Parse(Serialise(h)) == Some(h)
  {
    var bs := Serialise(h);
    assert bs[4..8] == LeBytes(h.chunkSize, 4);
    assert bs[16..20] == LeBytes(h.fmtChunkSize, 4);
    assert bs[20..22] == LeBytes(h.audioFormat, 2);
    assert bs[22..24] == LeBytes(h.channels, 2);
    assert bs[24..28] == LeBytes(h.rate, 4);
    assert bs[28..32] == LeBytes(h.bytesPerSecond, 4);
    assert bs[32..34] == LeBytes(h.bytesPerBlock, 2);
    assert bs[34..36] == LeBytes(h.bitsPerSample, 2);
    assert bs[40..44] == LeBytes(h.dataSize, 4);
    assert bs[0..4] == RIFF && bs[8..12] == WAVE && bs[12..16] == FMT && bs[36..40] == DATA;
    LeRoundTrip(h.chunkSize, 4);
    LeRoundTrip(h.fmtChunkSize, 4);
    LeRoundTrip(h.audioFormat, 2);
    LeRoundTrip(h.channels, 2);
    LeRoundTrip(h.rate, 4);
    LeRoundTrip(h.bytesPerSecond, 4);
    LeRoundTrip(h.bytesPerBlock, 2);
    LeRoundTrip(h.bitsPerSample, 2);
    LeRoundTrip(h.dataSize, 4);
  }

  /**
    `update(data_size)`: the data size, the RIFF chunk size 36 bytes more, the block size of one
    sample on every channel and the byte rate, each converted to its field's width.
  */
  function Updated(h: HeaderFields, dataSize: int): HeaderFields {
    var bytesPerBlock := ToUint16(h.bitsPerSample * h.channels / 8);
    h.(dataSize := ToUint32(dataSize),
       chunkSize := ToUint32(dataSize + 36),
       bytesPerBlock := bytesPerBlock,
       bytesPerSecond := ToUint32(h.rate * bytesPerBlock))
  }

  /**
    A header that describes its own file: the RIFF chunk covers the 36 bytes after it plus the
    data, and the block size and byte rate follow from depth, channels and rate.
  */
  predicate Describes(h: HeaderFields, dataSize: nat) {
    h.dataSize == dataSize &&
    h.chunkSize == dataSize + 36 &&
    h.bytesPerBlock == h.bitsPerSample * h.channels / 8 &&
    h.bytesPerSecond == h.rate * h.bytesPerBlock
  }

  /** Whenever the sizes fit their fields, `update` makes the header describe the data that follows. */
  lemma UpdatedDescribes(h: HeaderFields, dataSize: nat)
    requires dataSize + 36 < 0x1_0000_0000
    requires h.bitsPerSample * h.channels / 8 < 0x1_0000
    requires h.rate * (h.bitsPerSample * h.channels / 8) < 0x1_0000_0000
    ensures Describes(Updated(h, dataSize), dataSize)
  {
    hide ToUint16, ToUint32;
    var block := h.bitsPerSample * h.channels / 8;
    assert block >= 0 by { NonNegativeProduct(h.bitsPerSample, h.channels); }
    assert Updated(h, dataSize).bytesPerBlock == block;
    NonNegativeProduct(h.rate, block);
  }

  lemma NonNegativeProduct(a: nat, b: nat)
    ensures a * b >= 0
  {
  }

  /** The header as the encoder declares it, before any field is filled in from the data. */
  class WavHeader {
    var chunkSize: Uint32
    var fmtChunkSize: Uint32
    var audioFormat: Uint16
    var channels: Uint16
    var rate: Uint32
    var bytesPerSecond: Uint32
    var bytesPerBlock: Uint16
    var bitsPerSample: Uint16
    var dataSize: Uint32

    function State(): HeaderFields
      reads this
    {
      HeaderFields(chunkSize, fmtChunkSize, audioFormat, channels, rate, bytesPerSecond, bytesPerBlock, bitsPerSample, dataSize)
    }

    /**
      `WavHeader header; header.channels = ...; header.rate = ...;`: the struct's defaults (a
      16-byte fmt chunk, PCM, 16 bits) with the channel count and rate converted to their fields.
      The sizes the struct leaves uninitialised start at 0 here; `update` sets them before any write.
    */
    constructor (channelCount: int, sampleRate: int)
      ensures State() == HeaderFields(0, 16, 1, ToUint16(channelCount), ToUint32(sampleRate), 0, 0, 16, 0)
    {
      chunkSize, fmtChunkSize, audioFormat := 0, 16, 1;
      channels := ToUint16(channelCount);
      rate := ToUint32(sampleRate);
      bytesPerSecond, bytesPerBlock, bitsPerSample, dataSize := 0, 0, 16, 0;
    }

    /** `update(data_size)`. */
    method Update(ds: int)
      modifies this
      ensures State() == Updated(old(State()), ds)
    {
      dataSize := ToUint32(ds);
      chunkSize := ToUint32(ds + 36);
      bytesPerBlock := ToUint16(bitsPerSample * channels / 8);
      bytesPerSecond := ToUint32(rate * bytesPerBlock);
    }

    /** `littleEndian()` on a little-endian host: the bytes to write, with every field as it is. */
    method LittleEndian() returns (bs: seq<Byte>)
      ensures bs == Serialise(State())
    {
      bs := Serialise(State());
    }
  }
}

=== FILE: wav_progress.dfy ===
/**
  `WavProgress` of src/bin/ilda2wav.rs: the encoder's sample clock. It holds the continuous
  time reached so far and the number of samples written, and `advance(dt)` answers how many
  whole sample slots the next `dt` seconds need.

  f64 arithmetic is modelled as exact `real` arithmetic, except that NaN is kept as a value of
  its own: the encoder can feed the clock a NaN duration (see FrameEncoder), and the clock's
  behaviour afterwards is part of what the source does.
*/
module WavProgress {

  /** An f64 as the clock sees it: a (finite) number or NaN. */
  datatype F64 = Real(v: real) | NaN

  /** IEEE addition: NaN absorbs. */
  function Add(a: F64, b: F64): F64 {
    if a.Real? && b.Real? then Real(a.v + b.v) else NaN
  }

  /** IEEE multiplication: NaN absorbs. */
  function Mul(a: F64, b: F64): F64 {
    if a.Real? && b.Real? then Real(a.v * b.v) else NaN
  }

  /** Rust's `f64::max(self, 0.0)`: a NaN receiver yields the other operand, 0.0. */
  function MaxZero(a: F64): (r: real)
    ensures r >= 0.0
    ensures a.Real? && a.v >= 0.0 ==> r == a.v
    ensures a.NaN? || a.v <= 0.0 ==> r == 0.0
  {
    if a.Real? && a.v > 0.0 then a.v else 0.0
  }

  /** `f64::ceil`, the least integer not below x. */
  function Ceil(x: real): (c: int)
    ensures x <= c as real < x + 1.0
  {
    -((-x).Floor)
  }

  lemma CeilUnique(x: real, c: int)
    requires x <= c as real < x + 1.0
    ensures c == Ceil(x)
  {
  }

  /** The clock: `cur_time` and `cur_sample`. */
  datatype ClockState = ClockState(time: F64, sample: nat)

  const START: ClockState := ClockState(Real(0.0), 0)

  /** `cur_sample as f64 * time_per_sample`: the nominal time of the next unwritten sample. */
  function SampleTime(sample: nat, tps: real): real {
    sample as real * tps
  }

  /**
    The number `advance(dt)` returns: the samples needed to cover the time from the nominal
    time of the next unwritten sample, `sample * tps`, up to `time + dt`, rounded up; none
    when that span is empty or NaN.
  */
  function SamplesFor(s: ClockState, tps: real, dt: F64): (n: nat)
    requires tps > 0.0
  {
    var next := Add(s.time, dt);
    var range := MaxZero(Add(next, Real(-SampleTime(s.sample, tps))));
    CeilDiv(range, tps)
  }

  /**
    What the count means: none when the new time is NaN or not past the next unwritten
    sample; otherwise just enough samples to reach the new time, and less than one period more.
  */
  lemma SamplesForCovers(s: ClockState, tps: real, dt: F64)
    requires tps > 0.0
    ensures Add(s.time, dt).NaN? ==> SamplesFor(s, tps, dt) == 0
    ensures Add(s.time, dt).Real? ==> var next := Add(s.time, dt).v;
      (next <= s.sample as real * tps ==> SamplesFor(s, tps, dt) == 0) &&
      (next > s.sample as real * tps ==>
         next <= (s.sample + SamplesFor(s, tps, dt)) as real * tps < next + tps)
  {
    var n := SamplesFor(s, tps, dt);
    Distrib(s.sample as real, n as real, tps);
  }

  /** `(range / tps).ceil()`: the whole number of periods that covers range, overshooting by less than one period. */
  function CeilDiv(range: real, tps: real): (c: nat)
    requires tps > 0.0 && range >= 0.0
    ensures range <= c as real * tps < range + tps
    ensures range == 0.0 ==> c == 0
  {
    var q := range / tps;
    var c := Ceil(q);
    assert q * tps == range;
    assert q >= 0.0;
    assert q <= c as real < q + 1.0;
    MulMono(q, c as real, tps);
    MulMonoStrict(c as real, q + 1.0, tps);
    assert c as real * tps < (q + 1.0) * tps;
    Distrib(q, 1.0, tps);
    assert (q + 1.0) * tps == q * tps + 1.0 * tps;
    assert c as real * tps < range + tps;
    c
  }

  lemma Distrib(a: real, b: real, k: real)
    ensures (a + b) * k == a * k + b * k
  {
  }

  lemma MulDivCancel(a: real, k: real)
    requires k != 0.0
    ensures (a * k) / k == a
  {
  }

  lemma MulMono(a: real, b: real, k: real)
    requires a <= b && k > 0.0
    ensures a * k <= b * k
  {
  }

  lemma MulMonoStrict(a: real, b: real, k: real)
    requires a < b && k > 0.0
    ensures a * k < b * k
  {
  }

  /** The clock after `advance(dt)`: time moves by exactly dt, the sample count by exactly n. */
  function Advanced(s: ClockState, tps: real, dt: F64): (s': ClockState)
    requires tps > 0.0
    ensures s'.time == Add(s.time, dt)
    ensures s'.sample == s.sample + SamplesFor(s, tps, dt)
  {
    ClockState(Add(s.time, dt), s.sample + SamplesFor(s, tps, dt))
  }

  /**
    The clock invariant: the samples written cover the time reached, and overshoot it by less
    than one sample period.
  */
  predicate InSync(s: ClockState, tps: real) {
    s.time.Real? && s.time.v <= s.sample as real * tps < s.time.v + tps
  }

  lemma StartInSync(tps: real)
    requires tps > 0.0
    ensures InSync(START, tps)
  {
  }

  /** Advancing by a non-negative duration keeps the clock in sync. */
  lemma AdvanceKeepsSync(s: ClockState, tps: real, dt: real)
    requires tps > 0.0 && dt >= 0.0 && InSync(s, tps)
    ensures InSync(Advanced(s, tps, Real(dt)), tps)
  {
    var next := s.time.v + dt;
    var n := SamplesFor(s, tps, Real(dt));
    SamplesForCovers(s, tps, Real(dt));
    if next <= s.sample as real * tps {
      assert n == 0;
    } else {
      assert next <= (s.sample + n) as real * tps < next + tps;
    }
  }

  /** In sync, the sample count is ceil(time / tps): it depends on the time reached only. */
  lemma SyncedSampleIsCeil(s: ClockState, tps: real)
    requires tps > 0.0 && InSync(s, tps)
    ensures s.sample == Ceil(s.time.v / tps)
  {
    CeilOfQuotient(s.time.v, tps, s.sample);
  }

  /** The only integer k with t <= k * tps < t + tps is ceil(t / tps). */
  lemma CeilOfQuotient(t: real, tps: real, k: int)
    requires tps > 0.0 && t <= k as real * tps < t + tps
    ensures k == Ceil(t / tps)
  {
    var q := t / tps;
    assert q * tps == t;
    if k as real < q {
      MulMonoStrict(k as real, q, tps);
      assert false;
    }
    if k as real >= q + 1.0 {
      MulMono(q + 1.0, k as real, tps);
      Distrib(q, 1.0, tps);
      assert false;
    }
    CeilUnique(q, k);
  }

  /** Once the time is NaN every advance returns 0 and the time stays NaN. */
  lemma PoisonAbsorbs(s: ClockState, tps: real, dt: F64)
    requires tps > 0.0 && s.time.NaN?
    ensures SamplesFor(s, tps, dt) == 0
    ensures Advanced(s, tps, dt) == ClockState(NaN, s.sample)
  {
  }

  function Sum(dts: seq<real>): real {
    if dts == [] then 0.0 else Sum(dts[..|dts| - 1]) + dts[|dts| - 1]
  }

  predicate NonNegative(dts: seq<real>) {
    forall i :: 0 <= i < |dts| ==> dts[i] >= 0.0
  }

  /** The clock after a sequence of advances, one per duration, in order. */
  function Run(s: ClockState, tps: real, dts: seq<real>): ClockState
    requires tps > 0.0
  {
    if dts == [] then s else Advanced(Run(s, tps, dts[..|dts| - 1]), tps, Real(dts[|dts| - 1]))
  }

  /**
    However a duration is split into advances, starting from zero the clock reaches exactly
    that time, and the samples written are exactly ceil(total / tps): no slot is skipped and
    none is counted twice.
  */
  lemma {:induction false} RunCoversTime(tps: real, dts: seq<real>)
    requires tps > 0.0 && NonNegative(dts)
    ensures Run(START, tps, dts).time == Real(Sum(dts))
    ensures InSync(Run(START, tps, dts), tps)
    ensures Run(START, tps, dts).sample == Ceil(Sum(dts) / tps)
  {
    if dts == [] {
      StartInSync(tps);
    } else {
      var init := dts[..|dts| - 1];
      assert NonNegative(init);
      RunCoversTime(tps, init);
      AdvanceKeepsSync(Run(START, tps, init), tps, dts[|dts| - 1]);
    }
    SyncedSampleIsCeil(Run(START, tps, dts), tps);
  }

  /** Two splittings of the same total time produce the same number of samples. */
  lemma ChunkingIrrelevant(tps: real, dts1: seq<real>, dts2: seq<real>)
    requires tps > 0.0 && NonNegative(dts1) && NonNegative(dts2) && Sum(dts1) == Sum(dts2)
    ensures Run(START, tps, dts1) == Run(START, tps, dts2)
  {
    RunCoversTime(tps, dts1);
    RunCoversTime(tps, dts2);
  }

  /** WavProgress itself. */
  class Progress {
    var time: F64
    var sample: nat
    const timePerSample: real

    function State(): ClockState
      reads this
    {
      ClockState(time, sample)
    }

    constructor (tps: real)
      requires tps > 0.0
      ensures timePerSample == tps && State() == START
    {
      time, sample, timePerSample := Real(0.0), 0, tps;
    }

    /** `advance`: returns the whole number of sample slots dt needs and moves the clock. */
    method Advance(dt: F64) returns (n: nat)
      requires timePerSample > 0.0
      modifies this
      ensures n == SamplesFor(old(State()), timePerSample, dt)
      ensures State() == Advanced(old(State()), timePerSample, dt)
    {
      var next := Add(time, dt);
      var range := MaxZero(Add(next, Real(-SampleTime(sample, timePerSample))));
      n := CeilDiv(range, timePerSample);
      time := next;
      sample := sample + n;
    }
  }
}

=== FILE: wrappers.dfy ===
/** Option and Result, the two failure-carrying values the rest of the model returns. */
module Wrappers {

  datatype Option<+T> = None | Some(value: T)

  datatype Result<+T, +E> = Ok(value: T) | Err(error: E)
}
